=== FILE: README.md ===
# event-deep-research, the deterministic core in Dafny

event-deep-research builds a chronology of a historical figure's life. LLM
agents built on LangGraph crawl biography pages, extract events, sort them
into four life categories and merge them. This project models the logic
that is left once every model reply, scraper result and tokenizer is
treated as an uninterpreted input. It then proves what that logic
guarantees for every such input.

The modules follow the repository's files:

| module | file(s) | what it models |
|---|---|---|
| `CrawlerUtils` | src/url_crawler/utils.py | `url_crawl`'s None guard, `remove_markdown_links`, the token-window chunker `chunk_text_by_tokens`, `count_tokens` |
| `LegacyCrawlerUtils` | legacy/url_crawler/utils.py | the unguarded `url_crawl` and the duplicate chunker |
| `ChunkGraph` | index.py | `split_text`, the fixed 200-character splitter, and the `chunk_<i>` result keys of `check_chunk_for_events` |
| `UrlCrawlerGraph` | src/url_crawler/url_krawler_graph.py | chunking a page, mapping each chunk and its verdict to the kept content, concatenating in order |
| `EventCategories` | src/research_events/state.py | the four-category record `CategoriesWithEvents` |
| `MergeEventsGraph` | src/research_events/merge_events/merge_events_graph.py | split, filter, the index-driven extraction loop, the per-category merge |
| `ResearchEventsGraph` | src/research_events/research_events_graph.py | the URL-queue loop |
| `KronoResearcher` | src/krono_researcher.py | the supervisor and researcher loops with their budgets, safe tool execution, the compression retry loop |
| `ReactTurn` | src/kronologs_researcher_graph.py, src/index.py, new_graph/index.py | the researcher / researcher_tools turn these three graphs share, parameterised by what differs |
| `KronologsResearcherGraph` | src/kronologs_researcher_graph.py | crawls through the url-crawler subgraph, `clean_and_order_events`, `structure_events` |
| `SrcIndex` | src/index.py | crawls summarised by `update_event_summary`, `compress_research` |
| `NewGraphIndex` | new_graph/index.py | crawls of the stub pages, `compress_research` |
| `NewGraphUtils` | new_graph/utils.py | the fake `url_crawl`, `think_tool`, `get_all_tools`, `execute_tool_safely`, `count_tokens` |
| `ChronologyState` | src/state.py, new_graph/state.py | the event records |
| `Reducer` | src/state.py, new_graph/state.py | `override_reducer` |
| `Configuration` | src/configuration.py | the field defaults and `from_runnable_config` |
| `Messages`, `Text`, `Wrappers` | — | chat messages and tool calls, Python string operations, `Option`/`Result` |

Some inputs the Python code reads from the world become parameters:

- **Chat models.** A model is a function from the prompt messages to the reply text and tool calls (`Messages.ChatModel`).
- **Structured-output and merge calls.** These are functions from their prompt input to their parsed output.
- **The Firecrawl scrape.** It is an `Option<string>`, with None for a failed scrape.
- **tiktoken.** It is an `encode` / `decode` pair, and the chunkers work on the abstract token sequence.
- **The process environment.** It is a `map<string, string>`.
- **Prompt formatting.** It is a function from the formatted values to the prompt text.

Exceptions the source raises are `Failure` values of a `Result`, never preconditions. These include a ValueError on empty input, a KeyError on a missing tool argument, and IndexError and AttributeError on an empty or non-AI last message. LangGraph's `Command(goto=…, update=…)` becomes the next state, or a routing value, returned by a pure function. Message channels use `override_reducer`'s append branch, so every node's update is appended to the list it read. The supervisor's channels are taken from new_graph/state.py, because src/state.py does not declare them (see "## Left out").

The three ReAct graphs share one turn (`ReactTurn`). That turn is parameterised by three things:

- the name of the completion tool;
- whether raw notes are recorded;
- a `Crawler`, the summary and note one url_crawl call leaves.

Each graph module instantiates it and proves what its own instantiation implies. The graphs have no iteration budget. A `fuel` bound on the number of rounds stands in for LangGraph's recursion limit, and `ReactTurn.NeverHandsOver` shows that a model that keeps reflecting is never stopped.

## Model

| member | source | states |
|---|---|---|
| CrawlerUtils.UrlCrawl | src/url_crawler/utils.py:10-19 | a failed scrape (None) gives ""; otherwise the scraped text with its Markdown links removed |
| CrawlerUtils.RemoveMarkdownLinks | src/url_crawler/utils.py:43-45 | removing links never lengthens the text |
| CrawlerUtils.NoBracketUnchanged | src/url_crawler/utils.py:43-45 | a text without "[" holds no link and is returned unchanged |
| CrawlerUtils.BracketFreePrefix | src/url_crawler/utils.py:43-45 | a bracket-free prefix passes through untouched in front of the rest |
| CrawlerUtils.SimpleLink | src/url_crawler/utils.py:43-45 | "[text](target)" followed by more text becomes "text" followed by that text with its own links removed |
| CrawlerUtils.OneLink | src/url_crawler/utils.py:43-45 | a single link "[text](target)" becomes exactly "text" |
| CrawlerUtils.Window | src/url_crawler/utils.py:63-64 | `tokens[start:start+size]`: at most `size` tokens, each the token at its offset, and exactly `min(size, len - start)` when it starts inside |
| CrawlerUtils.StartIsProduct | src/url_crawler/utils.py:61-66 | the k-th value of `start_index` is `k * (chunk_size - overlap_size)` |
| CrawlerUtils.StartMonotone | src/url_crawler/utils.py:66 | later windows start at least one stride later |
| CrawlerUtils.ChunkCountIsCeiling | src/url_crawler/utils.py:62-66 | the number of loop rounds is `ceil(len(tokens) / step)` |
| CrawlerUtils.StartInside | src/url_crawler/utils.py:62 | start offset k lies inside the tokens exactly for the first `ceil(len/step)` values of k |
| CrawlerUtils.ChunkTokens | src/url_crawler/utils.py:60-66 | the windows by index: the count is `ceil(len/step)`, no tokens iff no windows, every window is non-empty with at most `chunk_size` tokens, and window k is `tokens[k*step : k*step+chunk_size]` |
| CrawlerUtils.ChunkTokensLoop | src/url_crawler/utils.py:60-66 | the while loop as written computes exactly the windows `ChunkTokens` describes, and terminates whenever `overlap_size < chunk_size` |
| CrawlerUtils.ChunkTextByTokens | src/url_crawler/utils.py:48-75 | empty text gives no chunks; otherwise there are `ceil(len(tokens)/step)` chunks and chunk k decodes window k |
| CrawlerUtils.ChunkCountFormula | src/url_crawler/utils.py:62-66 | the chunk count is `(len(tokens) + step - 1) / step` |
| CrawlerUtils.WindowsInStartOrder | src/url_crawler/utils.py:66 | chunks come in increasing start order, at least one stride apart |
| CrawlerUtils.FindWindow | src/url_crawler/utils.py:62-66 | every token index lies in the stride of some window |
| CrawlerUtils.Coverage | src/url_crawler/utils.py:62-66 | with a non-negative overlap every token index is covered by a window that holds that very token, so there is no gap |
| CrawlerUtils.TrailingWindowInsidePredecessor | src/url_crawler/utils.py:62-66 | when at most `overlap_size` tokens remain after the last start, the last window lies wholly inside the one before it |
| CrawlerUtils.CountTokensAppend | src/url_crawler/utils.py:81-83 | `count_tokens` is additive over concatenated message lists; legacy/url_crawler/utils.py defines the same sum at the same lines |
| CrawlerUtils.CountTokensSingle | src/url_crawler/utils.py:81-83 | the empty list counts 0 and each message adds its own token count |
| CrawlerUtils.CountTokens | src/url_crawler/utils.py:81-83 | every message's token count is at most the total, and the total is 0 iff every message encodes to no tokens |
| LegacyCrawlerUtils.LegacyUrlCrawl | legacy/url_crawler/utils.py:10-19 | without the None guard a failed scrape is an error (re.sub on None) and only a failed scrape is; otherwise the guarded result |
| LegacyCrawlerUtils.GuardOnlyMattersForNone | legacy/url_crawler/utils.py:16-19 | the legacy and guarded crawls agree whenever the scrape succeeded; where the legacy one fails, the guarded one returns "" |
| LegacyCrawlerUtils.LegacyChunkSpan | legacy/url_crawler/utils.py:60-66 | chunk k starts inside the tokens at `k*(chunk_size-overlap_size)` and spans `[start, min(start+chunk_size, len))` |
| LegacyCrawlerUtils.NoStrideNoProgress | legacy/url_crawler/utils.py:62-66 | with `chunk_size <= overlap_size` the start index never reaches the end of non-empty input, so the loop does not terminate |
| ChunkGraph.SplitText | index.py:21-26 | empty text iff no chunks; `ceil(len/200)` chunks; chunk i is `text[200i : 200i+200]`, is non-empty and at most 200 long; every chunk but the last is exactly 200 long |
| ChunkGraph.SplitTextRoundTrip | index.py:25 | concatenating the chunks in order gives back the text |
| ChunkGraph.ChunkKeyInjective | index.py:61 | distinct chunk indices get distinct `chunk_<i>` keys |
| ChunkGraph.KeySetMembers | index.py:34 | the keys of n chunks are exactly `chunk_0` … `chunk_<n-1>` |
| ChunkGraph.CheckChunkForEvents | index.py:29-63 | `results` has exactly one key per chunk index, and the key of chunk i holds that chunk's verdict |
| ChunkGraph.RecordVerdict | index.py:34-61 | recording chunk i's verdict keeps the verdicts recorded for earlier chunks |
| ChunkGraph.KeysDistinct | index.py:61 | the key of chunk i differs from every earlier chunk's key |
| ChunkGraph.NewKey | index.py:61 | each step adds a key not present before |
| ChunkGraph.ResultKeysAreChunkIndices | index.py:34-61 | a key is in `results` iff it names a chunk index |
| UrlCrawlerGraph.CategoryOfName | src/url_crawler/url_krawler_graph.py:134-166 | a recognised tool name stands for its category; any other name is UNKNOWN |
| UrlCrawlerGraph.DivideContentIntoChunks | src/url_crawler/url_krawler_graph.py:94-101 | page content is chunked with `chunk_size=1000` and `overlap_size=20`: no content gives no chunk, otherwise `ceil(len(tokens)/980)` decoded windows |
| UrlCrawlerGraph.CategorizeChunk | src/url_crawler/url_krawler_graph.py:124-166 | no tool call gives UNKNOWN keeping the whole chunk; otherwise the first call's name decides. Relevant keeps the chunk verbatim, Partial keeps `relevant_content`, Irrelevant keeps "", and an unknown name keeps the chunk; a missing `explanation` (or `relevant_content`) argument is a KeyError |
| UrlCrawlerGraph.OnlyFirstCallDecides | src/url_crawler/url_krawler_graph.py:126-132 | tool calls after the first never change the entry |
| UrlCrawlerGraph.ExtractEventsFromChunks | src/url_crawler/url_krawler_graph.py:104-170 | succeeds iff every chunk's response is well formed; then exactly one entry per chunk, in chunk order, entry i being chunk i's categorisation |
| UrlCrawlerGraph.MergeEvents | src/url_crawler/url_krawler_graph.py:173-178 | the `+=` loop computes the in-order concatenation of the kept contents, with no separator |
| UrlCrawlerGraph.IrrelevantContributeNothing | src/url_crawler/url_krawler_graph.py:153-162 | dropping the irrelevant entries leaves the events unchanged |
| UrlCrawlerGraph.WholeChunksKept | src/url_crawler/url_krawler_graph.py:134-142 | when every chunk is Relevant or UNKNOWN, the events are the chunks concatenated |
| UrlCrawlerGraph.CrawlUrl | src/url_crawler/url_krawler_graph.py:83-178 | the returned content is `url_crawl`'s; a failed scrape gives empty content and events; the crawl fails exactly when extracting events from the page's chunks fails, with the same error; on success the events are the in-order concatenation of the entries' kept contents, never longer than the text the chunks can contribute |
| UrlCrawlerGraph.SilentModelKeepsEveryChunk | src/url_crawler/url_krawler_graph.py:126-178 | a model that never calls a tool leaves every chunk UNKNOWN, so the events are all of the page's chunks, overlaps included, in order |
| UrlCrawlerGraph.EventsBounded | src/url_crawler/url_krawler_graph.py:134-178 | each chunk contributes at most the chunk itself or the model's Partial extract |
| EventCategories.AllCategoriesListed | src/research_events/state.py:4-20 | the four fields are listed once each |
| EventCategories.Build | src/research_events/state.py:4-20 | the record built from a per-category function holds that function's value in every field |
| EventCategories.Extensionality | src/research_events/state.py:4-20 | two records agreeing on every category are equal |
| MergeEventsGraph.SplitEventsAsWritten | src/research_events/merge_events/merge_events_graph.py:60-78 | blank input ends the graph with no chunks; any other input raises TypeError at the `await` |
| MergeEventsGraph.AwaitBreaksEveryExtract | src/research_events/merge_events/merge_events_graph.py:73 | as written, no non-blank extract (for instance "Born 1879") ever reaches `filter_chunks` |
| MergeEventsGraph.UnicodeSpacesAreBlank | src/research_events/merge_events/merge_events_graph.py:66-71 | an extract of no-break, tab and ideographic spaces is blank to `str.strip()`, so even as written it ends the graph with no chunks |
| MergeEventsGraph.SplitEvents | src/research_events/merge_events/merge_events_graph.py:60-78 | blank input iff no content; otherwise the first `min(20, ceil(len(tokens)/1980))` chunks of the default chunker, in order |
| MergeEventsGraph.SplitEventsAgreesOnBlank | src/research_events/merge_events/merge_events_graph.py:66-71 | the corrected node agrees with the as-written one wherever the latter succeeds |
| MergeEventsGraph.Flagged | src/research_events/merge_events/merge_events_graph.py:101-113 | the flagged chunks are all flagged, and there are none iff no chunk is |
| MergeEventsGraph.FilterChunks | src/research_events/merge_events/merge_events_graph.py:81-122 | goes on iff some chunk within `max_chunks` is flagged; then the whole truncated prefix, unflagged chunks included, is forwarded |
| MergeEventsGraph.FilterForwardsPrefix | src/research_events/merge_events/merge_events_graph.py:92-122 | the filter forwards exactly the first `max_chunks` chunks, flagged or not, when one of them is flagged, and ends otherwise |
| MergeEventsGraph.ParseCategorized | src/research_events/merge_events/merge_events_graph.py:149-162 | no call, or a first call not named RelevantEventsCategorized, gives four empty categories; otherwise each field is its argument with lists joined by "\n" |
| MergeEventsGraph.ListFieldJoined | src/research_events/merge_events/merge_events_graph.py:156-159 | a list-valued field is shown as its items joined by newlines |
| MergeEventsGraph.ExtractAndCategorizeChunk | src/research_events/merge_events/merge_events_graph.py:125-167 | moves to merging iff every chunk is categorised; otherwise appends exactly one result, for the chunk at index `len(categorized_chunks)` |
| MergeEventsGraph.RunExtraction | src/research_events/merge_events/merge_events_graph.py:125-167 | the self-loop visits the node `len(chunks) + 1` times and leaves result i aligned with chunk i |
| MergeEventsGraph.CategorizeAll | src/research_events/merge_events/merge_events_graph.py:132-167 | one categorisation per chunk, aligned by index |
| MergeEventsGraph.Display | src/research_events/merge_events/merge_events_graph.py:215-222 | a blank side is shown as "No events"; otherwise as its stripped, non-blank text |
| MergeEventsGraph.CombineCategory | src/research_events/merge_events/merge_events_graph.py:213-226 | a category blank on both sides keeps its existing value; otherwise it is the merge model's answer for the stripped sides, a blank side shown as "No events" |
| MergeEventsGraph.CombineNewAndOriginal | src/research_events/merge_events/merge_events_graph.py:184-249 | all-blank new events leave the existing ones unchanged; a category with both sides blank keeps its existing value; every other category takes the merge model's output for the two displays |
| MergeEventsGraph.MergeCalls | src/research_events/merge_events/merge_events_graph.py:203-233 | a merge call is issued for a category iff the new events are not all blank and that category has a non-blank side, each category at most once |
| MergeEventsGraph.NeedingMerge | src/research_events/merge_events/merge_events_graph.py:213-219 | the categories of the list that need a merge, in order, without repeats |
| MergeEventsGraph.UnmergedCategoriesKept | src/research_events/merge_events/merge_events_graph.py:243-248 | a category with no merge call keeps its existing value, so all four are always present |
| MergeEventsGraph.MergeSidesNeverBlank | src/research_events/merge_events/merge_events_graph.py:221-226 | the merge model never sees a blank side |
| MergeEventsGraph.MergeEventsGraph | src/research_events/merge_events/merge_events_graph.py:60-249 | with `split_events` corrected, the existing events come back unchanged for blank input, for `max_chunks` 0, when nothing is flagged, and when the per-chunk results merge to nothing; for a non-blank extract the result is the existing events combined with the merge of the categorisations of the first `max_chunks` chunks when one of those is flagged, and the existing events otherwise |
| MergeEventsGraph.MergeEventsGraphAsWritten | src/research_events/merge_events/merge_events_graph.py:60-78 | as written, the graph succeeds only on blank input, and then returns the existing events |
| ResearchEventsGraph.UrlFinder | src/research_events/research_events_graph.py:22-39 | an empty prompt raises ValueError; otherwise the queue is exactly the one Britannica URL and nothing else changes |
| ResearchEventsGraph.ShouldProcessUrl | src/research_events/research_events_graph.py:42-53 | routes to `crawl_url` iff the queue is non-empty |
| ResearchEventsGraph.CrawlUrl | src/research_events/research_events_graph.py:56-71 | crawls the head of the queue and stashes its events, changing nothing else; an empty queue raises, and so does the crawler subgraph, with its own error |
| ResearchEventsGraph.MergeEventsAndUpdate | src/research_events/research_events_graph.py:74-99 | fails with the merge subgraph's error iff it raises; otherwise the events become the merge output, exactly the head is removed, and the temporary field is cleared |
| ResearchEventsGraph.NeverRaisingSubgraphsFinish | src/research_events/research_events_graph.py:56-99 | when neither subgraph ever raises, the crawl/merge loop gets through every queued URL |
| ResearchEventsGraph.RaisingHeadCrawlFails | src/research_events/research_events_graph.py:60-64 | a crawler subgraph raising on the head URL ends the run with its error, before any merge |
| ResearchEventsGraph.OneUrlQueue | src/research_events/research_events_graph.py:56-99 | a one-URL queue gives the crawl's error, or else exactly what the merge of its extract gives |
| ResearchEventsGraph.RunQueue | src/research_events/research_events_graph.py:42-99 | the loop crawls the queued URLs in order, each once; it succeeds iff no subgraph raises, then after exactly `len(urls)` rounds with the in-order merges; otherwise it stops after the completed rounds with the raising subgraph's error |
| ResearchEventsGraph.ResearchEvents | src/research_events/research_events_graph.py:22-99 | fails iff the prompt is empty, the seed URL's crawl raises or its merge raises, with the first of those errors; otherwise the merge of the seed URL's crawl into the starting events |
| ResearchEventsGraph.AsWrittenMergeFailsResearch | src/research_events/research_events_graph.py:74-87 | with the merge subgraph as written, a crawl that yields a non-blank extract fails the whole run |
| KronoResearcher.Supervisor | src/krono_researcher.py:43-90 | an empty person raises ValueError; each step adds 1 to the iterations; the first step adds system, human and reply, later steps only the reply |
| KronoResearcher.Gather | src/krono_researcher.py:157-173 | `asyncio.gather` over the sub-researches: succeeds iff every one succeeds, with result i being topic i's output; otherwise fails with the error of a failing sub-research, the first in call order |
| KronoResearcher.ResearchMessages | src/krono_researcher.py:176-186 | one tool message per ConductResearch call, in call order, holding its result or the fixed "Maximum retries exceeded" text when `compressed_research` is missing |
| KronoResearcher.AnswerSupervisorCalls | src/krono_researcher.py:131-189 | one message per think_tool call, then one per ConductResearch call, in call order, each with its call's id; think answers are "Reflection recorded: …"; a missing argument is a KeyError, and a failing sub-research fails the turn with its error |
| KronoResearcher.AnswersInOrder | src/krono_researcher.py:141-186 | in the combined list, the i-th think answer is at position i and the i-th research answer comes after all think answers |
| KronoResearcher.SupervisorTools | src/krono_researcher.py:93-190 | ends iff the iterations exceed the budget, there are no tool calls, or ResearchComplete is called; otherwise appends exactly the answers and goes back to the supervisor |
| KronoResearcher.OtherCallsUnanswered | src/krono_researcher.py:135-156 | a call with any other name gets no tool message |
| KronoResearcher.FailingResearchFailsTurn | src/krono_researcher.py:157-173 | when a turn goes on and one ConductResearch sub-research raises, the whole supervisor turn raises |
| KronoResearcher.RunSupervisor | src/krono_researcher.py:43-190 | at most `max_researcher_iterations + 1` supervisor turns, whatever the model and the sub-researchers answer |
| KronoResearcher.Researcher | src/krono_researcher.py:198-239 | with no tools raises ValueError; otherwise adds 1 to the iterations and appends the model's reply to the system prompt and the history |
| KronoResearcher.ExecuteToolSafely | src/krono_researcher.py:243-248 | never raises: a tool failure becomes "Error executing tool: …" |
| KronoResearcher.ToolOutputs | src/krono_researcher.py:281-301 | one tool message per call, in call order, with the safe execution's output; the first call, in call order, whose name is not a tool raises KeyError naming it |
| KronoResearcher.ResearcherTools | src/krono_researcher.py:251-319 | no tool calls goes to compression unchanged; otherwise every call is answered and the loop goes to compression iff the iterations reached `max_react_tool_calls` or ResearchComplete was called |
| KronoResearcher.ResearcherRound | src/krono_researcher.py:198-319 | one researcher and one tools turn: one more iteration, history extended, and the loop continues only while under the budget |
| KronoResearcher.RunResearcher | src/krono_researcher.py:198-319 | at most `max(max_react_tool_calls, 1)` researcher turns before compression, whatever the model answers |
| KronoResearcher.CompressFrom | src/krono_researcher.py:356-404 | the retry loop: the first successful attempt gives its text and the joined notes; if all remaining attempts fail, the fixed error and the notes as a one-element list |
| KronoResearcher.NotesOf | src/krono_researcher.py:369-377 | `raw_notes`: empty when the conversation has no tool or AI message; a lone tool or AI message's content as it stands |
| KronoResearcher.CompressResearch | src/krono_researcher.py:322-404 | at most 3 attempts; success iff some attempt succeeds, and then `compressed_research` is the text of the first successful attempt, every earlier attempt having failed, and `raw_notes` the joined notes; on exhaustion "Error synthesizing research report: Maximum retries exceeded" and `raw_notes` as a one-element list |
| KronoResearcher.ToolAndAiUnchangedByHuman | src/krono_researcher.py:351-376 | the appended human instruction never shows in the raw notes |
| Messages.CallsNamed | src/krono_researcher.py:135-139 | the filtered calls all carry the name, and there are none iff no call has it |
| Messages.CallsNamedMembers | src/krono_researcher.py:135-139 | the filter keeps exactly the calls of that name |
| Messages.CallsNamedAppend | src/krono_researcher.py:135-139 | filtering distributes over concatenation, so filtered calls keep their order |
| Messages.Arg | src/krono_researcher.py:142 | `tool_call["args"][key]` succeeds iff the key is present |
| Messages.LastToolCalls | src/krono_researcher.py:272-275 | `messages[-1].tool_calls` succeeds iff the last message exists and is an AI message |
| Messages.ArgsOf | src/kronologs_researcher_graph.py:120-121 | every call's argument, in order, and a failure iff some call lacks it |
| Messages.ThinkMessages | src/kronologs_researcher_graph.py:102-110 | one "Reflection recorded: <reflection>" tool message per think_tool call, in order, with its call's id |
| Messages.ToolAndAiMessages | src/krono_researcher.py:373-375 | exactly the tool and AI messages are kept; a single message is kept iff it is a tool or AI message |
| Messages.ToolAndAiAppend | src/krono_researcher.py:373-375 | `filter_messages` keeps order and repetitions: filtering a concatenation concatenates the filtered parts |
| ReactTurn.Researcher | src/kronologs_researcher_graph.py:37-69 | an empty figure raises ValueError; otherwise one more iteration and the model's reply to the system prompt and history appended, nothing else changed |
| ReactTurn.Finished | src/kronologs_researcher_graph.py:77-90 | hands over iff there are no tool calls or a completion call; a non-AI last message fails, because `tool_calls` is read before the isinstance check |
| ReactTurn.CrawlCalls | src/kronologs_researcher_graph.py:118-133 | one "Url crawled: <url>" message per url_crawl call, in order; the summary is the last crawl's |
| ReactTurn.CrawlNotesDomain | src/kronologs_researcher_graph.py:118-126 | the raw notes hold exactly the earlier notes and the crawled URLs |
| ReactTurn.CrawlNotesUntouched | src/kronologs_researcher_graph.py:118-126 | the note of a URL that was not crawled is left as it was |
| ReactTurn.CrawlNotesLastWins | src/kronologs_researcher_graph.py:126 | a URL crawled more than once keeps the note of its last crawl |
| ReactTurn.AnswerCalls | src/kronologs_researcher_graph.py:93-133 | think answers first, then crawl answers; a missing reflection or url argument fails |
| ReactTurn.ResearcherTools | src/kronologs_researcher_graph.py:72-142 | hands over iff the exit test holds; otherwise appends the think and crawl answers and takes the round's summary and notes |
| ReactTurn.ThinkOrCrawlAnswered | src/kronologs_researcher_graph.py:93-133 | one answer per think_tool and per url_crawl call, so a turn with either gets at least one answer |
| ReactTurn.TurnResult | src/kronologs_researcher_graph.py:92-142 | the continuing turn's state is the old messages plus think and crawl answers, with the crawl round's summary and (if recorded) notes |
| ReactTurn.CrawlAnswerPosition | src/kronologs_researcher_graph.py:127-133 | the j-th url_crawl call is answered right after all think answers, at offset j |
| ReactTurn.RoundSummaryAndNotes | src/kronologs_researcher_graph.py:118-126 | a crawl round leaves the summary of its last crawl, last-wins notes and untouched other notes |
| ReactTurn.TurnSummaryAndNotes | src/kronologs_researcher_graph.py:118-141 | after a continuing turn the summary is the last crawl's (unchanged without crawls), and notes are last-wins and otherwise unchanged |
| ReactTurn.Round | src/kronologs_researcher_graph.py:37-142 | fails iff the figure is empty or the tools turn fails; one more iteration, a longer history, the figure kept; a hand-over returns the researcher's state |
| ReactTurn.Rounds | src/kronologs_researcher_graph.py:37-142 | at most n iterations; still running after n rounds means exactly n; no budget is consulted |
| ReactTurn.HandsOverOnFinalReply | src/kronologs_researcher_graph.py:85-90 | a reply without tool calls, or with a completion call, hands over at once with that reply appended |
| ReactTurn.NeverHandsOver | src/kronologs_researcher_graph.py:72-142 | no budget: against a model that only ever reflects, the loop never hands over |
| ReactTurn.CompressionInput | src/index.py:173-182 | the structuring model sees the history plus one human message built from the event summary |
| KronologsResearcherGraph.SubgraphCrawler | src/kronologs_researcher_graph.py:120-126 | a crawl's event summary is the subgraph's events and its note the subgraph's page content, whatever the summary before the crawl |
| KronologsResearcherGraph.TurnKeepsLastCrawl | src/kronologs_researcher_graph.py:118-126 | the event summary is the last crawl's events alone (unchanged without crawls); each crawled URL's note is its last page content; other notes are kept |
| KronologsResearcherGraph.ProcessedSummary | src/kronologs_researcher_graph.py:172-177 | "Processed: " followed by the cleaned text when it is at most 100 characters, otherwise its first 100 characters and "..." |
| KronologsResearcherGraph.ProcessedSummarySame | src/kronologs_researcher_graph.py:172-177 | two cleaned texts give the same summary iff they are equal, or both exceed 100 characters with the same first 100 |
| KronologsResearcherGraph.CleanAndOrderEvents | src/kronologs_researcher_graph.py:145-180 | the cleaned text is the model's answer for the event summary, and the new summary is built from it |
| KronologsResearcherGraph.StructureEvents | src/kronologs_researcher_graph.py:183-213 | an empty cleaned text gives no events without calling the model |
| KronologsResearcherGraph.Research | src/kronologs_researcher_graph.py:37-213 | an empty figure fails; a result comes from the state the loop hands over, through cleaning and structuring |
| KronologsResearcherGraph.ImmediateFinishUsesStartingSummary | src/kronologs_researcher_graph.py:85-90 | a model that finishes at once leaves the starting summary to be cleaned; a cleaning that yields nothing gives no events |
| SrcIndex.SummarizingCrawler | src/index.py:120-125 | a crawl's note is the page fetched, and its summary the summarising model's answer for the turn's starting summary and that page |
| SrcIndex.TurnSummarizesLastPage | src/index.py:119-125 | the event summary is the summarising model's answer for the starting summary and the last page; each crawled URL's note is its last page |
| SrcIndex.EarlierPagesForgotten | src/index.py:144-150 | two turns whose last pages agree leave the same summary, however the earlier pages differ |
| SrcIndex.Research | src/index.py:39-187 | an empty figure fails; a result is the structuring model's answer for the handed-over history plus the compression prompt |
| SrcIndex.ImmediateFinish | src/index.py:81-91 | a model that finishes at once: the structuring model sees the history, the reply and the prompt for the starting summary |
| NewGraphIndex.CrawledPage | new_graph/index.py:116 | the url_crawl tool run safely returns the stub page for the URL |
| NewGraphIndex.TurnSummarizesLastStubPage | new_graph/index.py:113-129 | raw notes are untouched; the summary is the model's answer for the starting summary and the last URL's stub page, unchanged without crawls |
| NewGraphIndex.StubCrawler | new_graph/index.py:113-117 | a crawl leaves no note, and its summary is the summarising model's answer for the turn's starting summary and the stub page of the URL |
| NewGraphIndex.StubCrawlerAt | new_graph/index.py:116-117 | one crawl's summary is the model's answer for the stub page |
| NewGraphIndex.LastWikipediaCrawlSummarized | new_graph/index.py:113-117 | when the turn's last crawl is a Wikipedia URL, the summary is built from the Wikipedia stub, whatever came before |
| NewGraphIndex.Research | new_graph/index.py:36-175 | an empty figure fails; a result is the structuring model's answer for the handed-over history, and raw notes are never touched |
| NewGraphUtils.FakeUrlCrawl | new_graph/utils.py:26-33 | "wikipedia" in the URL gives the Wikipedia stub, else "britannica" gives the Britannica stub, else "No content found." |
| NewGraphUtils.WikipediaWins | new_graph/utils.py:29-30 | a URL containing both names gets the Wikipedia stub |
| NewGraphUtils.BritannicaPageServed | new_graph/utils.py:31-32 | a Britannica URL gets the Britannica stub |
| NewGraphUtils.GetAllTools | new_graph/utils.py:43-45 | exactly url_crawl, think_tool and ResearchComplete, in that order |
| NewGraphUtils.Think | new_graph/utils.py:36-40 | `think_tool` returns its argument unchanged |
| NewGraphUtils.InvokeTool | new_graph/utils.py:25-45 | url_crawl succeeds iff it has a url, and then serves the stub page; think_tool echoes its argument |
| NewGraphUtils.ExecuteToolSafely | new_graph/utils.py:48-59 | never raises: a failure becomes "Error executing tool <name>: <msg>" |
| NewGraphUtils.CountTokens | new_graph/utils.py:67-69 | the empty list counts 0 |
| NewGraphUtils.CountTokensAdditive | new_graph/utils.py:67-69 | counting is additive over message lists |
| ChronologyState.AssignId | src/state.py:26-42 | `ChronologyEvent` is the input fields plus the id |
| ChronologyState.StripId | src/state.py:26-42 | the input part keeps every field but the id |
| ChronologyState.IdRoundTrip | src/state.py:37-42 | an event is exactly its input fields and its id |
| ChronologyState.ParseStatus | src/state.py:127 | only "updated" and "new" are valid statuses |
| ChronologyState.StatusRoundTrip | src/state.py:127 | parsing inverts naming, and only the two literals parse |
| Reducer.OverrideReducer | src/state.py:88-92 | an override dict gives its "value", or itself when "value" is missing; otherwise `current + new` (list or string concatenation), and an error for other kinds; new_graph/state.py:41-46 has the same three branches |
| Reducer.EmptyAppendIsIdentity | src/state.py:92 | appending an empty list leaves the channel unchanged |
| Reducer.AppendsCompose | src/state.py:92 | two successive appends equal one append of their concatenation |
| Reducer.OverrideForgetsCurrent | src/state.py:90-91 | an override ignores the current value |
| Configuration.ParseSearchApi | src/configuration.py:11-17 | only "anthropic", "openai", "tavily" and "none" name a search API |
| Configuration.SearchApiRoundTrip | src/configuration.py:11-17 | value to member and back is the identity, in both directions |
| Configuration.ConfigurableOf | src/configuration.py:72 | no config, or a config without "configurable", gives the empty dict; otherwise the dict given |
| Configuration.Resolve | src/configuration.py:74-78 | the environment variable named by the upper-cased field name wins, even when empty; otherwise a non-None configurable value; otherwise the default |
| Configuration.FromRunnableConfig | src/configuration.py:67-78 | one setting per declared field, in declaration order |
| Configuration.NoConfigGivesDefaults | src/configuration.py:72-78 | with no config and no environment override every field takes its default |
| Configuration.EnvironmentFirst | src/configuration.py:74-78 | environment over configurable over default, for every field; a None value falls through to the default |
| Configuration.ExtraKeysIgnored | src/configuration.py:73-76 | two configurables that agree on the declared names give the same settings, whatever other keys they hold |
| Configuration.BudgetDefaults | src/configuration.py:24-54 | the defaults are 1 structured-output retry, 10 supervisor iterations and 5 ReAct tool calls |
| Configuration.FieldNamesDistinct | src/configuration.py:24-65 | the twelve field names are distinct |
| Text.Upper | src/configuration.py:75 | `str.upper()` on ASCII: same length, lower-case letters mapped to upper case, everything else kept |
| Text.Strip | src/research_events/merge_events/merge_events_graph.py:215-216 | `str.strip()`: the input with a whitespace-only prefix and suffix removed and the middle kept as it stands, empty iff the input is blank, with no whitespace at either end; whitespace is the 29 code points `str.isspace` accepts |

## Left out

- LLM and model construction (`init_chat_model`, `bind_tools`, `with_retry`, `with_structured_output`, src/llm_service.py). Replies are parameters. Retries inside a model call are not modelled.
- LangGraph wiring (`StateGraph`, `compile`, `Command` plumbing) and the Langfuse callback. Only the nodes' logic is modelled.
- The Firecrawl HTTP request in `scrape_page_content`. It is network I/O; its result is a parameter.
- tiktoken. The chunkers work on an abstract token sequence, and decoding a slice is a parameter with no round-trip assumed.
- asyncio.gather fan-out. It is modelled as an order-preserving map, since results are paired back with `zip`; a raising task fails the gather (`KronoResearcher.Gather`).
- Regular-expression details of `remove_markdown_links`. Only the no-bracket and simple-link behaviour is stated: lazy matching with `.` stopping at a newline, searching for "](" then ")" on the same line. Nested or multi-line brackets are not characterised.
- CrawlerUtils.RemoveMarkdownLinks: its contract only bounds the length. The link-removal facts are in `NoBracketUnchanged`, `SimpleLink` and `OneLink`.
- Prompt templates. The policies they state (fetch/reflect alternation, one crawl per domain, a two-crawl cap, a "no new information" sentinel) are not enforced by code, so they are not invariants. Prompt formatting is a function parameter.
- `print` output and the token counts logged in `divide_content_into_chunks` and the researchers.
- `EventService.merge_categorized_events`, `create_biographic_event_graph` and `ensure_categories_with_events` are not part of this model. They become the parameters `mergeAll` and `hasEvents`, and records are assumed already converted.
- `max_chunks` is read in `filter_chunks` but is not a field of `Configuration`, so it is a parameter. It is a `nat`: Python's `chunks[:max_chunks]` with a negative value would drop chunks from the end (merge_events_graph.py:96-97), and that case is not modelled.
- Pydantic validation and coercion. This covers environment strings coerced to `int` or `SearchAPI`, and `CategoriesWithEvents(**data)` rejecting malformed arguments. `Configuration.Setting` keeps an environment value as its string.
- `research_events_graph` wiring. `merge_events_and_update` invokes the merge subgraph with keys it does not read, and `url_crawler_app` is not defined in the crawler module. The merge and crawl are parameters that may fail, standing for a raising `ainvoke`; `ResearchEventsGraph.AsWrittenMergeFailsResearch` plugs in the merge subgraph as written.
- `events_extracted_from_url` is reset to `[]` after a merge. It is modelled as `None`, and the next crawl overwrites it.
- src/research_events/research_event_graph.py (a stub with hardcoded data), src/notes/notes.py, src/graph.py, src/utils.py, test.py and the test files. These are outside the modelled core.
- src/krono_researcher.py imports names that the modules it names do not define:
  - `ResearcherState`, `ResearcherOutputState`, `ConductResearch` and `ResearchComplete` from src/state.py;
  - `get_all_tools` and `get_api_key_for_model` from src/utils.py;
  - `research_system_prompt`, `compress_research_system_prompt` and `compress_research_simple_human_message` from src/prompts.py.

  The tools are a list of names, tool execution is a parameter, API keys are not modelled, and prompts are parameters.
- KronoResearcher.Supervisor: src/state.py:104-110 declares `SupervisorState` with the channels `events`, `messages`, `messages_summary` and `tool_call_iterations`. It has no `supervisor_messages` or `research_iterations`, yet src/krono_researcher.py:66-88 and 112-114 read and write exactly those two keys.
  - As written, LangGraph drops or rejects those updates. Either `research_iterations` stays 0 and `supervisor_tools` reads the last of an empty message list, or the update is refused, so the first supervisor turn fails.
  - The model instead uses the shape of new_graph/state.py:58-60, which declares both channels with `override_reducer`. `KronoResearcher.SupervisorState` keeps the messages and the iteration count across turns, which the program as written does not.
- KronoResearcher.ExecuteToolSafely covers a tool that raises. A `tools_by_name` lookup miss raises before it, which `ToolOutputs` models as a failure.
- src/index.py's `update_event_summary` returns the model's response object, not its text. The model treats the summarising model's answer as the string stored.
- src/kronologs_researcher_graph.py imports `ResearcherState`, `InputResearcherState` and `ResearcherOutputState` from src/state.py, and `count_tokens`, `get_all_tools`, `model_for_tools` and `structured_model` from src/utils.py. Neither module defines them, and src/prompts.py does not define the `research_system_prompt`, `step1_clean_and_order_prompt` and `step2_structure_events_prompt` it imports. The state is `ReactTurn.ReactState`, and the models are parameters.
- src/research_events/merge_events/merge_events_graph.py imports `CategoriesWithEvents` from src/state.py, which does not define it. The record is `EventCategories.Categories`, after src/research_events/state.py.
- new_graph/index.py's `update_event_summary` also returns the model's response object, not its text. As for src/index.py, the answer is treated as the string stored.
- CrawlerUtils.ChunkTokens and the other chunkers require `0 < chunk_size` and `overlap_size < chunk_size`. The loop never ends otherwise, and a negative size would hit Python's negative slicing. Every call site passes constants that meet both (1000/20, 2000/20).
- src/index.py imports `ResearcherState`, `InputResearcherState` and `ResearcherOutputState` from src/state.py, and `configurable_model`, `count_tokens`, `execute_tool_safely`, `get_all_tools`, `structured_model` and `url_crawl` from src/utils.py. Neither module defines them, and src/prompts.py does not define the `CREATE_EVENT_SUMMARY_PROMPT`, `compress_research_system_prompt` and `research_system_prompt` it imports. The state is `ReactTurn.ReactState`, the models are parameters, and the page a crawl returns is the parameter `page`.
- new_graph/state.py's `ResearcherState` declares no `event_summary` or `raw_notes` channel. The program therefore never carries a summary from one turn to the next: LangGraph drops or rejects the `event_summary` update, and `state.get("event_summary", "")` reads "" (new_graph/index.py:113, 136, 165). `NewGraphIndex.Research` keeps both fields and carries the summary across turns; that carrying belongs to the model, not to the program. new_graph's turn never changes the notes.
- KronologsResearcherGraph.SubgraphCrawler takes the crawler subgraph's successful result. A failing subgraph run (for instance a KeyError inside it) is not propagated through the kronologs turn.
- ReactTurn.Rounds: the three ReAct graphs loop until the model stops, with no budget. The model runs at most `fuel` rounds and reports `Running` when fuel runs out. LangGraph's recursion limit is not modelled.
- KronoResearcher.RunSupervisor: a sub-research is a function of its topic (`research`), giving the output's `compressed_research` or the exception it raised, not a run of `RunResearcher`, since the supervisor only reads `compressed_research`. When several sub-researches raise, `asyncio.gather` passes on the first to raise in time; the model reports the first in call order.
- UNKNOWN chunks keep their whole text as content (src/url_crawler/url_krawler_graph.py:164-166). They are not dropped.

## Findings

| source | as written | input that shows it | evidently intended | confidence | as-written member | corrected member |
|---|---|---|---|---|---|---|
| src/research_events/merge_events/merge_events_graph.py:73 | `chunks = await chunk_text_by_tokens(extracted_events)` awaits the list returned by a synchronous function, which raises TypeError | any non-blank extract, for instance "Born 1879" | call the chunker without `await` and forward the first 20 chunks | high; not executed | MergeEventsGraph.SplitEventsAsWritten (with MergeEventsGraph.AwaitBreaksEveryExtract) | MergeEventsGraph.SplitEvents |

=== FILE: chunk_graph.dfy ===
/** The biographic-event detection graph of index.py: `split_text` cuts the
    text into fixed 200-character pieces and `check_chunk_for_events` records
    one model verdict per piece under the key "chunk_<i>". The model is an
    uninterpreted `verdict` function from chunk text to a boolean. */
module ChunkGraph {
  import opened Text
  import CrawlerUtils

  const SplitSize: int := 200

  /** `split_text`: `text[i:i + 200]` for i in range(0, len(text), 200). These
      are exactly the token windows of CrawlerUtils with characters as tokens,
      a chunk size of 200 and no overlap. */
  function SplitText(text: string): (chunks: seq<string>)
    ensures text == "" <==> chunks == []
    ensures |chunks| == (|text| + 199) / 200
    ensures forall i :: 0 <= i < |chunks| ==> 0 < |chunks[i]| <= 200
    ensures forall i :: 0 <= i < |chunks| ==>
              200 * i < |text| && chunks[i] == text[200 * i .. CrawlerUtils.Min(200 * i + 200, |text|)]
    ensures forall i :: 0 <= i < |chunks| - 1 ==> |chunks[i]| == 200
  {
    var chunks := CrawlerUtils.ChunkTokens(text, SplitSize, 0);
    CrawlerUtils.ChunkCountIsCeiling(|text|, 200);
    assert forall i :: 0 <= i < |chunks| ==>
             200 * i < |text| && chunks[i] == text[200 * i .. CrawlerUtils.Min(200 * i + 200, |text|)] by {
      forall i | 0 <= i < |chunks|
        ensures 200 * i < |text| && chunks[i] == text[200 * i .. CrawlerUtils.Min(200 * i + 200, |text|)]
      {
        CrawlerUtils.StartInside(|text|, 200, i);
        CrawlerUtils.StartIsProduct(i, 200);
      }
    }
    assert forall i :: 0 <= i < |chunks| - 1 ==> |chunks[i]| == 200 by {
      forall i | 0 <= i < |chunks| - 1 ensures |chunks[i]| == 200 {
        CrawlerUtils.StartInside(|text|, 200, i + 1);
      }
    }
    chunks
  }

  /** With no overlap, the first window followed by the windows of the rest
      are the windows of the whole */
  lemma {:induction false} WindowsUnfold<T>(t: seq<T>, c: int)
    requires c > 0 && |t| > c
    ensures CrawlerUtils.ChunkTokens(t, c, 0) == [t[..c]] + CrawlerUtils.ChunkTokens(t[c..], c, 0)
  {
    var whole := CrawlerUtils.ChunkTokens(t, c, 0);
    var rest := CrawlerUtils.ChunkTokens(t[c..], c, 0);
    assert |whole| == 1 + |rest|;
    assert whole[0] == t[..c];
    forall k | 0 <= k < |rest| ensures whole[k + 1] == rest[k] {
      WindowsUnfoldAt(t, c, k);
    }
    assert whole[1..] == rest;
    assert whole == [whole[0]] + whole[1..];
  }

  lemma WindowsUnfoldAt<T>(t: seq<T>, c: int, k: nat)
    requires c > 0 && |t| > c
    requires k < |CrawlerUtils.ChunkTokens(t[c..], c, 0)|
    ensures k + 1 < |CrawlerUtils.ChunkTokens(t, c, 0)|
    ensures CrawlerUtils.ChunkTokens(t, c, 0)[k + 1] == CrawlerUtils.ChunkTokens(t[c..], c, 0)[k]
  {
    CrawlerUtils.StartShift(k + 1, c);
    WindowShift(t, c, CrawlerUtils.Start(k, c), c);
  }

  lemma WindowShift<T>(t: seq<T>, c: nat, start: nat, size: nat)
    requires c <= |t|
    ensures CrawlerUtils.Window(t, c + start, size) == CrawlerUtils.Window(t[c..], start, size)
  {
  }

  /** Concatenating non-overlapping windows gives back the whole sequence */
  lemma {:induction false} WindowsConcat<T>(t: seq<T>, c: int)
    requires c > 0
    ensures Concat(CrawlerUtils.ChunkTokens(t, c, 0)) == t
    decreases |t|
  {
    var ws := CrawlerUtils.ChunkTokens(t, c, 0);
    if |t| == 0 {
    } else if |t| <= c {
      assert |ws| == 1;
      assert ws[0] == t;
      assert Concat(ws) == ws[0] + Concat(ws[1..]);
    } else {
      WindowsUnfold(t, c);
      WindowsConcat(t[c..], c);
      assert ws[1..] == CrawlerUtils.ChunkTokens(t[c..], c, 0);
      assert t == t[..c] + t[c..];
    }
  }

  /** Concatenating the chunks in order reproduces the text exactly */
  lemma SplitTextRoundTrip(text: string)
    ensures Concat(SplitText(text)) == text
  {
    WindowsConcat(text, SplitSize);
  }

  /** The result key of chunk i */
  function ChunkKey(i: nat): string {
    "chunk_" + NatToString(i)
  }

  lemma ChunkKeyInjective(i: nat, j: nat)
    requires ChunkKey(i) == ChunkKey(j)
    ensures i == j
  {
    var pre := "chunk_";
    assert ChunkKey(i)[|pre|..] == NatToString(i);
    assert ChunkKey(j)[|pre|..] == NatToString(j);
    NatToStringInjective(i, j);
  }

  /** The keys of the first n chunks */
  function KeySet(n: nat): set<string>
  {
    if n == 0 then {} else KeySet(n - 1) + {ChunkKey(n - 1)}
  }

  lemma {:induction false} KeySetMembers(n: nat, k: string)
    ensures k in KeySet(n) <==> exists j :: 0 <= j < n && k == ChunkKey(j)
  {
    if n > 0 {
      KeySetMembers(n - 1, k);
      assert k in KeySet(n) <==> k in KeySet(n - 1) || k == ChunkKey(n - 1);
      if k == ChunkKey(n - 1) {
        assert 0 <= n - 1 < n && k == ChunkKey(n - 1);
      } else if exists j :: 0 <= j < n && k == ChunkKey(j) {
        var j :| 0 <= j < n && k == ChunkKey(j);
        assert j < n - 1;
      }
    }
  }

  /** `check_chunk_for_events`: the loop over `enumerate(chunks)` that records
      each chunk's verdict under its own key, one key per chunk index */
  method CheckChunkForEvents(chunks: seq<string>, verdict: string -> bool) returns (results: map<string, bool>)
    ensures results.Keys == KeySet(|chunks|)
    ensures |results| == |chunks|
    ensures forall i :: 0 <= i < |chunks| ==> ChunkKey(i) in results && results[ChunkKey(i)] == verdict(chunks[i])
  {
    results := map[];
    var i := 0;
    while i < |chunks|
      invariant 0 <= i <= |chunks|
      invariant results.Keys == KeySet(i)
      invariant |results| == i
      invariant forall j :: 0 <= j < i ==> ChunkKey(j) in results && results[ChunkKey(j)] == verdict(chunks[j])
    {
      NewKey(i);
      RecordVerdict(chunks, verdict, results, i);
      results := results[ChunkKey(i) := verdict(chunks[i])];
      i := i + 1;
    }
  }

  /** Recording chunk i's verdict keeps the verdicts of chunks before it */
  lemma RecordVerdict(chunks: seq<string>, verdict: string -> bool, before: map<string, bool>, i: nat)
    requires i < |chunks|
    requires forall j :: 0 <= j < i ==> ChunkKey(j) in before && before[ChunkKey(j)] == verdict(chunks[j])
    ensures var after := before[ChunkKey(i) := verdict(chunks[i])];
            forall j :: 0 <= j < i + 1 ==> ChunkKey(j) in after && after[ChunkKey(j)] == verdict(chunks[j])
  {
    KeysDistinct(i);
  }

  lemma KeysDistinct(i: nat)
    ensures forall j :: 0 <= j < i ==> ChunkKey(j) != ChunkKey(i)
  {
    forall j | 0 <= j < i ensures ChunkKey(j) != ChunkKey(i) {
      if ChunkKey(j) == ChunkKey(i) { ChunkKeyInjective(j, i); }
    }
  }

  /** The key of index i is not among the keys of the earlier indices */
  lemma NewKey(i: nat)
    ensures ChunkKey(i) !in KeySet(i)
  {
    KeySetMembers(i, ChunkKey(i));
    KeysDistinct(i);
  }

  /** Every result key names a chunk index, and every chunk index has a key */
  lemma ResultKeysAreChunkIndices(chunks: seq<string>, results: map<string, bool>, k: string)
    requires results.Keys == KeySet(|chunks|)
    ensures k in results <==> exists j :: 0 <= j < |chunks| && k == ChunkKey(j)
  {
    KeySetMembers(|chunks|, k);
  }
}

=== FILE: configuration.dfy ===
/** src/configuration.py: the agent's settings and
    `Configuration.from_runnable_config`, which resolves every declared
    field from the environment variable named by the upper-cased field
    name, then from the run's `configurable` dict, then from the field's
    default. The process environment is the parameter `env`; what the
    caller put under `configurable` is a map to optional values (a Python
    None stored under a key is `None`). */
module Configuration {
  import opened Wrappers
  import opened Text

  /** `SearchAPI` and its string values */
  datatype SearchApi = Anthropic | OpenAI | Tavily | NoSearch

  function SearchApiValue(api: SearchApi): string {
    match api
    case Anthropic => "anthropic"
    case OpenAI => "openai"
    case Tavily => "tavily"
    case NoSearch => "none"
  }

  /** `SearchAPI(value)`: only the four values name a member */
  function ParseSearchApi(s: string): (r: Option<SearchApi>)
    ensures r.Some? <==> s == "anthropic" || s == "openai" || s == "tavily" || s == "none"
  {
    if s == "anthropic" then Some(Anthropic)
    else if s == "openai" then Some(OpenAI)
    else if s == "tavily" then Some(Tavily)
    else if s == "none" then Some(NoSearch)
    else None
  }

  /** Parsing inverts the value mapping, and only the four values parse */
  lemma SearchApiRoundTrip(api: SearchApi, s: string)
    ensures ParseSearchApi(SearchApiValue(api)) == Some(api)
    ensures ParseSearchApi(s).Some? ==> SearchApiValue(ParseSearchApi(s).value) == s
  {
  }

  /** A field's declared default */
  datatype Default = IntDefault(n: int) | StrDefault(s: string) | ApiDefault(api: SearchApi)

  datatype Field = Field(name: string, default: Default)

  /** The declared fields, in declaration order */
  const Fields: seq<Field> := [
    Field("max_structured_output_retries", IntDefault(1)),
    Field("research_model", StrDefault("ollama:gpt-oss:latest")),
    Field("research_model_max_tokens", IntDefault(1000)),
    Field("max_researcher_iterations", IntDefault(10)),
    Field("max_concurrent_research_units", IntDefault(1)),
    Field("search_api", ApiDefault(Tavily)),
    Field("compression_model", StrDefault("ollama:llama3.1:latest")),
    Field("compression_model_max_tokens", IntDefault(8192)),
    Field("max_react_tool_calls", IntDefault(5)),
    Field("max_content_length", IntDefault(50000)),
    Field("summarization_model", StrDefault("ollama:gpt-oss:latest")),
    Field("summarization_model_max_tokens", IntDefault(2048))
  ]

  /** Where a field's value comes from: the environment (always a string),
      the `configurable` dict, or the default */
  datatype Setting<V> = FromEnv(text: string) | FromConfig(value: V) | FromDefault(default: Default)

  /** The run configuration: None for a missing or empty config; a config
      without a `configurable` key acts as an empty one */
  datatype RunnableConfig<V> = RunnableConfig(configurable: Option<map<string, Option<V>>>)

  /** `config.get("configurable", {}) if config else {}` */
  function ConfigurableOf<V>(config: Option<RunnableConfig<V>>): (r: map<string, Option<V>>)
    ensures config.None? || config.value.configurable.None? ==> r == map[]
    ensures config.Some? && config.value.configurable.Some? ==> r == config.value.configurable.value
  {
    match config
    case None => map[]
    case Some(c) => c.configurable.GetOr(map[])
  }

  /** `configurable.get(name)`, None when missing or stored as None */
  function Lookup<V>(configurable: map<string, Option<V>>, name: string): Option<V> {
    if name in configurable then configurable[name] else None
  }

  /** One field: `os.environ.get(NAME, configurable.get(name))`, and the
      default when that is None. An environment entry wins even when it is
      the empty string. */
  function Resolve<V>(f: Field, env: map<string, string>, configurable: map<string, Option<V>>): (r: Setting<V>)
    ensures Upper(f.name) in env <==> r.FromEnv?
    ensures r.FromEnv? ==> r.text == env[Upper(f.name)]
    ensures r.FromConfig? <==> Upper(f.name) !in env && f.name in configurable && configurable[f.name].Some?
    ensures r.FromConfig? ==> r.value == configurable[f.name].value
    ensures r.FromDefault? ==> r.default == f.default
  {
    var name := Upper(f.name);
    if name in env then FromEnv(env[name])
    else match Lookup(configurable, f.name)
      case Some(v) => FromConfig(v)
      case None => FromDefault(f.default)
  }

  /** `from_runnable_config`: one setting per declared field, in order */
  function FromRunnableConfig<V>(config: Option<RunnableConfig<V>>, env: map<string, string>): (r: seq<Setting<V>>)
    ensures |r| == |Fields|
    ensures forall i :: 0 <= i < |Fields| ==> r[i] == Resolve(Fields[i], env, ConfigurableOf(config))
  {
    seq(|Fields|, i requires 0 <= i < |Fields| => Resolve(Fields[i], env, ConfigurableOf(config)))
  }

  /** Without a config and without environment overrides, every field
      takes its declared default */
  lemma NoConfigGivesDefaults<V>(env: map<string, string>)
    requires forall i :: 0 <= i < |Fields| ==> Upper(Fields[i].name) !in env
    ensures forall i :: 0 <= i < |Fields| ==> FromRunnableConfig<V>(None, env)[i] == FromDefault(Fields[i].default)
  {
  }

  /** Precedence: the environment over the config over the default */
  lemma EnvironmentFirst<V>(config: Option<RunnableConfig<V>>, env: map<string, string>, i: nat)
    requires i < |Fields|
    ensures var name := Fields[i].name;
      var r := FromRunnableConfig(config, env)[i];
      var configured := ConfigurableOf(config);
      && (Upper(name) in env ==> r == FromEnv(env[Upper(name)]))
      && (Upper(name) !in env && name in configured && configured[name].Some? ==> r == FromConfig(configured[name].value))
      && (Upper(name) !in env && (name !in configured || configured[name].None?) ==> r == FromDefault(Fields[i].default))
  {
  }

  /** Only declared names are consulted: two configs that agree on every
      declared field give the same settings, whatever else they hold */
  lemma ExtraKeysIgnored<V>(c1: map<string, Option<V>>, c2: map<string, Option<V>>, env: map<string, string>)
    requires forall i :: 0 <= i < |Fields| ==> Lookup(c1, Fields[i].name) == Lookup(c2, Fields[i].name)
    ensures FromRunnableConfig(Some(RunnableConfig(Some(c1))), env) == FromRunnableConfig(Some(RunnableConfig(Some(c2))), env)
  {
    var r1 := FromRunnableConfig(Some(RunnableConfig(Some(c1))), env);
    var r2 := FromRunnableConfig(Some(RunnableConfig(Some(c2))), env);
    forall i | 0 <= i < |Fields| ensures r1[i] == r2[i] {
      assert Lookup(c1, Fields[i].name) == Lookup(c2, Fields[i].name);
    }
  }

  /** The budgets the loops read: one structured-output retry, ten
      supervisor iterations, five ReAct tool calls */
  lemma BudgetDefaults()
    ensures Fields[0] == Field("max_structured_output_retries", IntDefault(1))
    ensures Fields[3] == Field("max_researcher_iterations", IntDefault(10))
    ensures Fields[8] == Field("max_react_tool_calls", IntDefault(5))
  {
  }

  /** Field names are distinct, so each setting belongs to one field */
  lemma FieldNamesDistinct()
    ensures forall i, j :: 0 <= i < j < |Fields| ==> Fields[i].name != Fields[j].name
  {
    forall i, j | 0 <= i < j < |Fields| ensures Fields[i].name != Fields[j].name {
      assert |Fields[i].name| != |Fields[j].name| || Fields[i].name[|Fields[i].name| - 1] != Fields[j].name[|Fields[j].name| - 1]
          || Fields[i].name[0] != Fields[j].name[0] || Fields[i].name[4] != Fields[j].name[4];
    }
  }
}

=== FILE: crawler_utils.dfy ===
/** The deterministic helpers of the URL crawler (src/url_crawler/utils.py):
    the None guard of `url_crawl`, `remove_markdown_links`, the token-window
    chunker `chunk_text_by_tokens` and `count_tokens`. The tokenizer is an
    abstract pair `encode`/`decode` over an arbitrary token type, and the
    Firecrawl scraper is represented by the value it returned. */
module CrawlerUtils {
  import opened Wrappers
  import opened Text

  /** Default parameters of `chunk_text_by_tokens` */
  const DefaultChunkSize: int := 2000
  const DefaultOverlapSize: int := 20

  // ---------------------------------------------------------------------------
  // url_crawl and remove_markdown_links
  // ---------------------------------------------------------------------------

  /** `url_crawl`: an empty string when the scraper gave nothing, otherwise the
      scraped Markdown with its links reduced to their display text */
  function UrlCrawl(scraped: Option<string>): (r: string)
    ensures scraped.None? ==> r == ""
    ensures scraped.Some? ==> r == RemoveMarkdownLinks(scraped.value)
  {
    match scraped
    case None => ""
    case Some(content) => RemoveMarkdownLinks(content)
  }

  /** Index of the first "](" at or after `j`, provided no newline precedes it:
      where the lazy `\[(.*?)\]` part of the link pattern stops */
  function FindLinkClose(s: string, j: nat): (r: Option<nat>)
    decreases |s| - j
    ensures r.Some? ==> j <= r.value && r.value + 1 < |s|
    ensures r.Some? ==> s[r.value] == ']' && s[r.value + 1] == '('
    ensures r.Some? ==> forall k :: j <= k < r.value ==> s[k] != '\n'
  {
    if j + 1 >= |s| then None
    else if s[j] == ']' && s[j + 1] == '(' then Some(j)
    else if s[j] == '\n' then None
    else FindLinkClose(s, j + 1)
  }

  /** Index of the first ")" at or after `j` on the same line: where the lazy
      `\(.*?\)` part of the link pattern stops */
  function FindParen(s: string, j: nat): (r: Option<nat>)
    decreases |s| - j
    ensures r.Some? ==> j <= r.value < |s| && s[r.value] == ')'
    ensures r.Some? ==> forall k :: j <= k < r.value ==> s[k] != '\n' && s[k] != ')'
  {
    if j >= |s| then None
    else if s[j] == ')' then Some(j)
    else if s[j] == '\n' then None
    else FindParen(s, j + 1)
  }

  /** `re.sub(r"\[(.*?)\]\(.*?\)", r"\1", s)`: every Markdown link is replaced
      by its display text. A "[" that starts no complete link on its line is
      kept and scanning resumes at the next character. */
  function RemoveMarkdownLinks(s: string): (r: string)
    decreases |s|
    ensures |r| <= |s|
  {
    if s == "" then ""
    else if s[0] == '[' && FindLinkClose(s, 1).Some? && FindParen(s, FindLinkClose(s, 1).value + 2).Some? then
      var p := FindLinkClose(s, 1).value;
      var q := FindParen(s, p + 2).value;
      s[1..p] + RemoveMarkdownLinks(s[q + 1..])
    else
      [s[0]] + RemoveMarkdownLinks(s[1..])
  }

  /** A string with no "[" holds no link and is returned unchanged */
  lemma {:induction false} NoBracketUnchanged(s: string)
    requires '[' !in s
    ensures RemoveMarkdownLinks(s) == s
  {
    if s != "" {
      assert s[0] in s;
      assert forall c :: c in s[1..] ==> c in s;
      NoBracketUnchanged(s[1..]);
    }
  }

  /** A bracket-free prefix passes through untouched in front of the rest */
  lemma {:induction false} BracketFreePrefix(p: string, x: string)
    requires '[' !in p
    ensures RemoveMarkdownLinks(p + x) == p + RemoveMarkdownLinks(x)
  {
    if p != "" {
      assert (p + x)[0] == p[0];
      assert (p + x)[1..] == p[1..] + x;
      assert p[0] in p;
      assert forall c :: c in p[1..] ==> c in p;
      BracketFreePrefix(p[1..], x);
    } else {
      assert p + x == x;
    }
  }

  /** "[text](target)" followed by `rest` becomes "text" followed by the
      processed rest, when the display text stays on one line and holds no
      "](" and the target stays on one line and holds no ")" */
  lemma SimpleLink(text: string, target: string, rest: string)
    requires '\n' !in text && '\n' !in target && ')' !in target
    requires forall k :: 0 <= k < |text| - 1 ==> !(text[k] == ']' && text[k + 1] == '(')
    ensures RemoveMarkdownLinks("[" + text + "](" + target + ")" + rest)
         == text + RemoveMarkdownLinks(rest)
  {
    var s := "[" + text + "](" + target + ")" + rest;
    var p := |text| + 1;
    var q := p + 2 + |target|;
    assert s[p] == ']' && s[p + 1] == '(' && s[q] == ')';
    FindLinkCloseAt(s, 1, p);
    FindParenAt(s, p + 2, q);
    assert s[1..p] == text;
    assert s[q + 1..] == rest;
  }

  lemma {:induction false} FindLinkCloseAt(s: string, j: nat, p: nat)
    requires j <= p && p + 1 < |s| && s[p] == ']' && s[p + 1] == '('
    requires forall k :: j <= k < p ==> s[k] != '\n' && !(s[k] == ']' && s[k + 1] == '(')
    ensures FindLinkClose(s, j) == Some(p)
    decreases p - j
  {
    if j < p {
      FindLinkCloseAt(s, j + 1, p);
    }
  }

  lemma {:induction false} FindParenAt(s: string, j: nat, q: nat)
    requires j <= q < |s| && s[q] == ')'
    requires forall k :: j <= k < q ==> s[k] != '\n' && s[k] != ')'
    ensures FindParen(s, j) == Some(q)
    decreases q - j
  {
    if j < q {
      FindParenAt(s, j + 1, q);
    }
  }

  /** The link-free display text of a single link */
  lemma OneLink(text: string, target: string)
    requires '\n' !in text && '\n' !in target && ')' !in target
    requires forall k :: 0 <= k < |text| - 1 ==> !(text[k] == ']' && text[k + 1] == '(')
    ensures RemoveMarkdownLinks("[" + text + "](" + target + ")") == text
  {
    SimpleLink(text, target, "");
    assert "[" + text + "](" + target + ")" + "" == "[" + text + "](" + target + ")";
  }

  // ---------------------------------------------------------------------------
  // chunk_text_by_tokens
  // ---------------------------------------------------------------------------

  function Min(a: int, b: int): int { if a <= b then a else b }

  /** Python's `tokens[start:start + size]` for non-negative bounds: clipped to
      the end of the sequence */
  function Window<T>(tokens: seq<T>, start: nat, size: nat): (w: seq<T>)
    ensures |w| <= size
    ensures start < |tokens| && size > 0 ==> |w| > 0
    ensures forall i :: 0 <= i < |w| ==> start + i < |tokens| && w[i] == tokens[start + i]
    ensures start + size <= |tokens| ==> |w| == size
    ensures start < |tokens| ==> |w| == Min(size, |tokens| - start)
  {
    if start >= |tokens| then [] else tokens[start .. Min(start + size, |tokens|)]
  }

  /** Start offset of window k: k strides of `step` tokens, i.e. `k * step`
      (see StartIsProduct) */
  function Start(k: nat, step: nat): nat
  {
    if k == 0 then 0 else Start(k - 1, step) + step
  }

  lemma {:induction false} StartIsProduct(k: nat, step: nat)
    ensures Start(k, step) == k * step
  {
    if k > 0 {
      StartIsProduct(k - 1, step);
      assert k * step == (k - 1) * step + step;
    }
  }

  /** Later windows start strictly later */
  lemma {:induction false} StartMonotone(j: nat, k: nat, step: nat)
    requires step > 0 && j < k
    ensures Start(j, step) + step <= Start(k, step)
    decreases k
  {
    if j < k - 1 {
      StartMonotone(j, k - 1, step);
    }
  }

  /** Number of loop rounds of the chunker on n tokens: each round consumes a
      stride of `step` tokens until none are left (ceil(n / step), see
      ChunkCountIsCeiling) */
  function ChunkCount(n: nat, step: nat): nat
    requires step > 0
    decreases n
  {
    if n == 0 then 0 else if n <= step then 1 else 1 + ChunkCount(n - step, step)
  }

  lemma ChunkCountIsCeiling(n: nat, step: nat)
    requires step > 0
    ensures ChunkCount(n, step) == (n + step - 1) / step
  {
    var c := ChunkCount(n, step);
    if n > 0 {
      StartInside(n, step, c - 1);
      StartInside(n, step, c);
      StartShift(c, step);
      StartIsProduct(c, step);
      DivUnique(n + step - 1, step, c);
    } else {
      DivUnique(step - 1, step, 0);
    }
  }

  lemma DivUnique(m: nat, step: nat, q: nat)
    requires step > 0 && q * step <= m < q * step + step
    ensures m / step == q
  {
    var d, r := m / step, m % step;
    assert m == d * step + r;
    if d < q {
      MulLe(d + 1, q, step);
    } else if d > q {
      MulLe(q + 1, d, step);
    }
  }

  lemma MulLe(a: nat, b: nat, c: nat)
    requires a <= b
    ensures a * c <= b * c
  {
  }

  /** A start offset is inside the tokens exactly for the first
      ChunkCount(n, step) windows */
  lemma {:induction false} StartInside(n: nat, step: nat, k: nat)
    requires step > 0
    ensures Start(k, step) < n <==> k < ChunkCount(n, step)
    decreases k
  {
    if k == 0 {
    } else if n <= step {
      StartMonotone(0, k, step);
    } else {
      StartInside(n - step, step, k - 1);
      StartShift(k, step);
    }
  }

  /** Window k + 1 starts one stride after window k: the shifted form */
  lemma {:induction false} StartShift(k: nat, step: nat)
    requires k > 0
    ensures Start(k, step) == step + Start(k - 1, step)
  {
  }

  /** The chunker's requirement for its loop to terminate: the stride
      `chunk_size - overlap_size` is positive. A non-positive `chunk_size` would
      take Python's negative-index slicing, which the model leaves out. */
  predicate ValidChunking(chunkSize: int, overlapSize: int) {
    0 < chunkSize && overlapSize < chunkSize
  }

  /** The token windows of the chunker, described by index: window k starts at
      `k * (chunk_size - overlap_size)` and holds at most `chunk_size` tokens */
  function ChunkTokens<T>(tokens: seq<T>, chunkSize: int, overlapSize: int): (r: seq<seq<T>>)
    requires ValidChunking(chunkSize, overlapSize)
    ensures |r| == ChunkCount(|tokens|, chunkSize - overlapSize)
    ensures tokens == [] <==> r == []
    ensures forall k :: 0 <= k < |r| ==> 0 < |r[k]| <= chunkSize
    ensures forall k :: 0 <= k < |r| ==> r[k] == Window(tokens, Start(k, chunkSize - overlapSize), chunkSize)
  {
    var step := chunkSize - overlapSize;
    var n := ChunkCount(|tokens|, step);
    var r := seq(n, k requires 0 <= k < n => Window(tokens, Start(k, step), chunkSize));
    assert forall k :: 0 <= k < n ==> 0 < |r[k]| by {
      forall k | 0 <= k < n ensures 0 < |r[k]| {
        StartInside(|tokens|, step, k);
      }
    }
    r
  }

  /** The chunker's loop as the source writes it: advance a start index by the
      stride while it is inside the token sequence, appending one window per
      round */
  method ChunkTokensLoop<T>(tokens: seq<T>, chunkSize: int, overlapSize: int) returns (chunks: seq<seq<T>>)
    requires ValidChunking(chunkSize, overlapSize)
    ensures chunks == ChunkTokens(tokens, chunkSize, overlapSize)
  {
    var step := chunkSize - overlapSize;
    ghost var spec := ChunkTokens(tokens, chunkSize, overlapSize);
    chunks := [];
    var startIndex := 0;
    StartInside(|tokens|, step, 0);
    while startIndex < |tokens|
      invariant startIndex == Start(|chunks|, step)
      invariant |chunks| <= |spec|
      invariant chunks == spec[..|chunks|]
      invariant startIndex < |tokens| <==> |chunks| < |spec|
      decreases |tokens| - startIndex
    {
      chunks := chunks + [Window(tokens, startIndex, chunkSize)];
      startIndex := startIndex + step;
      StartInside(|tokens|, step, |chunks|);
    }
  }

  /** `chunk_text_by_tokens`: empty text gives no chunk; otherwise the decoded
      windows of the encoded text */
  function ChunkTextByTokens<T>(text: string, encode: string -> seq<T>, decode: seq<T> -> string,
                                chunkSize: int, overlapSize: int): (r: seq<string>)
    requires ValidChunking(chunkSize, overlapSize)
    ensures text == "" ==> r == []
    ensures text != "" ==> |r| == ChunkCount(|encode(text)|, chunkSize - overlapSize)
    ensures text != "" ==> forall k :: 0 <= k < |r| ==>
      r[k] == decode(Window(encode(text), Start(k, chunkSize - overlapSize), chunkSize))
  {
    if text == "" then []
    else
      var windows := ChunkTokens(encode(text), chunkSize, overlapSize);
      seq(|windows|, k requires 0 <= k < |windows| => decode(windows[k]))
  }

  /** The number of chunks is ceil(len(tokens) / (chunk_size - overlap_size)) */
  lemma ChunkCountFormula<T>(tokens: seq<T>, chunkSize: int, overlapSize: int)
    requires ValidChunking(chunkSize, overlapSize)
    ensures |ChunkTokens(tokens, chunkSize, overlapSize)|
         == (|tokens| + (chunkSize - overlapSize) - 1) / (chunkSize - overlapSize)
  {
    ChunkCountIsCeiling(|tokens|, chunkSize - overlapSize);
  }

  /** Windows come in increasing start order, at least one stride apart */
  lemma WindowsInStartOrder(step: nat, j: nat, k: nat)
    requires step > 0 && j < k
    ensures j * step + step <= k * step
  {
    StartMonotone(j, k, step);
    StartIsProduct(j, step);
    StartIsProduct(k, step);
  }

  /** The window holding token i: the last one starting at or before i */
  lemma {:induction false} FindWindow(n: nat, step: nat, i: nat) returns (k: nat)
    requires step > 0 && i < n
    ensures k < ChunkCount(n, step)
    ensures Start(k, step) <= i < Start(k, step) + step
    decreases i
  {
    if i < step {
      k := 0;
    } else {
      var k' := FindWindow(n - step, step, i - step);
      k := k' + 1;
    }
  }

  /** With a non-negative overlap the windows cover every token: each token
      index lies inside some window, which holds that token */
  lemma Coverage<T>(tokens: seq<T>, chunkSize: int, overlapSize: int, i: nat) returns (k: nat)
    requires ValidChunking(chunkSize, overlapSize) && 0 <= overlapSize
    requires i < |tokens|
    ensures k < |ChunkTokens(tokens, chunkSize, overlapSize)|
    ensures Start(k, chunkSize - overlapSize) <= i < Start(k, chunkSize - overlapSize) + |ChunkTokens(tokens, chunkSize, overlapSize)[k]|
    ensures ChunkTokens(tokens, chunkSize, overlapSize)[k][i - Start(k, chunkSize - overlapSize)] == tokens[i]
  {
    var step := chunkSize - overlapSize;
    k := FindWindow(|tokens|, step, i);
    var w := ChunkTokens(tokens, chunkSize, overlapSize)[k];
    assert w == Window(tokens, Start(k, step), chunkSize);
  }

  /** When the tokens left after the last start number at most `overlap_size`,
      the last window ends no later than its predecessor */
  lemma TrailingWindowInsidePredecessor<T>(tokens: seq<T>, chunkSize: int, overlapSize: int)
    requires ValidChunking(chunkSize, overlapSize)
    requires |ChunkTokens(tokens, chunkSize, overlapSize)| >= 2
    requires |tokens| - Start(|ChunkTokens(tokens, chunkSize, overlapSize)| - 1, chunkSize - overlapSize) <= overlapSize
    ensures var step := chunkSize - overlapSize;
            var last := |ChunkTokens(tokens, chunkSize, overlapSize)| - 1;
            Start(last, step) + |ChunkTokens(tokens, chunkSize, overlapSize)[last]|
            <= Start(last - 1, step) + |ChunkTokens(tokens, chunkSize, overlapSize)[last - 1]|
  {
    var step := chunkSize - overlapSize;
    var chunks := ChunkTokens(tokens, chunkSize, overlapSize);
    var last := |chunks| - 1;
    StartInside(|tokens|, step, last);
    assert chunks[last] == Window(tokens, Start(last, step), chunkSize);
    assert chunks[last - 1] == Window(tokens, Start(last - 1, step), chunkSize);
  }

  // ---------------------------------------------------------------------------
  // count_tokens
  // ---------------------------------------------------------------------------

  /** `count_tokens`: the sum of the token counts of the messages */
  function CountTokens<T>(messages: seq<string>, encode: string -> seq<T>): (r: nat)
    ensures forall i :: 0 <= i < |messages| ==> |encode(messages[i])| <= r
    ensures r == 0 <==> forall i :: 0 <= i < |messages| ==> encode(messages[i]) == []
  {
    if |messages| == 0 then 0
    else
      assert forall i :: 1 <= i < |messages| ==> messages[1..][i - 1] == messages[i];
      |encode(messages[0])| + CountTokens(messages[1..], encode)
  }

  /** Counting is additive over concatenated message lists */
  lemma {:induction false} CountTokensAppend<T>(a: seq<string>, b: seq<string>, encode: string -> seq<T>)
    ensures CountTokens(a + b, encode) == CountTokens(a, encode) + CountTokens(b, encode)
  {
    if |a| == 0 {
      assert a + b == b;
    } else {
      assert (a + b)[1..] == a[1..] + b;
      CountTokensAppend(a[1..], b, encode);
    }
  }

  /** The empty list counts 0 and each message adds its own token count */
  lemma CountTokensSingle<T>(m: string, rest: seq<string>, encode: string -> seq<T>)
    ensures CountTokens([], encode) == 0
    ensures CountTokens([m] + rest, encode) == |encode(m)| + CountTokens(rest, encode)
  {
    assert ([m] + rest)[1..] == rest;
  }
}

=== FILE: krono_researcher.dfy ===
/** The supervisor / researcher agent of src/krono_researcher.py. A
    supervisor delegates research topics to a researcher subgraph, which
    alternates model turns and tool execution and ends by compressing its
    findings. Both loops carry an iteration budget, so both end whatever the
    model answers.

    The model is a `ChatModel` parameter, the researcher subgraph as seen by
    the supervisor is `research` (topic to the optional `compressed_research`
    of its output), tools are executed through `execute` (tool name and
    arguments to the tool's result or the message of the exception it
    raised), and the compression model is `synthesize`, indexed by the
    attempt number so that a retry may succeed where an earlier attempt
    failed. Message lists grow by appending, as the append branch of the
    override reducer does. */
module KronoResearcher {
  import opened Wrappers
  import opened Text
  import opened Messages

  const ResearchCompleteName: string := "ResearchComplete"
  const ConductResearchName: string := "ConductResearch"

  /** The tool message for a sub-research result without `compressed_research` */
  const MissingResearchMessage: string := "Error synthesizing research report: Maximum retries exceeded"

  /** The compression node gives up after this many attempts */
  const MaxCompressionAttempts: nat := 3

  // ---------------------------------------------------------------------
  // Supervisor

  /** The supervisor's state: `person_to_research`, the `supervisor_messages`
      channel and `research_iterations`. These are the two channels the
      supervisor nodes read and write, declared as in new_graph/state.py; the
      `SupervisorState` of src/state.py does not declare them. */
  datatype SupervisorState = SupervisorState(person: string, messages: seq<Message>, iterations: nat)

  /** `supervisor`: one model turn. The first turn (no iterations yet) starts
      the conversation from the system prompt and the person and records all
      three messages; later turns record only the reply. */
  function Supervisor(s: SupervisorState, leadPrompt: string, model: ChatModel): (r: Result<SupervisorState>)
    ensures r.Failure? <==> s.person == ""
    ensures r.Success? ==> r.value.iterations == s.iterations + 1 && r.value.person == s.person
    ensures r.Success? && s.iterations == 0 ==>
      r.value.messages == s.messages + [SystemMessage(leadPrompt), HumanMessage(s.person),
                                        Invoke(model, [SystemMessage(leadPrompt), HumanMessage(s.person)])]
    ensures r.Success? && s.iterations > 0 ==> r.value.messages == s.messages + [Invoke(model, s.messages)]
    ensures r.Success? ==> LastToolCalls(r.value.messages).Success?
  {
    if s.person == "" then Failure("ValueError: Person to research is required")
    else
      var prompt := if s.iterations == 0 then [SystemMessage(leadPrompt), HumanMessage(s.person)] else s.messages;
      var response := Invoke(model, prompt);
      var added := if s.iterations == 0 then prompt + [response] else [response];
      Success(s.(messages := s.messages + added, iterations := s.iterations + 1))
  }

  /** `asyncio.gather` over one sub-research per topic, in call order: the
      `compressed_research` of every output, or the exception of a failing
      sub-research (the first failing one in call order), which the
      supervisor turn then raises */
  function Gather(topics: seq<string>, research: string -> Result<Option<string>>): (r: Result<seq<Option<string>>>)
    ensures r.Success? <==> forall i :: 0 <= i < |topics| ==> research(topics[i]).Success?
    ensures r.Success? ==> |r.value| == |topics| && forall i :: 0 <= i < |topics| ==> r.value[i] == research(topics[i]).value
    ensures r.Failure? ==> exists i :: 0 <= i < |topics| && research(topics[i]) == Failure(r.error)
                                       && forall j :: 0 <= j < i ==> research(topics[j]).Success?
  {
    if topics == [] then Success([])
    else
      assert forall i :: 1 <= i < |topics| ==> topics[1..][i - 1] == topics[i];
      match research(topics[0])
      case Failure(e) => Failure(e)
      case Success(first) =>
        match Gather(topics[1..], research)
        case Failure(e) =>
          var i :| 0 <= i < |topics[1..]| && research(topics[1..][i]) == Failure(e)
                   && forall j :: 0 <= j < i ==> research(topics[1..][j]).Success?;
          assert research(topics[i + 1]) == Failure(e);
          Failure(e)
        case Success(rest) => Success([first] + rest)
  }

  /** The results paired back to their calls, in order */
  function ResearchMessages(calls: seq<ToolCall<string>>, results: seq<Option<string>>): (r: seq<Message>)
    requires |results| == |calls|
    ensures |r| == |calls|
    ensures forall i :: 0 <= i < |calls| ==>
      r[i] == ToolMessage(results[i].GetOr(MissingResearchMessage), calls[i].name, calls[i].id)
  {
    seq(|calls|, i requires 0 <= i < |calls| =>
      ToolMessage(results[i].GetOr(MissingResearchMessage), calls[i].name, calls[i].id))
  }

  /** The tool messages answering one supervisor turn: one per think_tool
      call, then one per ConductResearch call, each answer in the order of
      its calls and carrying its call's id. A missing argument or a failing
      sub-research fails the turn. */
  function AnswerSupervisorCalls(calls: seq<ToolCall<string>>, research: string -> Result<Option<string>>): (r: Result<seq<Message>>)
    ensures r.Success? <==> ThinkMessages(CallsNamed(calls, ThinkToolName), "reflection").Success?
                            && ArgsOf(CallsNamed(calls, ConductResearchName), "research_topic").Success?
                            && Gather(ArgsOf(CallsNamed(calls, ConductResearchName), "research_topic").value, research).Success?
    ensures ThinkMessages(CallsNamed(calls, ThinkToolName), "reflection").Success?
            && ArgsOf(CallsNamed(calls, ConductResearchName), "research_topic").Success?
            && Gather(ArgsOf(CallsNamed(calls, ConductResearchName), "research_topic").value, research).Failure? ==>
      r == Failure(Gather(ArgsOf(CallsNamed(calls, ConductResearchName), "research_topic").value, research).error)
    ensures r.Success? ==> |r.value| == |CallsNamed(calls, ThinkToolName)| + |CallsNamed(calls, ConductResearchName)|
    ensures r.Success? ==>
      r.value == ThinkMessages(CallsNamed(calls, ThinkToolName), "reflection").value
                 + ResearchMessages(CallsNamed(calls, ConductResearchName),
                                    Gather(ArgsOf(CallsNamed(calls, ConductResearchName), "research_topic").value, research).value)
    ensures r.Success? ==> forall i :: 0 <= i < |CallsNamed(calls, ThinkToolName)| ==>
      var call := CallsNamed(calls, ThinkToolName)[i];
      "reflection" in call.args && r.value[i] == ToolMessage("Reflection recorded: " + call.args["reflection"], ThinkToolName, call.id)
    ensures r.Success? ==> forall i :: 0 <= i < |CallsNamed(calls, ConductResearchName)| ==>
      var call := CallsNamed(calls, ConductResearchName)[i];
      && "research_topic" in call.args
      && research(call.args["research_topic"]).Success?
      && r.value[|CallsNamed(calls, ThinkToolName)| + i]
         == ToolMessage(research(call.args["research_topic"]).value.GetOr(MissingResearchMessage), ConductResearchName, call.id)
  {
    var think := CallsNamed(calls, ThinkToolName);
    var conduct := CallsNamed(calls, ConductResearchName);
    var thinkMessages :- ThinkMessages(think, "reflection");
    var topics :- ArgsOf(conduct, "research_topic");
    var results :- Gather(topics, research);
    AnswersInOrder(think, thinkMessages, conduct, results);
    Success(thinkMessages + ResearchMessages(conduct, results))
  }

  lemma AnswersInOrder(think: seq<ToolCall<string>>, thinkMessages: seq<Message>, conduct: seq<ToolCall<string>>,
                       results: seq<Option<string>>)
    requires |thinkMessages| == |think| && |results| == |conduct|
    requires forall i :: 0 <= i < |think| ==>
      ("reflection" in think[i].args
       && thinkMessages[i] == ToolMessage("Reflection recorded: " + think[i].args["reflection"], ThinkToolName, think[i].id))
    requires forall i :: 0 <= i < |conduct| ==> conduct[i].name == ConductResearchName
    ensures var all := thinkMessages + ResearchMessages(conduct, results);
      && (forall i :: 0 <= i < |think| ==> all[i] == ToolMessage("Reflection recorded: " + think[i].args["reflection"], ThinkToolName, think[i].id))
      && (forall i :: 0 <= i < |conduct| ==>
            all[|think| + i] == ToolMessage(results[i].GetOr(MissingResearchMessage), ConductResearchName, conduct[i].id))
  {
    var rm := ResearchMessages(conduct, results);
    forall i | 0 <= i < |think| ensures (thinkMessages + rm)[i] == thinkMessages[i] {
      KeptAt(thinkMessages, rm, i);
    }
    forall i | 0 <= i < |conduct| ensures (thinkMessages + rm)[|think| + i] == rm[i] {
      AppendedAt(thinkMessages, rm, i);
    }
  }

  datatype SupervisorStep = SupervisorDone | BackToSupervisor(s: SupervisorState)

  /** The three exit conditions of `supervisor_tools` */
  predicate SupervisorExits(iterations: nat, maxIterations: int, calls: seq<ToolCall<string>>) {
    iterations > maxIterations || calls == [] || AnyCallNamed(calls, ResearchCompleteName)
  }

  /** `supervisor_tools`: end on an exit condition; otherwise append the
      answers to the calls and return to the supervisor */
  function SupervisorTools(s: SupervisorState, maxIterations: int, research: string -> Result<Option<string>>): (r: Result<SupervisorStep>)
    ensures LastToolCalls(s.messages).Failure? ==> r.Failure?
    ensures r.Success? ==> (r.value.SupervisorDone? <==> SupervisorExits(s.iterations, maxIterations, LastToolCalls(s.messages).value))
    ensures r.Success? && r.value.BackToSupervisor? ==>
      && r.value.s.iterations == s.iterations <= maxIterations
      && r.value.s.person == s.person
      && AnswerSupervisorCalls(LastToolCalls(s.messages).value, research).Success?
      && r.value.s.messages == s.messages + AnswerSupervisorCalls(LastToolCalls(s.messages).value, research).value
  {
    var calls :- LastToolCalls(s.messages);
    if SupervisorExits(s.iterations, maxIterations, calls) then Success(SupervisorDone)
    else
      var answers :- AnswerSupervisorCalls(calls, research);
      Success(BackToSupervisor(s.(messages := s.messages + answers)))
  }

  /** A call of any other name gets no tool message */
  lemma OtherCallsUnanswered(s: SupervisorState, maxIterations: int, research: string -> Result<Option<string>>, call: ToolCall<string>)
    requires s.messages != [] && s.messages[|s.messages| - 1].AIMessage?
    requires s.messages[|s.messages| - 1].toolCalls == [call]
    requires call.name != ThinkToolName && call.name != ConductResearchName && call.name != ResearchCompleteName
    requires s.iterations <= maxIterations
    ensures SupervisorTools(s, maxIterations, research) == Success(BackToSupervisor(s))
  {
    assert !AnyCallNamed([call], ResearchCompleteName);
    assert CallsNamed([call], ThinkToolName) == [];
    assert CallsNamed([call], ConductResearchName) == [];
    assert AnswerSupervisorCalls([call], research) == Success([]);
    assert s.messages + [] == s.messages;
  }

  /** A sub-research that raises makes the whole supervisor turn raise:
      `asyncio.gather` passes the exception on */
  lemma FailingResearchFailsTurn(s: SupervisorState, maxIterations: int, research: string -> Result<Option<string>>, i: nat)
    requires LastToolCalls(s.messages).Success?
    requires !SupervisorExits(s.iterations, maxIterations, LastToolCalls(s.messages).value)
    requires var conduct := CallsNamed(LastToolCalls(s.messages).value, ConductResearchName);
      i < |conduct| && "research_topic" in conduct[i].args && research(conduct[i].args["research_topic"]).Failure?
    ensures SupervisorTools(s, maxIterations, research).Failure?
  {
    var calls := LastToolCalls(s.messages).value;
    var topic := CallsNamed(calls, ConductResearchName)[i].args["research_topic"];
    assert AnswerSupervisorCalls(calls, research).Success? ==> research(topic).Success?;
  }

  /** The supervisor loop from the initial state: at most
      `max_researcher_iterations + 1` supervisor turns, whatever the model
      and the sub-researchers answer */
  method RunSupervisor(person: string, leadPrompt: string, maxIterations: int,
                       model: ChatModel, research: string -> Result<Option<string>>)
    returns (r: Result<SupervisorState>, turns: nat)
    ensures person == "" ==> r.Failure? && turns == 0
    ensures turns <= (if maxIterations < 0 then 0 else maxIterations) + 1
    ensures r.Success? ==> 1 <= turns && r.value.iterations == turns && r.value.person == person
  {
    var s := SupervisorState(person, [], 0);
    turns := 0;
    if person == "" {
      r := Failure("ValueError: Person to research is required");
      return;
    }
    var done := false;
    while !done
      invariant s.iterations == turns && s.person == person
      invariant !done ==> turns <= (if maxIterations < 0 then 0 else maxIterations)
      invariant done ==> 1 <= turns <= (if maxIterations < 0 then 0 else maxIterations) + 1
      decreases (if maxIterations < 0 then 0 else maxIterations) + 1 - turns, !done
    {
      var next := Supervisor(s, leadPrompt, model);
      s := next.value;
      turns := turns + 1;
      var step := SupervisorTools(s, maxIterations, research);
      if step.Failure? {
        r := Failure(step.error);
        return;
      }
      match step.value
      case SupervisorDone =>
        done := true;
      case BackToSupervisor(s') =>
        s := s';
    }
    r := Success(s);
  }

  // ---------------------------------------------------------------------
  // Researcher subgraph

  datatype ResearcherState = ResearcherState(messages: seq<Message>, iterations: nat)

  /** `researcher`: one model turn over the system prompt and the
      conversation; no tools configured raises ValueError */
  function Researcher(s: ResearcherState, tools: seq<string>, systemPrompt: string, model: ChatModel): (r: Result<ResearcherState>)
    ensures r.Failure? <==> tools == []
    ensures r.Success? ==> r.value.iterations == s.iterations + 1
    ensures r.Success? ==> r.value.messages == s.messages + [Invoke(model, [SystemMessage(systemPrompt)] + s.messages)]
  {
    if tools == [] then Failure("ValueError: No tools found to conduct research: Please configure your search API to your configuration.")
    else Success(ResearcherState(s.messages + [Invoke(model, [SystemMessage(systemPrompt)] + s.messages)], s.iterations + 1))
  }

  /** `execute_tool_safely`: an exception becomes a message, never a raise */
  function ExecuteToolSafely(execute: (string, map<string, string>) -> Result<string>, call: ToolCall<string>): (r: string)
    ensures execute(call.name, call.args).Success? ==> r == execute(call.name, call.args).value
    ensures execute(call.name, call.args).Failure? ==> r == "Error executing tool: " + execute(call.name, call.args).error
  {
    match execute(call.name, call.args)
    case Success(v) => v
    case Failure(e) => "Error executing tool: " + e
  }

  /** One tool message per call, in call order; a name outside `tools`
      raises KeyError from the lookup that precedes the safe execution */
  function ToolOutputs(calls: seq<ToolCall<string>>, tools: seq<string>,
                       execute: (string, map<string, string>) -> Result<string>): (r: Result<seq<Message>>)
    ensures r.Success? <==> forall i :: 0 <= i < |calls| ==> calls[i].name in tools
    ensures r.Success? ==> |r.value| == |calls| && forall i :: 0 <= i < |calls| ==>
      r.value[i] == ToolMessage(ExecuteToolSafely(execute, calls[i]), calls[i].name, calls[i].id)
    ensures r.Failure? ==> exists i :: 0 <= i < |calls| && calls[i].name !in tools
                                       && r.error == "KeyError: '" + calls[i].name + "'"
                                       && forall j :: 0 <= j < i ==> calls[j].name in tools
  {
    if calls == [] then Success([])
    else if calls[0].name !in tools then Failure("KeyError: '" + calls[0].name + "'")
    else
      assert forall i :: 1 <= i < |calls| ==> calls[1..][i - 1] == calls[i];
      match ToolOutputs(calls[1..], tools, execute)
      case Failure(e) =>
        var i :| 0 <= i < |calls[1..]| && calls[1..][i].name !in tools && e == "KeyError: '" + calls[1..][i].name + "'"
                 && forall j :: 0 <= j < i ==> calls[1..][j].name in tools;
        assert calls[i + 1].name !in tools;
        Failure(e)
      case Success(rest) =>
        Success([ToolMessage(ExecuteToolSafely(execute, calls[0]), calls[0].name, calls[0].id)] + rest)
  }

  datatype ResearcherRoute = ToCompress | BackToResearcher

  /** `researcher_tools`: no tool calls goes straight to compression;
      otherwise every call is executed and the loop continues unless the
      budget is spent or ResearchComplete was called */
  function ResearcherTools(s: ResearcherState, tools: seq<string>, maxReactToolCalls: int,
                           execute: (string, map<string, string>) -> Result<string>): (r: Result<(ResearcherRoute, ResearcherState)>)
    ensures LastToolCalls(s.messages).Failure? ==> r.Failure?
    ensures r.Success? ==> r.value.1.iterations == s.iterations && s.messages <= r.value.1.messages
    ensures r.Success? && LastToolCalls(s.messages).value == [] ==> r.value == (ToCompress, s)
    ensures r.Success? && LastToolCalls(s.messages).value != [] ==>
      var calls := LastToolCalls(s.messages).value;
      && |r.value.1.messages| == |s.messages| + |calls|
      && (r.value.0 == ToCompress <==> s.iterations >= maxReactToolCalls || AnyCallNamed(calls, ResearchCompleteName))
    ensures r.Success? && r.value.0 == BackToResearcher ==> s.iterations < maxReactToolCalls
  {
    var calls :- LastToolCalls(s.messages);
    if calls == [] then Success((ToCompress, s))
    else
      var outputs :- ToolOutputs(calls, tools, execute);
      var route := if s.iterations >= maxReactToolCalls || AnyCallNamed(calls, ResearchCompleteName)
                   then ToCompress else BackToResearcher;
      Success((route, s.(messages := s.messages + outputs)))
  }

  /** One researcher turn and the tools turn after it. The loop goes on
      only while the counter, already advanced, is below the budget. */
  function ResearcherRound(s: ResearcherState, tools: seq<string>, systemPrompt: string, maxReactToolCalls: int,
                           model: ChatModel, execute: (string, map<string, string>) -> Result<string>): (r: Result<(ResearcherRoute, ResearcherState)>)
    ensures tools == [] ==> r.Failure?
    ensures r.Success? ==> r.value.1.iterations == s.iterations + 1 && s.messages <= r.value.1.messages
    ensures r.Success? && r.value.0 == BackToResearcher ==> s.iterations + 1 < maxReactToolCalls
  {
    var next :- Researcher(s, tools, systemPrompt, model);
    assert s.messages <= next.messages;
    ResearcherTools(next, tools, maxReactToolCalls, execute)
  }

  /** The researcher / tools loop: at most `max(max_react_tool_calls, 1)`
      researcher turns before compression, whatever the model answers */
  method RunResearcher(topic: string, tools: seq<string>, systemPrompt: string, maxReactToolCalls: int,
                       model: ChatModel, execute: (string, map<string, string>) -> Result<string>)
    returns (r: Result<ResearcherState>, turns: nat)
    ensures tools == [] ==> r.Failure?
    ensures turns <= (if maxReactToolCalls < 1 then 1 else maxReactToolCalls)
    ensures r.Success? ==> 1 <= turns && r.value.iterations == turns
    ensures r.Success? ==> |r.value.messages| >= 1 && r.value.messages[0] == HumanMessage(topic)
  {
    var bound := if maxReactToolCalls < 1 then 1 else maxReactToolCalls;
    var s := ResearcherState([HumanMessage(topic)], 0);
    turns := 0;
    var done := false;
    while !done
      invariant s.iterations == turns && |s.messages| >= 1 && s.messages[..1] == [HumanMessage(topic)]
      invariant !done ==> turns < bound
      invariant done ==> 1 <= turns <= bound && tools != []
      decreases bound - turns, !done
    {
      var round := ResearcherRound(s, tools, systemPrompt, maxReactToolCalls, model, execute);
      if round.Failure? {
        r := Failure(round.error);
        return;
      }
      assert s.messages[..1] == round.value.1.messages[..1];
      s := round.value.1;
      turns := turns + 1;
      if round.value.0 == ToCompress {
        done := true;
      }
    }
    r := Success(s);
  }

  // ---------------------------------------------------------------------
  // compress_research

  /** `raw_notes`: a string after a successful compression, a one-element
      list after the retries run out */
  datatype RawNotes = NotesText(text: string) | NotesList(items: seq<string>)

  datatype Compressed = Compressed(compressedResearch: string, rawNotes: RawNotes, attempts: nat)

  /** The tool and AI message contents joined by newlines: nothing when
      the conversation holds neither, and a lone tool or AI message's
      content as it stands */
  function NotesOf(messages: seq<Message>): (r: string)
    ensures (forall i :: 0 <= i < |messages| ==> !messages[i].ToolMessage? && !messages[i].AIMessage?) ==> r == ""
    ensures |messages| == 1 && (messages[0].ToolMessage? || messages[0].AIMessage?) ==> r == messages[0].content
  {
    Join(Contents(ToolAndAiMessages(messages)), "\n")
  }

  /** The retry loop from attempt `attempt` on */
  function CompressFrom(attempt: nat, prompt: seq<Message>, notes: string,
                        synthesize: (nat, seq<Message>) -> Result<string>): (r: Compressed)
    requires attempt <= MaxCompressionAttempts
    decreases MaxCompressionAttempts - attempt
    ensures attempt < r.attempts <= MaxCompressionAttempts || (attempt == MaxCompressionAttempts && r.attempts == attempt)
    ensures r.rawNotes.NotesText? <==> exists k :: attempt <= k < MaxCompressionAttempts && synthesize(k, prompt).Success?
    ensures r.rawNotes.NotesText? ==>
      && synthesize(r.attempts - 1, prompt).Success?
      && r.compressedResearch == synthesize(r.attempts - 1, prompt).value
      && r.rawNotes == NotesText(notes)
      && forall k :: attempt <= k < r.attempts - 1 ==> synthesize(k, prompt).Failure?
    ensures r.rawNotes.NotesList? ==> r == Compressed(MissingResearchMessage, NotesList([notes]), MaxCompressionAttempts)
  {
    if attempt == MaxCompressionAttempts then Compressed(MissingResearchMessage, NotesList([notes]), MaxCompressionAttempts)
    else match synthesize(attempt, prompt)
      case Success(text) => Compressed(text, NotesText(notes), attempt + 1)
      case Failure(_) => CompressFrom(attempt + 1, prompt, notes, synthesize)
  }

  /** `compress_research`: append the compression instruction, then try the
      compression model at most three times */
  function CompressResearch(messages: seq<Message>, systemPrompt: string, humanPrompt: string,
                            synthesize: (nat, seq<Message>) -> Result<string>): (r: Compressed)
    ensures 1 <= r.attempts <= MaxCompressionAttempts
    ensures r.rawNotes.NotesText? <==>
      exists k :: 0 <= k < MaxCompressionAttempts && synthesize(k, [SystemMessage(systemPrompt)] + messages + [HumanMessage(humanPrompt)]).Success?
    ensures r.rawNotes.NotesList? ==>
      r.compressedResearch == MissingResearchMessage && r.rawNotes == NotesList([NotesOf(messages)])
    ensures r.rawNotes.NotesText? ==> r.rawNotes == NotesText(NotesOf(messages))
    ensures r.rawNotes.NotesText? ==>
      var prompt := [SystemMessage(systemPrompt)] + messages + [HumanMessage(humanPrompt)];
      && synthesize(r.attempts - 1, prompt) == Success(r.compressedResearch)
      && forall k :: 0 <= k < r.attempts - 1 ==> synthesize(k, prompt).Failure?
  {
    var all := messages + [HumanMessage(humanPrompt)];
    assert [SystemMessage(systemPrompt)] + all == [SystemMessage(systemPrompt)] + messages + [HumanMessage(humanPrompt)];
    ToolAndAiUnchangedByHuman(messages, humanPrompt);
    CompressFrom(0, [SystemMessage(systemPrompt)] + all, NotesOf(all), synthesize)
  }

  /** The appended instruction is a human message, so it never shows in the
      notes */
  lemma {:induction false} ToolAndAiUnchangedByHuman(messages: seq<Message>, humanPrompt: string)
    ensures ToolAndAiMessages(messages + [HumanMessage(humanPrompt)]) == ToolAndAiMessages(messages)
  {
    if messages == [] {
      assert [HumanMessage(humanPrompt)][1..] == [];
    } else {
      assert (messages + [HumanMessage(humanPrompt)])[1..] == messages[1..] + [HumanMessage(humanPrompt)];
      ToolAndAiUnchangedByHuman(messages[1..], humanPrompt);
    }
  }
}

=== FILE: kronologs_researcher_graph.dfy ===
/** src/kronologs_researcher_graph.py: the researcher / researcher_tools loop
    whose url_crawl calls run the url crawler subgraph, followed by
    `clean_and_order_events` and `structure_events`.

    The subgraph is the parameter `subgraph(figure, j, url)`: the result of
    running it for the j-th url_crawl call of a turn. The two finishing
    nodes' model calls are the parameters `clean` (event summary to cleaned
    text) and `structure` (cleaned text to chronology events). */
module KronologsResearcherGraph {
  import opened Wrappers
  import opened Messages
  import opened ReactTurn
  import opened ChronologyState
  import UrlCrawlerGraph

  const CompleteName: string := "research_complete"

  /** This graph exits on `research_complete` and keeps raw notes */
  const Config: GraphConfig := GraphConfig(CompleteName, true)

  /** A url_crawl call's outcome: the subgraph's events replace the event
      summary, its page content becomes the URL's raw note */
  function SubgraphCrawler(subgraph: (string, nat, string) -> UrlCrawlerGraph.CrawlResult): (c: Crawler)
    ensures forall figure, summary, j, url :: c(figure, summary, j, url).0 == subgraph(figure, j, url).events
    ensures forall figure, summary, j, url :: c(figure, summary, j, url).1 == subgraph(figure, j, url).content
    ensures forall figure, s1, s2, j, url :: c(figure, s1, j, url) == c(figure, s2, j, url)
  {
    (figure: string, summary: string, j: nat, url: string) => (subgraph(figure, j, url).events, subgraph(figure, j, url).content)
  }

  /** After a continuing tools turn the event summary is the events of the
      turn's last crawl alone: earlier crawls and the previous summary
      leave no trace in it. Without crawls it is unchanged. Each crawled
      URL's raw note is the page content of its last crawl, and notes of
      URLs not crawled are kept. */
  lemma TurnKeepsLastCrawl(s: ReactState, subgraph: (string, nat, string) -> UrlCrawlerGraph.CrawlResult, t: ReactState)
    requires ResearcherTools(s, Config, SubgraphCrawler(subgraph)) == Success(Some(t))
    ensures var crawls := CallsNamed(LastToolCalls(s.messages).value, UrlCrawlName);
      var urls := ArgsOf(crawls, "url").value;
      && ArgsOf(crawls, "url").Success?
      && (crawls == [] ==> t.eventSummary == s.eventSummary)
      && (crawls != [] ==> t.eventSummary == subgraph(s.figure, |crawls| - 1, urls[|crawls| - 1]).events)
      && (forall j :: 0 <= j < |crawls| && LastOccurrence(urls, |crawls|, j) ==>
            urls[j] in t.rawNotes && t.rawNotes[urls[j]] == subgraph(s.figure, j, urls[j]).content)
      && (forall u :: u in s.rawNotes && u !in urls ==> u in t.rawNotes && t.rawNotes[u] == s.rawNotes[u])
  {
    TurnSummaryAndNotes(s, Config, SubgraphCrawler(subgraph), t);
  }

  const ProcessedPrefix: string := "Processed: "

  /** How much of the cleaned text the new event summary shows */
  const PreviewLength: nat := 100

  /** The event summary `clean_and_order_events` leaves: "Processed: " and
      the cleaned text, cut to its first 100 characters and "..." when it
      is longer */
  function ProcessedSummary(cleaned: string): (r: string)
    ensures ProcessedPrefix <= r
    ensures |cleaned| <= PreviewLength ==> |r| == |ProcessedPrefix| + |cleaned| && r[|ProcessedPrefix|..] == cleaned
    ensures |cleaned| > PreviewLength ==> |r| == |ProcessedPrefix| + PreviewLength + 3
    ensures |cleaned| > PreviewLength ==> r[|ProcessedPrefix|..|ProcessedPrefix| + PreviewLength] == cleaned[..PreviewLength]
    ensures |cleaned| > PreviewLength ==> r[|ProcessedPrefix| + PreviewLength..] == "..."
  {
    if |cleaned| > PreviewLength then ProcessedPrefix + cleaned[..PreviewLength] + "..."
    else ProcessedPrefix + cleaned
  }

  /** Two cleaned texts give the same summary exactly when they are equal
      or both longer than 100 characters with the same first 100 */
  lemma ProcessedSummarySame(a: string, b: string)
    ensures ProcessedSummary(a) == ProcessedSummary(b)
       <==> a == b || (|a| > PreviewLength && |b| > PreviewLength && a[..PreviewLength] == b[..PreviewLength])
  {
    var ra, rb := ProcessedSummary(a), ProcessedSummary(b);
    var p := |ProcessedPrefix|;
    if ra == rb {
      if |a| <= PreviewLength && |b| <= PreviewLength {
        assert a == ra[p..] == rb[p..] == b;
      } else if |a| > PreviewLength && |b| > PreviewLength {
        assert a[..PreviewLength] == ra[p..p + PreviewLength] == rb[p..p + PreviewLength] == b[..PreviewLength];
      }
    }
  }

  /** The state `clean_and_order_events` passes on */
  datatype Cleaned = Cleaned(cleanedEventsText: string, eventSummary: string)

  /** `clean_and_order_events`: the cleaning model's text, and the summary
      built from it */
  function CleanAndOrderEvents(eventSummary: string, clean: string -> string): (r: Cleaned)
    ensures r.cleanedEventsText == clean(eventSummary)
    ensures r.eventSummary == ProcessedSummary(r.cleanedEventsText)
  {
    var text := clean(eventSummary);
    Cleaned(text, ProcessedSummary(text))
  }

  /** `structure_events`: an empty cleaned text gives no events without
      consulting the model; otherwise the model's events */
  function StructureEvents(cleaned: Cleaned, structure: string -> seq<ChronologyEvent>): (r: seq<ChronologyEvent>)
    ensures cleaned.cleanedEventsText == "" ==> r == []
    ensures cleaned.cleanedEventsText != "" ==> r == structure(cleaned.cleanedEventsText)
  {
    if cleaned.cleanedEventsText == "" then [] else structure(cleaned.cleanedEventsText)
  }

  /** The whole graph for at most `fuel` rounds: the `compressed_research`
      output once the loop hands over, None while it is still going */
  function Research(s: ReactState, fuel: nat, systemPrompt: string -> string, model: ChatModel,
                    subgraph: (string, nat, string) -> UrlCrawlerGraph.CrawlResult,
                    clean: string -> string, structure: string -> seq<ChronologyEvent>): (r: Result<Option<seq<ChronologyEvent>>>)
    ensures s.figure == "" && fuel > 0 ==> r.Failure?
    ensures r.Success? && r.value.Some? ==>
      exists h :: Rounds(s, fuel, Config, systemPrompt, model, SubgraphCrawler(subgraph)) == Success(HandedOver(h))
               && r.value.value == StructureEvents(CleanAndOrderEvents(h.eventSummary, clean), structure)
  {
    var progress := Rounds(s, fuel, Config, systemPrompt, model, SubgraphCrawler(subgraph));
    if progress.Failure? then Failure(progress.error)
    else if progress.value.Running? then Success(None)
    else Success(Some(StructureEvents(CleanAndOrderEvents(progress.value.state.eventSummary, clean), structure)))
  }

  /** The result depends on the conversation only through the final event
      summary: when the cleaning model turns it into nothing, there are no
      events; and a model that finishes at once leaves the summary the
      graph started with */
  lemma ImmediateFinishUsesStartingSummary(s: ReactState, fuel: nat, systemPrompt: string -> string, model: ChatModel,
                                           subgraph: (string, nat, string) -> UrlCrawlerGraph.CrawlResult,
                                           clean: string -> string, structure: string -> seq<ChronologyEvent>)
    requires s.figure != "" && fuel > 0
    requires model([SystemMessage(systemPrompt(s.figure))] + s.messages).1 == []
    ensures Research(s, fuel, systemPrompt, model, subgraph, clean, structure)
         == Success(Some(StructureEvents(CleanAndOrderEvents(s.eventSummary, clean), structure)))
    ensures clean(s.eventSummary) == "" ==> Research(s, fuel, systemPrompt, model, subgraph, clean, structure) == Success(Some([]))
  {
    HandsOverOnFinalReply(s, fuel, Config, systemPrompt, model, SubgraphCrawler(subgraph));
  }
}

=== FILE: legacy_crawler_utils.dfy ===
/** The legacy copy of the crawler helpers (legacy/url_crawler/utils.py). Its
    `chunk_text_by_tokens` and `count_tokens` are verbatim copies of the ones
    in CrawlerUtils and are not defined a second time; what differs is that
    `url_crawl` hands the scraper's result to link removal without a None
    guard. */
module LegacyCrawlerUtils {
  import opened Wrappers
  import CrawlerUtils

  /** The exception Python raises when `re.sub` receives None */
  const NoneToRegex: string := "TypeError: expected string or bytes-like object"

  /** `url_crawl` without the None guard: a failed scrape (None) becomes an
      exception, a successful one the link-stripped Markdown */
  function LegacyUrlCrawl(scraped: Option<string>): (r: Result<string>)
    ensures scraped.None? <==> r.Failure?
    ensures scraped.None? ==> r.error == NoneToRegex
    ensures scraped.Some? ==> r.value == CrawlerUtils.UrlCrawl(scraped)
  {
    match scraped
    case None => Failure(NoneToRegex)
    case Some(content) => Success(CrawlerUtils.RemoveMarkdownLinks(content))
  }

  /** The guarded and unguarded crawls agree whenever the scrape succeeded */
  lemma GuardOnlyMattersForNone(scraped: Option<string>)
    ensures LegacyUrlCrawl(scraped).Success? ==> LegacyUrlCrawl(scraped).value == CrawlerUtils.UrlCrawl(scraped)
    ensures LegacyUrlCrawl(scraped).Failure? ==> CrawlerUtils.UrlCrawl(scraped) == ""
  {
  }

  /** Chunk k of the legacy chunker spans token indices
      [k * step, k * step + chunk_size) clipped to the token count */
  lemma LegacyChunkSpan<T>(tokens: seq<T>, chunkSize: int, overlapSize: int, k: nat)
    requires CrawlerUtils.ValidChunking(chunkSize, overlapSize)
    requires k < |CrawlerUtils.ChunkTokens(tokens, chunkSize, overlapSize)|
    ensures var start := k * (chunkSize - overlapSize);
      && 0 <= start < |tokens|
      && CrawlerUtils.ChunkTokens(tokens, chunkSize, overlapSize)[k]
         == tokens[start .. CrawlerUtils.Min(start + chunkSize, |tokens|)]
  {
    var step := chunkSize - overlapSize;
    CrawlerUtils.StartInside(|tokens|, step, k);
    CrawlerUtils.StartIsProduct(k, step);
    var start := CrawlerUtils.Start(k, step);
    assert start == k * (chunkSize - overlapSize);
    var w := CrawlerUtils.ChunkTokens(tokens, chunkSize, overlapSize)[k];
    assert w == CrawlerUtils.Window(tokens, start, chunkSize);
  }

  /** Without a positive stride the loop never ends on non-empty input: after
      any number of rounds the start index is still inside the tokens */
  lemma NoStrideNoProgress(tokenCount: nat, chunkSize: int, overlapSize: int, rounds: nat)
    requires tokenCount > 0 && chunkSize <= overlapSize
    ensures rounds * (chunkSize - overlapSize) < tokenCount
  {
    var step := chunkSize - overlapSize;
    assert rounds * step <= 0 by {
      assert rounds * (-step) >= 0;
    }
  }
}

=== FILE: merge_events_graph.dfy ===
/** The category merge pipeline of
    src/research_events/merge_events/merge_events_graph.py: split newly
    extracted text into token chunks, keep the first chunks if any of them
    holds biographical events, categorise every kept chunk with the model,
    merge the per-chunk results, and combine them category by category with
    the existing events.

    Model calls are parameters: `hasEvents` stands for the biographic event
    detection graph, `respond` for the categorising model, `mergeAll` for the
    event service's merge of per-chunk results, and `merge` for the
    per-category merging model (original text, new text) -> merged text. */
module MergeEventsGraph {
  import opened Wrappers
  import opened Text
  import opened Messages
  import opened EventCategories
  import CrawlerUtils

  /** `split_events` forwards at most this many chunks */
  const MaxSplitChunks: nat := 20

  /** The tool the categorising model calls for a chunk with events */
  const RelevantEventsName: string := "RelevantEventsCategorized"

  /** Python's message for awaiting the list that `chunk_text_by_tokens`
      returns */
  const AwaitListError: string := "TypeError: object list can't be used in 'await' expression"

  /** A tool-call argument of the categorising model: a string or a list of
      strings */
  datatype ArgValue = Str(s: string) | List(items: seq<string>)

  /** The comprehension that joins list values with "\n" */
  function ArgText(v: ArgValue): string {
    match v
    case Str(s) => s
    case List(items) => Join(items, "\n")
  }

  // ---------------------------------------------------------------------
  // split_events

  /** Where `split_events` sends the graph */
  datatype SplitOutcome = NoContent | ToFilter(chunks: seq<string>)

  /** `split_events` as written: the `await` on the list returned by the
      synchronous chunker raises for every input that is not blank */
  function SplitEventsAsWritten(extracted: string): (r: Result<SplitOutcome>)
    ensures IsBlank(extracted) <==> r == Success(NoContent)
    ensures !IsBlank(extracted) ==> r == Failure(AwaitListError)
  {
    if IsBlank(extracted) then Success(NoContent)
    else Failure(AwaitListError)
  }

  /** A one-word extract never reaches the filter as written */
  lemma AwaitBreaksEveryExtract()
    ensures SplitEventsAsWritten("Born 1879").Failure?
    ensures forall x :: !IsBlank(x) ==> !SplitEventsAsWritten(x).Success?
  {
    assert !IsSpace("Born 1879"[0]);
  }

  /** Python's `strip()` also removes the no-break space and the ideographic
      space, so an extract made of them ends the graph as written */
  lemma UnicodeSpacesAreBlank()
    ensures SplitEventsAsWritten("\U{A0}\t\U{3000}") == Success(NoContent)
  {
  }

  /** `split_events` with the chunker called directly: blank input ends the
      graph; otherwise the first 20 chunks of size 2000 with overlap 20 go
      to the filter */
  function SplitEvents<T>(extracted: string, encode: string -> seq<T>, decode: seq<T> -> string): (r: SplitOutcome)
    ensures IsBlank(extracted) <==> r == NoContent
    ensures r.ToFilter? ==> |r.chunks| == CrawlerUtils.Min(MaxSplitChunks, CrawlerUtils.ChunkCount(|encode(extracted)|, 1980))
    ensures r.ToFilter? ==> forall k :: 0 <= k < |r.chunks| ==>
      r.chunks[k] == decode(CrawlerUtils.Window(encode(extracted), CrawlerUtils.Start(k, 1980), 2000))
  {
    if IsBlank(extracted) then NoContent
    else
      assert extracted != "";
      var chunks := CrawlerUtils.ChunkTextByTokens(extracted, encode, decode,
                                                    CrawlerUtils.DefaultChunkSize, CrawlerUtils.DefaultOverlapSize);
      ToFilter(if |chunks| <= MaxSplitChunks then chunks else chunks[..MaxSplitChunks])
  }

  /** The corrected node agrees with the as-written one wherever the latter
      does not raise */
  lemma SplitEventsAgreesOnBlank<T>(extracted: string, encode: string -> seq<T>, decode: seq<T> -> string)
    requires SplitEventsAsWritten(extracted).Success?
    ensures SplitEvents(extracted, encode, decode) == SplitEventsAsWritten(extracted).value
  {
  }

  // ---------------------------------------------------------------------
  // filter_chunks

  /** Where `filter_chunks` sends the graph */
  datatype FilterOutcome = NoRelevant | ToExtract(chunks: seq<string>)

  /** The chunks the detection graph flags, in order */
  function Flagged(chunks: seq<string>, hasEvents: string -> bool): (r: seq<string>)
    ensures r == [] <==> forall i :: 0 <= i < |chunks| ==> !hasEvents(chunks[i])
    ensures forall i :: 0 <= i < |r| ==> hasEvents(r[i])
  {
    if chunks == [] then []
    else
      assert forall i :: 1 <= i < |chunks| ==> chunks[1..][i - 1] == chunks[i];
      (if hasEvents(chunks[0]) then [chunks[0]] else []) + Flagged(chunks[1..], hasEvents)
  }

  /** `filter_chunks`: truncate to `maxChunks`, end unless some kept chunk is
      flagged, and forward the whole truncated list, flagged or not */
  function FilterChunks(chunks: seq<string>, maxChunks: nat, hasEvents: string -> bool): (r: FilterOutcome)
    ensures r.ToExtract? <==> exists i :: 0 <= i < |chunks| && i < maxChunks && hasEvents(chunks[i])
    ensures r.ToExtract? ==> |r.chunks| <= maxChunks && r.chunks <= chunks
    ensures r.ToExtract? ==> |r.chunks| == CrawlerUtils.Min(|chunks|, maxChunks)
  {
    if chunks == [] then NoRelevant
    else
      var kept := if |chunks| > maxChunks then chunks[..maxChunks] else chunks;
      assert forall i :: 0 <= i < |kept| ==> kept[i] == chunks[i];
      if Flagged(kept, hasEvents) == [] then NoRelevant
      else ToExtract(kept)
  }

  // ---------------------------------------------------------------------
  // extract_and_categorize_chunk

  /** The value of field `key` in the model's arguments; a missing field
      takes the declared default "" */
  function FieldOf(args: map<string, ArgValue>, key: string): string {
    if key in args then ArgText(args[key]) else ""
  }

  /** The parse of one response: the four categories of a
      RelevantEventsCategorized first call, otherwise all four empty */
  function ParseCategorized(calls: seq<ToolCall<ArgValue>>): (c: Categories)
    ensures (calls == [] || calls[0].name != RelevantEventsName) ==> c == NoEvents
    ensures calls != [] && calls[0].name == RelevantEventsName ==>
      forall cat :: Get(c, cat) == FieldOf(calls[0].args, FieldName(cat))
  {
    if calls != [] && calls[0].name == RelevantEventsName then
      var args := calls[0].args;
      Build(cat => FieldOf(args, FieldName(cat)))
    else NoEvents
  }

  /** A list-valued field is shown as its items separated by newlines */
  lemma ListFieldJoined(id: string, args: map<string, ArgValue>, items: seq<string>)
    requires "career" in args && args["career"] == List(items)
    ensures ParseCategorized([ToolCall(RelevantEventsName, id, args)]).career == Join(items, "\n")
  {
    assert Get(ParseCategorized([ToolCall(RelevantEventsName, id, args)]), Career) == FieldOf(args, "career");
  }

  /** Where one visit of `extract_and_categorize_chunk` sends the graph */
  datatype ExtractStep = MoveToMerge | Categorized(categorized: seq<Categories>)

  /** One visit: categorise the chunk at index `len(categorized)`, or move
      on once every chunk has a result */
  function ExtractAndCategorizeChunk(chunks: seq<string>, categorized: seq<Categories>,
                                     respond: string -> seq<ToolCall<ArgValue>>): (r: ExtractStep)
    ensures r.MoveToMerge? <==> |categorized| >= |chunks|
    ensures r.Categorized? ==> |r.categorized| == |categorized| + 1 && categorized < r.categorized
    ensures r.Categorized? ==> r.categorized[|categorized|] == ParseCategorized(respond(chunks[|categorized|]))
  {
    if |categorized| >= |chunks| then MoveToMerge
    else Categorized(categorized + [ParseCategorized(respond(chunks[|categorized|]))])
  }

  /** The self-loop of `extract_and_categorize_chunk` run to completion:
      it visits the node exactly `len(chunks) + 1` times and leaves one
      result per chunk, aligned by index */
  method RunExtraction(chunks: seq<string>, respond: string -> seq<ToolCall<ArgValue>>)
    returns (categorized: seq<Categories>, visits: nat)
    ensures visits == |chunks| + 1
    ensures |categorized| == |chunks|
    ensures forall i :: 0 <= i < |chunks| ==> categorized[i] == ParseCategorized(respond(chunks[i]))
  {
    categorized := [];
    var step := ExtractAndCategorizeChunk(chunks, categorized, respond);
    visits := 1;
    while step.Categorized?
      invariant |categorized| <= |chunks|
      invariant visits == |categorized| + 1
      invariant step == ExtractAndCategorizeChunk(chunks, categorized, respond)
      invariant forall i :: 0 <= i < |categorized| ==> categorized[i] == ParseCategorized(respond(chunks[i]))
      decreases |chunks| - |categorized|
    {
      categorized := step.categorized;
      step := ExtractAndCategorizeChunk(chunks, categorized, respond);
      visits := visits + 1;
    }
  }

  /** The per-chunk results the loop leaves behind, as a function */
  function CategorizeAll(chunks: seq<string>, respond: string -> seq<ToolCall<ArgValue>>): (r: seq<Categories>)
    ensures |r| == |chunks|
    ensures forall i :: 0 <= i < |chunks| ==> r[i] == ParseCategorized(respond(chunks[i]))
  {
    seq(|chunks|, i requires 0 <= i < |chunks| => ParseCategorized(respond(chunks[i])))
  }

  // ---------------------------------------------------------------------
  // combine_new_and_original_events

  /** What the merging model is shown for one side: the stripped text, or
      "No events" when it is blank */
  function Display(s: string): (r: string)
    ensures IsBlank(s) ==> r == "No events"
    ensures !IsBlank(s) ==> r == Strip(s) && !IsBlank(r)
  {
    var t := Strip(s);
    if t == "" then "No events"
    else
      assert !IsSpace(t[0]);
      t
  }

  /** A category needs a merge call unless both sides are blank */
  predicate NeedsMerge(existing: Categories, incoming: Categories, cat: Category) {
    !(IsBlank(Get(existing, cat)) && IsBlank(Get(incoming, cat)))
  }

  /** The merged value of one category */
  function CombineCategory(existing: Categories, incoming: Categories, cat: Category,
                           merge: (string, string) -> string): (r: string)
    ensures var e, n := Get(existing, cat), Get(incoming, cat);
      && (IsBlank(e) && IsBlank(n) ==> r == e)
      && (!IsBlank(e) && IsBlank(n) ==> r == merge(Strip(e), "No events"))
      && (IsBlank(e) && !IsBlank(n) ==> r == merge("No events", Strip(n)))
      && (!IsBlank(e) && !IsBlank(n) ==> r == merge(Strip(e), Strip(n)))
  {
    if NeedsMerge(existing, incoming, cat) then merge(Display(Get(existing, cat)), Display(Get(incoming, cat)))
    else Get(existing, cat)
  }

  /** `combine_new_and_original_events` */
  function CombineNewAndOriginal(existing: Categories, incoming: Categories, merge: (string, string) -> string): (r: Categories)
    ensures AllBlank(incoming) ==> r == existing
    ensures forall cat :: !NeedsMerge(existing, incoming, cat) ==> Get(r, cat) == Get(existing, cat)
    ensures !AllBlank(incoming) ==> forall cat :: NeedsMerge(existing, incoming, cat) ==>
      Get(r, cat) == merge(Display(Get(existing, cat)), Display(Get(incoming, cat)))
  {
    if AllBlank(incoming) then existing
    else Build(cat => CombineCategory(existing, incoming, cat, merge))
  }

  /** The categories sent to the merging model, in field order */
  function MergeCalls(existing: Categories, incoming: Categories): (r: seq<Category>)
    ensures |r| <= |AllCategories|
    ensures forall cat :: cat in r <==> !AllBlank(incoming) && NeedsMerge(existing, incoming, cat)
    ensures forall i, j :: 0 <= i < j < |r| ==> r[i] != r[j]
  {
    if AllBlank(incoming) then []
    else
      AllCategoriesListed();
      NeedingMerge(existing, incoming, AllCategories)
  }

  /** The categories of `cats` that need a merge call, in order */
  function NeedingMerge(existing: Categories, incoming: Categories, cats: seq<Category>): (r: seq<Category>)
    ensures |r| <= |cats|
    ensures forall cat :: cat in r <==> cat in cats && NeedsMerge(existing, incoming, cat)
    ensures (forall i, j :: 0 <= i < j < |cats| ==> cats[i] != cats[j]) ==> forall i, j :: 0 <= i < j < |r| ==> r[i] != r[j]
  {
    if cats == [] then []
    else
      var rest := NeedingMerge(existing, incoming, cats[1..]);
      if (forall i, j :: 0 <= i < j < |cats| ==> cats[i] != cats[j]) then
        assert cats[0] !in cats[1..];
        assert cats[0] !in rest;
        (if NeedsMerge(existing, incoming, cats[0]) then [cats[0]] else []) + rest
      else
        (if NeedsMerge(existing, incoming, cats[0]) then [cats[0]] else []) + rest
  }

  /** A category for which no merge call is issued keeps its existing
      value verbatim, so all four categories are always present */
  lemma UnmergedCategoriesKept(existing: Categories, incoming: Categories, merge: (string, string) -> string, cat: Category)
    requires cat !in MergeCalls(existing, incoming)
    ensures Get(CombineNewAndOriginal(existing, incoming, merge), cat) == Get(existing, cat)
  {
  }

  /** Every merge call sees two non-blank sides */
  lemma MergeSidesNeverBlank(existing: Categories, incoming: Categories, cat: Category)
    ensures !IsBlank(Display(Get(existing, cat))) && !IsBlank(Display(Get(incoming, cat)))
  {
    NoEventsNotBlank();
  }

  lemma NoEventsNotBlank()
    ensures !IsBlank("No events")
  {
    assert !IsSpace("No events"[0]);
  }

  // ---------------------------------------------------------------------
  // The whole graph

  /** The merge graph with `split_events` corrected: the resulting
      `existing_events` */
  function MergeEventsGraph<T>(existing: Categories, extracted: string,
                               encode: string -> seq<T>, decode: seq<T> -> string,
                               maxChunks: nat, hasEvents: string -> bool,
                               respond: string -> seq<ToolCall<ArgValue>>,
                               mergeAll: seq<Categories> -> Categories,
                               merge: (string, string) -> string): (r: Categories)
    ensures IsBlank(extracted) ==> r == existing
    ensures maxChunks == 0 ==> r == existing
    ensures (forall s :: !hasEvents(s)) ==> r == existing
    ensures (forall cs :: AllBlank(mergeAll(cs))) ==> r == existing
    ensures !IsBlank(extracted) ==>
      var chunks := SplitEvents(extracted, encode, decode).chunks;
      var kept := chunks[..CrawlerUtils.Min(|chunks|, maxChunks)];
      r == if exists i :: 0 <= i < |kept| && hasEvents(kept[i])
           then CombineNewAndOriginal(existing, mergeAll(CategorizeAll(kept, respond)), merge)
           else existing
  {
    match SplitEvents(extracted, encode, decode)
    case NoContent => existing
    case ToFilter(chunks) =>
      FilterForwardsPrefix(chunks, maxChunks, hasEvents);
      if chunks == [] then existing
      else
        match FilterChunks(chunks, maxChunks, hasEvents)
        case NoRelevant => existing
        case ToExtract(kept) =>
          CombineNewAndOriginal(existing, mergeAll(CategorizeAll(kept, respond)), merge)
  }

  /** `filter_chunks` forwards the first `maxChunks` chunks, flagged or not,
      exactly when one of them is flagged */
  lemma FilterForwardsPrefix(chunks: seq<string>, maxChunks: nat, hasEvents: string -> bool)
    ensures var kept := chunks[..CrawlerUtils.Min(|chunks|, maxChunks)];
      FilterChunks(chunks, maxChunks, hasEvents)
        == if exists i :: 0 <= i < |kept| && hasEvents(kept[i]) then ToExtract(kept) else NoRelevant
  {
    var kept := chunks[..CrawlerUtils.Min(|chunks|, maxChunks)];
    var f := FilterChunks(chunks, maxChunks, hasEvents);
    assert forall i :: 0 <= i < |kept| ==> kept[i] == chunks[i];
    if exists i :: 0 <= i < |kept| && hasEvents(kept[i]) {
      assert f.ToExtract?;
      assert f.chunks == kept;
    }
  }

  /** The merge graph as written: it raises for every non-blank extract and
      otherwise leaves the existing events unchanged */
  function MergeEventsGraphAsWritten(existing: Categories, extracted: string): (r: Result<Categories>)
    ensures r.Success? <==> IsBlank(extracted)
    ensures r.Success? ==> r.value == existing
  {
    var outcome :- SplitEventsAsWritten(extracted);
    Success(existing)
  }
}

=== FILE: messages.dfy ===
/** The conversation vocabulary shared by the agent graphs: LangChain message
    kinds and the tool calls a model response carries. Tool-call arguments
    are a map from argument name to a value of type A. */
module Messages {
  import opened Wrappers
  import opened Text

  datatype ToolCall<A> = ToolCall(name: string, id: string, args: map<string, A>)

  datatype Message =
    | SystemMessage(content: string)
    | HumanMessage(content: string)
    | AIMessage(content: string, toolCalls: seq<ToolCall<string>>)
    | ToolMessage(content: string, name: string, toolCallId: string)

  /** `any(tool_call["name"] == name for tool_call in calls)` */
  predicate AnyCallNamed<A>(calls: seq<ToolCall<A>>, name: string) {
    exists i :: 0 <= i < |calls| && calls[i].name == name
  }

  /** `[tool_call for tool_call in calls if tool_call["name"] == name]` */
  function CallsNamed<A>(calls: seq<ToolCall<A>>, name: string): (r: seq<ToolCall<A>>)
    ensures |r| <= |calls|
    ensures forall i :: 0 <= i < |r| ==> r[i].name == name
    ensures r == [] <==> !AnyCallNamed(calls, name)
  {
    if calls == [] then []
    else
      var rest := CallsNamed(calls[1..], name);
      assert forall i :: 0 <= i < |calls| - 1 ==> calls[1..][i] == calls[i + 1];
      if calls[0].name == name then [calls[0]] + rest else rest
  }

  /** The filter keeps exactly the calls of that name */
  lemma {:induction false} CallsNamedMembers<A>(calls: seq<ToolCall<A>>, name: string)
    ensures forall c :: c in CallsNamed(calls, name) <==> c in calls && c.name == name
  {
    if calls != [] {
      CallsNamedMembers(calls[1..], name);
      assert forall c :: c in calls <==> c == calls[0] || c in calls[1..];
    }
  }

  /** Filtering distributes over concatenation, so the calls of one name keep
      their relative order */
  lemma {:induction false} CallsNamedAppend<A>(a: seq<ToolCall<A>>, b: seq<ToolCall<A>>, name: string)
    ensures CallsNamed(a + b, name) == CallsNamed(a, name) + CallsNamed(b, name)
  {
    if a == [] {
      assert a + b == b;
    } else {
      assert (a + b)[0] == a[0];
      assert (a + b)[1..] == a[1..] + b;
      CallsNamedAppend(a[1..], b, name);
    }
  }

  /** `tool_call["args"][key]`: a missing argument raises KeyError */
  function Arg<A>(call: ToolCall<A>, key: string): (r: Result<A>)
    ensures r.Success? <==> key in call.args
    ensures r.Success? ==> r.value == call.args[key]
  {
    if key in call.args then Success(call.args[key]) else Failure("KeyError: '" + key + "'")
  }

  /** `message.content` for every message of a list */
  function Contents(messages: seq<Message>): (r: seq<string>)
    ensures |r| == |messages|
    ensures forall i :: 0 <= i < |messages| ==> r[i] == messages[i].content
  {
    Map(messages, (m: Message) => m.content)
  }

  /** A chat model: the text and tool calls it answers a prompt with */
  type ChatModel = seq<Message> -> (string, seq<ToolCall<string>>)

  /** `await model.ainvoke(prompt)`: the reply is always an AI message */
  function Invoke(model: ChatModel, prompt: seq<Message>): (m: Message)
    ensures m.AIMessage?
  {
    AIMessage(model(prompt).0, model(prompt).1)
  }

  /** `messages[-1].tool_calls`: an empty list raises IndexError and a last
      message that is not an AI message has no `tool_calls` attribute */
  function LastToolCalls(messages: seq<Message>): (r: Result<seq<ToolCall<string>>>)
    ensures r.Success? <==> messages != [] && messages[|messages| - 1].AIMessage?
    ensures r.Success? ==> r.value == messages[|messages| - 1].toolCalls
  {
    if messages == [] then Failure("IndexError: list index out of range")
    else if !messages[|messages| - 1].AIMessage? then Failure("AttributeError: 'tool_calls'")
    else Success(messages[|messages| - 1].toolCalls)
  }

  /** `filter_messages(messages, include_types=["tool", "ai"])` */
  function ToolAndAiMessages(messages: seq<Message>): (r: seq<Message>)
    ensures |r| <= |messages|
    ensures forall i :: 0 <= i < |r| ==> (r[i].ToolMessage? || r[i].AIMessage?) && r[i] in messages
    ensures forall i :: 0 <= i < |messages| && (messages[i].ToolMessage? || messages[i].AIMessage?) ==> messages[i] in r
    ensures |messages| == 1 ==> r == (if messages[0].ToolMessage? || messages[0].AIMessage? then messages else [])
  {
    if messages == [] then []
    else
      var rest := ToolAndAiMessages(messages[1..]);
      assert forall i :: 0 <= i < |messages| - 1 ==> messages[1..][i] == messages[i + 1];
      if messages[0].ToolMessage? || messages[0].AIMessage? then [messages[0]] + rest else rest
  }

  /** The filter keeps order and repetitions: filtering a concatenation is
      concatenating the filtered parts */
  lemma {:induction false} ToolAndAiAppend(a: seq<Message>, b: seq<Message>)
    ensures ToolAndAiMessages(a + b) == ToolAndAiMessages(a) + ToolAndAiMessages(b)
  {
    if a == [] {
      assert a + b == b;
    } else {
      assert (a + b)[1..] == a[1..] + b;
      ToolAndAiAppend(a[1..], b);
    }
  }

  /** `tool_call["args"][key]` for every call, in order; the first missing
      argument raises KeyError */
  function ArgsOf<A>(calls: seq<ToolCall<A>>, key: string): (r: Result<seq<A>>)
    ensures r.Success? <==> forall i :: 0 <= i < |calls| ==> key in calls[i].args
    ensures r.Success? ==> |r.value| == |calls| && forall i :: 0 <= i < |calls| ==> r.value[i] == calls[i].args[key]
  {
    if calls == [] then Success([])
    else
      assert forall i :: 1 <= i < |calls| ==> calls[1..][i - 1] == calls[i];
      var first :- Arg(calls[0], key);
      var rest :- ArgsOf(calls[1..], key);
      Success([first] + rest)
  }

  const ThinkToolName: string := "think_tool"

  /** The answers to think_tool calls: "Reflection recorded: " and the
      reflection argument named `key`, one message per call in call order */
  function ThinkMessages(calls: seq<ToolCall<string>>, key: string): (r: Result<seq<Message>>)
    ensures r.Success? <==> forall i :: 0 <= i < |calls| ==> key in calls[i].args
    ensures r.Success? ==> |r.value| == |calls| && forall i :: 0 <= i < |calls| ==>
      r.value[i] == ToolMessage("Reflection recorded: " + calls[i].args[key], ThinkToolName, calls[i].id)
  {
    var reflections :- ArgsOf(calls, key);
    Success(seq(|calls|, i requires 0 <= i < |calls| =>
      ToolMessage("Reflection recorded: " + reflections[i], ThinkToolName, calls[i].id)))
  }

  /** Indexing into the front of a concatenation */
  lemma KeptAt<T>(a: seq<T>, b: seq<T>, i: nat)
    requires i < |a|
    ensures (a + b)[i] == a[i]
  {
  }

  /** Indexing into the back of a concatenation */
  lemma AppendedAt<T>(a: seq<T>, b: seq<T>, i: nat)
    requires i < |b|
    ensures |a| + i < |a + b| && (a + b)[|a| + i] == b[i]
  {
  }
}

=== FILE: new_graph_index.dfy ===
/** new_graph/index.py: the same loop as src/index.py, but the url_crawl
    tool is the stub crawler of new_graph/utils.py run through its
    `execute_tool_safely`, and no raw notes are kept. The summarising call
    `update_event_summary` is the parameter `summarize(figure, previous,
    page)`; the structuring model of `compress_research` is `structure`. */
module NewGraphIndex {
  import opened Wrappers
  import opened Text
  import opened Messages
  import opened ReactTurn
  import opened ChronologyState
  import NewGraphUtils

  const CompleteName: string := "ResearchComplete"

  /** This graph exits on `ResearchComplete` and keeps no raw notes */
  const Config: GraphConfig := GraphConfig(CompleteName, false)

  /** What the crawl tool returns for a url_crawl call's arguments */
  function CrawledPage(url: string): (r: string)
    ensures r == NewGraphUtils.FakeUrlCrawl(url)
  {
    NewGraphUtils.ExecuteToolSafely(NewGraphUtils.UrlCrawl, map["url" := url])
  }

  /** A url_crawl call's outcome: the summarising model's answer for the
      turn's starting summary and the stub page; the note is not kept */
  function StubCrawler(summarize: (string, string, string) -> string): (c: Crawler)
    ensures forall figure, summary, j, url :: c(figure, summary, j, url).1 == ""
    ensures forall figure, summary, j, url ::
      c(figure, summary, j, url).0 == summarize(figure, summary, NewGraphUtils.FakeUrlCrawl(url))
  {
    assert forall url :: CrawledPage(url) == NewGraphUtils.FakeUrlCrawl(url);
    (figure: string, summary: string, j: nat, url: string) => (summarize(figure, summary, CrawledPage(url)), "")
  }

  /** After a continuing tools turn: raw notes are untouched, and the event
      summary is the summarising model's answer for the turn's starting
      summary and the stub page of the last crawled URL (unchanged without
      crawls) */
  lemma TurnSummarizesLastStubPage(s: ReactState, summarize: (string, string, string) -> string, t: ReactState)
    requires ResearcherTools(s, Config, StubCrawler(summarize)) == Success(Some(t))
    ensures t.rawNotes == s.rawNotes
    ensures var crawls := CallsNamed(LastToolCalls(s.messages).value, UrlCrawlName);
      var urls := ArgsOf(crawls, "url").value;
      && ArgsOf(crawls, "url").Success?
      && (crawls == [] ==> t.eventSummary == s.eventSummary)
      && (crawls != [] ==> t.eventSummary == summarize(s.figure, s.eventSummary, NewGraphUtils.FakeUrlCrawl(urls[|crawls| - 1])))
  {
    TurnSummaryAndNotes(s, Config, StubCrawler(summarize), t);
    var crawls := CallsNamed(LastToolCalls(s.messages).value, UrlCrawlName);
    assert ArgsOf(crawls, "url").Success?;
    if crawls != [] {
      var url := ArgsOf(crawls, "url").value[|crawls| - 1];
      assert t.eventSummary == StubCrawler(summarize)(s.figure, s.eventSummary, |crawls| - 1, url).0;
      StubCrawlerAt(summarize, s.figure, s.eventSummary, |crawls| - 1, url);
    }
    assert t.rawNotes == s.rawNotes;
  }

  lemma StubCrawlerAt(summarize: (string, string, string) -> string, figure: string, summary: string, j: nat, url: string)
    ensures StubCrawler(summarize)(figure, summary, j, url).0 == summarize(figure, summary, NewGraphUtils.FakeUrlCrawl(url))
  {
    assert CrawledPage(url) == NewGraphUtils.FakeUrlCrawl(url);
  }

  /** A turn whose last crawl is a Wikipedia URL summarises the Wikipedia
      stub page, whatever other URLs the turn crawled before it */
  lemma LastWikipediaCrawlSummarized(s: ReactState, summarize: (string, string, string) -> string, t: ReactState)
    requires ResearcherTools(s, Config, StubCrawler(summarize)) == Success(Some(t))
    requires var crawls := CallsNamed(LastToolCalls(s.messages).value, UrlCrawlName);
      crawls != [] && "url" in crawls[|crawls| - 1].args && Contains(crawls[|crawls| - 1].args["url"], "wikipedia")
    ensures t.eventSummary == summarize(s.figure, s.eventSummary, NewGraphUtils.WikipediaPage)
  {
    TurnSummarizesLastStubPage(s, summarize, t);
    var crawls := CallsNamed(LastToolCalls(s.messages).value, UrlCrawlName);
    var url := ArgsOf(crawls, "url").value[|crawls| - 1];
    assert url == crawls[|crawls| - 1].args["url"];
    assert NewGraphUtils.FakeUrlCrawl(url) == NewGraphUtils.WikipediaPage;
  }

  /** The whole graph for at most `fuel` rounds: the `compressed_research`
      output once the loop hands over, None while it is still going */
  function Research(s: ReactState, fuel: nat, systemPrompt: string -> string, model: ChatModel,
                    summarize: (string, string, string) -> string,
                    compressPrompt: string -> string, structure: seq<Message> -> seq<UnidentifiedEvent>): (r: Result<Option<seq<UnidentifiedEvent>>>)
    ensures s.figure == "" && fuel > 0 ==> r.Failure?
    ensures r.Success? && r.value.Some? ==>
      exists h :: Rounds(s, fuel, Config, systemPrompt, model, StubCrawler(summarize)) == Success(HandedOver(h))
               && h.rawNotes == s.rawNotes
               && r.value.value == structure(CompressionInput(h, compressPrompt))
  {
    var progress := Rounds(s, fuel, Config, systemPrompt, model, StubCrawler(summarize));
    if progress.Failure? then Failure(progress.error)
    else if progress.value.Running? then Success(None)
    else Success(Some(structure(CompressionInput(progress.value.state, compressPrompt))))
  }
}

=== FILE: new_graph_utils.dfy ===
/** The deterministic tool layer of new_graph/utils.py: a fake crawler that
    answers from two canned pages, the reflection tool, the tool list, the
    exception-catching executor and the token counter. */
module NewGraphUtils {
  import opened Wrappers
  import opened Text
  import opened Messages
  import CrawlerUtils

  const WikipediaPage: string :=
    "Albert Einstein was a German-born theoretical physicist... (long text, 2000 words)... In 1905, he published four groundbreaking papers."
  const BritannicaPage: string :=
    "Albert Einstein, (born March 14, 1879, Ulm, Württemberg, Germany... (long text, 2500 words)... He received the Nobel Prize for Physics in 1921."
  const NoContent: string := "No content found."

  /** The fake `url_crawl`: the Wikipedia page wins over the Britannica one */
  function FakeUrlCrawl(url: string): (r: string)
    ensures Contains(url, "wikipedia") ==> r == WikipediaPage
    ensures !Contains(url, "wikipedia") && Contains(url, "britannica") ==> r == BritannicaPage
    ensures !Contains(url, "wikipedia") && !Contains(url, "britannica") ==> r == NoContent
  {
    if Contains(url, "wikipedia") then WikipediaPage
    else if Contains(url, "britannica") then BritannicaPage
    else NoContent
  }

  /** A URL naming both sites gets the Wikipedia page */
  lemma WikipediaWins()
    ensures FakeUrlCrawl("https://en.wikipedia.org/wiki/britannica") == WikipediaPage
  {
    var both := "https://en.wikipedia.org/wiki/britannica";
    assert both == "https://en." + "wikipedia" + ".org/wiki/britannica";
    assert both[11..20] == "wikipedia";
    ContainsAt(both, "wikipedia", 11);
  }

  /** A Britannica URL gets the Britannica page */
  lemma BritannicaPageServed()
    ensures FakeUrlCrawl("https://britannica.com") == BritannicaPage
  {
    var brit := "https://britannica.com";
    assert brit == "https://" + "britannica" + ".com";
    assert brit[8..18] == "britannica";
    ContainsAt(brit, "britannica", 8);
    forall i | 0 <= i < |brit| ensures brit[i] != 'w' {
    }
    NotContainedWithoutFirstChar(brit, "wikipedia");
  }

  /** A string without the first character of `sub` does not contain it */
  lemma {:induction false} NotContainedWithoutFirstChar(s: string, sub: string)
    requires sub != [] && forall i :: 0 <= i < |s| ==> s[i] != sub[0]
    ensures !Contains(s, sub)
    decreases |s|
  {
    if |sub| <= |s| {
      assert s[..|sub|][0] == s[0];
      NotContainedWithoutFirstChar(s[1..], sub);
    }
  }

  /** The tools offered to the model, in order */
  datatype Tool = UrlCrawl | ThinkTool | ResearchComplete

  function ToolName(t: Tool): string {
    match t
    case UrlCrawl => "url_crawl"
    case ThinkTool => ThinkToolName
    case ResearchComplete => "ResearchComplete"
  }

  /** `get_all_tools` */
  function GetAllTools(): (r: seq<Tool>)
    ensures |r| == 3 && r[0] == UrlCrawl && r[1] == ThinkTool && r[2] == ResearchComplete
  {
    [UrlCrawl, ThinkTool, ResearchComplete]
  }

  /** `think_tool` echoes the reflection it is given */
  function Think(reflectionAndPlan: string): (r: string)
    ensures r == reflectionAndPlan
  {
    reflectionAndPlan
  }

  /** Invoking a tool on the model's arguments; a missing argument fails the
      tool's input validation */
  function InvokeTool(t: Tool, args: map<string, string>): (r: Result<string>)
    ensures t == UrlCrawl ==> (r.Success? <==> "url" in args)
    ensures t == UrlCrawl && "url" in args ==> r == Success(FakeUrlCrawl(args["url"]))
    ensures t == ThinkTool && "reflection_and_plan" in args ==> r == Success(args["reflection_and_plan"])
  {
    match t
    case UrlCrawl =>
      if "url" in args then Success(FakeUrlCrawl(args["url"])) else Failure("validation error: url field required")
    case ThinkTool =>
      if "reflection_and_plan" in args then Success(Think(args["reflection_and_plan"]))
      else Failure("validation error: reflection_and_plan field required")
    case ResearchComplete => Success("")
  }

  /** `execute_tool_safely`: never raises; a failure becomes a message
      naming the tool */
  function ExecuteToolSafely(t: Tool, args: map<string, string>): (r: string)
    ensures InvokeTool(t, args).Success? ==> r == InvokeTool(t, args).value
    ensures InvokeTool(t, args).Failure? ==> r == "Error executing tool " + ToolName(t) + ": " + InvokeTool(t, args).error
  {
    match InvokeTool(t, args)
    case Success(v) => v
    case Failure(e) => "Error executing tool " + ToolName(t) + ": " + e
  }

  /** `count_tokens` over message contents */
  function CountTokens<T>(messages: seq<Message>, encode: string -> seq<T>): (n: nat)
    ensures messages == [] ==> n == 0
  {
    CrawlerUtils.CountTokens(Contents(messages), encode)
  }

  /** Counting is additive over message lists */
  lemma CountTokensAdditive<T>(a: seq<Message>, b: seq<Message>, encode: string -> seq<T>)
    ensures CountTokens(a + b, encode) == CountTokens(a, encode) + CountTokens(b, encode)
  {
    assert Contents(a + b) == Contents(a) + Contents(b);
    CrawlerUtils.CountTokensAppend(Contents(a), Contents(b), encode);
  }
}

=== FILE: react_turn.dfy ===
/** The researcher / researcher_tools loop shared by
    src/kronologs_researcher_graph.py, src/index.py and new_graph/index.py.
    A researcher turn asks the model for its next move; a tools turn answers
    every think_tool call and then every url_crawl call, updates the event
    summary and the raw notes, and either returns to the researcher or hands
    over to the final node. None of the three graphs consults the iteration
    counter, so the loop has no budget.

    What a crawl yields is a `Crawler` result: the new event summary and the
    raw note for one url_crawl call. Each graph builds it from its own
    crawler. */
module ReactTurn {
  import opened Wrappers
  import opened Messages

  const UrlCrawlName: string := "url_crawl"

  /** The key of the reflection argument in these graphs */
  const ReflectionKey: string := "reflection_and_plan"

  /** What distinguishes the three graphs' tools turn: the name of the
      completion tool, and whether raw notes are kept */
  datatype GraphConfig = GraphConfig(completeName: string, recordsNotes: bool)

  /** `crawl(figure, summary, j, url)`: the event summary and raw note the
      j-th url_crawl call of a turn produces, given the historical figure
      and the event summary the turn started from */
  type Crawler = (string, string, nat, string) -> (string, string)

  datatype ReactState = ReactState(
    figure: string,
    messages: seq<Message>,
    iterations: nat,
    eventSummary: string,
    rawNotes: map<string, string>)

  /** `researcher`: an empty historical figure raises ValueError; otherwise
      the model's reply to the system prompt and the conversation is
      appended and the counter goes up by one */
  function Researcher(s: ReactState, systemPrompt: string -> string, model: ChatModel): (r: Result<ReactState>)
    ensures r.Failure? <==> s.figure == ""
    ensures r.Success? ==> r.value.iterations == s.iterations + 1
    ensures r.Success? ==> |r.value.messages| == |s.messages| + 1 && r.value.messages[..|s.messages|] == s.messages
    ensures r.Success? ==> r.value.messages[|s.messages|] == Invoke(model, [SystemMessage(systemPrompt(s.figure))] + s.messages)
    ensures r.Success? ==> r.value.(messages := s.messages, iterations := s.iterations) == s
  {
    if s.figure == "" then Failure("ValueError: Historical figure is required")
    else
      var reply := Invoke(model, [SystemMessage(systemPrompt(s.figure))] + s.messages);
      assert (s.messages + [reply])[..|s.messages|] == s.messages;
      Success(s.(messages := s.messages + [reply], iterations := s.iterations + 1))
  }

  /** The exit test of `researcher_tools`. The completion check reads
      `tool_calls` of the last message before its type is tested, so a last
      message that is not an AI message raises rather than exits. */
  function Finished(messages: seq<Message>, completeName: string): (r: Result<bool>)
    ensures r.Success? <==> LastToolCalls(messages).Success?
    ensures r.Success? ==> (r.value <==> LastToolCalls(messages).value == [] || AnyCallNamed(LastToolCalls(messages).value, completeName))
  {
    var calls :- LastToolCalls(messages);
    Success(calls == [] || AnyCallNamed(calls, completeName))
  }

  /** `urls[j]` is not crawled again later in the first n calls */
  predicate LastOccurrence(urls: seq<string>, n: nat, j: nat)
    requires j < n <= |urls|
  {
    forall k :: j < k < n ==> urls[k] != urls[j]
  }

  datatype CrawlRound = CrawlRound(messages: seq<Message>, summary: string, notes: map<string, string>)

  /** The url_crawl loop over the first n calls: one "Url crawled" message
      per call, the summary of the last crawl, and the note of each URL's
      last crawl */
  function CrawlCalls(figure: string, calls: seq<ToolCall<string>>, urls: seq<string>, n: nat, summary: string,
                      notes: map<string, string>, crawl: Crawler): (r: CrawlRound)
    requires |urls| == |calls| && n <= |calls|
    decreases n
    ensures |r.messages| == n
    ensures forall j :: 0 <= j < n ==> r.messages[j] == ToolMessage("Url crawled: " + urls[j], UrlCrawlName, calls[j].id)
    ensures r.summary == if n == 0 then summary else crawl(figure, summary, n - 1, urls[n - 1]).0
  {
    if n == 0 then CrawlRound([], summary, notes)
    else
      var prev := CrawlCalls(figure, calls, urls, n - 1, summary, notes, crawl);
      var url := urls[n - 1];
      var outcome := crawl(figure, summary, n - 1, url);
      CrawlRound(prev.messages + [ToolMessage("Url crawled: " + url, UrlCrawlName, calls[n - 1].id)],
                 outcome.0, prev.notes[url := outcome.1])
  }

  /** The notes after the first n crawls are the notes after n - 1 crawls
      with the n-th URL's entry set */
  lemma CrawlNotesStep(figure: string, calls: seq<ToolCall<string>>, urls: seq<string>, n: nat, summary: string,
                       notes: map<string, string>, crawl: Crawler)
    requires |urls| == |calls| && 0 < n <= |calls|
    ensures CrawlCalls(figure, calls, urls, n, summary, notes, crawl).notes
         == CrawlCalls(figure, calls, urls, n - 1, summary, notes, crawl).notes[urls[n - 1] := crawl(figure, summary, n - 1, urls[n - 1]).1]
    ensures urls[..n] == urls[..n - 1] + [urls[n - 1]]
  {
  }

  /** The raw notes hold exactly the earlier notes and the crawled URLs */
  lemma {:induction false} CrawlNotesDomain(figure: string, calls: seq<ToolCall<string>>, urls: seq<string>, n: nat, summary: string,
                                            notes: map<string, string>, crawl: Crawler)
    requires |urls| == |calls| && n <= |calls|
    ensures forall u :: u in CrawlCalls(figure, calls, urls, n, summary, notes, crawl).notes <==> u in notes || u in urls[..n]
    decreases n
  {
    if n > 0 {
      CrawlNotesDomain(figure, calls, urls, n - 1, summary, notes, crawl);
      CrawlNotesStep(figure, calls, urls, n, summary, notes, crawl);
    }
  }

  /** An entry for a URL that was not crawled is left as it was */
  lemma {:induction false} CrawlNotesUntouched(figure: string, calls: seq<ToolCall<string>>, urls: seq<string>, n: nat, summary: string,
                                               notes: map<string, string>, crawl: Crawler, u: string)
    requires |urls| == |calls| && n <= |calls|
    requires u in notes && u !in urls[..n]
    ensures u in CrawlCalls(figure, calls, urls, n, summary, notes, crawl).notes
    ensures CrawlCalls(figure, calls, urls, n, summary, notes, crawl).notes[u] == notes[u]
    decreases n
  {
    if n > 0 {
      CrawlNotesStep(figure, calls, urls, n, summary, notes, crawl);
      assert u in urls[..n] <==> u in urls[..n - 1] || u == urls[n - 1];
      CrawlNotesDomain(figure, calls, urls, n - 1, summary, notes, crawl);
      CrawlNotesUntouched(figure, calls, urls, n - 1, summary, notes, crawl, u);
    }
  }

  /** A URL crawled more than once keeps the note of its last crawl */
  lemma {:induction false} CrawlNotesLastWins(figure: string, calls: seq<ToolCall<string>>, urls: seq<string>, n: nat, summary: string,
                                              notes: map<string, string>, crawl: Crawler, j: nat)
    requires |urls| == |calls| && j < n <= |calls|
    requires LastOccurrence(urls, n, j)
    ensures urls[j] in CrawlCalls(figure, calls, urls, n, summary, notes, crawl).notes
    ensures CrawlCalls(figure, calls, urls, n, summary, notes, crawl).notes[urls[j]] == crawl(figure, summary, j, urls[j]).1
    decreases n
  {
    CrawlNotesStep(figure, calls, urls, n, summary, notes, crawl);
    if j < n - 1 {
      assert urls[n - 1] != urls[j];
      assert LastOccurrence(urls, n - 1, j);
      CrawlNotesLastWins(figure, calls, urls, n - 1, summary, notes, crawl, j);
    }
  }

  /** The body of `researcher_tools` after the exit test: think answers
      first, then the crawl answers */
  function AnswerCalls(figure: string, calls: seq<ToolCall<string>>, summary: string, notes: map<string, string>,
                       crawl: Crawler): (r: Result<CrawlRound>)
    ensures r.Success? <==> ThinkMessages(CallsNamed(calls, ThinkToolName), ReflectionKey).Success?
                            && ArgsOf(CallsNamed(calls, UrlCrawlName), "url").Success?
    ensures r.Success? ==>
      var think := CallsNamed(calls, ThinkToolName);
      var crawls := CallsNamed(calls, UrlCrawlName);
      var round := CrawlCalls(figure, crawls, ArgsOf(crawls, "url").value, |crawls|, summary, notes, crawl);
      r.value == CrawlRound(ThinkMessages(think, ReflectionKey).value + round.messages, round.summary, round.notes)
  {
    var think := CallsNamed(calls, ThinkToolName);
    var crawls := CallsNamed(calls, UrlCrawlName);
    var thinkMessages :- ThinkMessages(think, ReflectionKey);
    var urls :- ArgsOf(crawls, "url");
    var round := CrawlCalls(figure, crawls, urls, |crawls|, summary, notes, crawl);
    Success(CrawlRound(thinkMessages + round.messages, round.summary, round.notes))
  }

  /** `researcher_tools`: None hands over to the final node; otherwise the
      state to return to the researcher with */
  function ResearcherTools(s: ReactState, config: GraphConfig, crawl: Crawler): (r: Result<Option<ReactState>>)
    ensures Finished(s.messages, config.completeName).Failure? ==> r.Failure?
    ensures r.Success? ==> (r.value.None? <==> Finished(s.messages, config.completeName).value)
    ensures r.Success? && r.value.Some? ==>
      && r.value.value.figure == s.figure && r.value.value.iterations == s.iterations
      && s.messages <= r.value.value.messages
      && (!config.recordsNotes ==> r.value.value.rawNotes == s.rawNotes)
  {
    var finished :- Finished(s.messages, config.completeName);
    if finished then Success(None)
    else
      var calls := LastToolCalls(s.messages).value;
      var round :- AnswerCalls(s.figure, calls, s.eventSummary, s.rawNotes, crawl);
      ThinkOrCrawlAnswered(s.figure, calls, s.eventSummary, s.rawNotes, crawl, round);
      Success(Some(s.(messages := s.messages + round.messages,
                      eventSummary := round.summary,
                      rawNotes := if config.recordsNotes then round.notes else s.rawNotes)))
  }

  /** A turn that gets past the exit test has at least one tool call; every
      think or crawl call among them gets a message */
  lemma ThinkOrCrawlAnswered(figure: string, calls: seq<ToolCall<string>>, summary: string, notes: map<string, string>,
                             crawl: Crawler, round: CrawlRound)
    requires AnswerCalls(figure, calls, summary, notes, crawl) == Success(round)
    ensures |round.messages| == |CallsNamed(calls, ThinkToolName)| + |CallsNamed(calls, UrlCrawlName)|
    ensures AnyCallNamed(calls, ThinkToolName) || AnyCallNamed(calls, UrlCrawlName) ==> |round.messages| > 0
  {
    var think := CallsNamed(calls, ThinkToolName);
    var crawls := CallsNamed(calls, UrlCrawlName);
    assert |ThinkMessages(think, ReflectionKey).value| == |think|;
  }

  /** The state a continuing tools turn returns, in terms of its parts: the
      think_tool answers and the url_crawl round */
  lemma TurnResult(s: ReactState, config: GraphConfig, crawl: Crawler, t: ReactState)
    requires ResearcherTools(s, config, crawl) == Success(Some(t))
    ensures var calls := LastToolCalls(s.messages).value;
      var think := CallsNamed(calls, ThinkToolName);
      var crawls := CallsNamed(calls, UrlCrawlName);
      && LastToolCalls(s.messages).Success?
      && ThinkMessages(think, ReflectionKey).Success?
      && ArgsOf(crawls, "url").Success?
      && var round := CrawlCalls(s.figure, crawls, ArgsOf(crawls, "url").value, |crawls|, s.eventSummary, s.rawNotes, crawl);
         t == s.(messages := s.messages + (ThinkMessages(think, ReflectionKey).value + round.messages),
                 eventSummary := round.summary,
                 rawNotes := if config.recordsNotes then round.notes else s.rawNotes)
  {
    assert Finished(s.messages, config.completeName).Success?;
    var calls := LastToolCalls(s.messages).value;
    var answered := AnswerCalls(s.figure, calls, s.eventSummary, s.rawNotes, crawl);
    assert answered.Success?;
  }

  /** Hence the j-th url_crawl call is answered right after all think
      answers, with "Url crawled: " and its URL */
  lemma CrawlAnswerPosition(s: ReactState, config: GraphConfig, crawl: Crawler, t: ReactState, j: nat)
    requires ResearcherTools(s, config, crawl) == Success(Some(t))
    requires j < |CallsNamed(LastToolCalls(s.messages).value, UrlCrawlName)|
    ensures var calls := LastToolCalls(s.messages).value;
      var think := CallsNamed(calls, ThinkToolName);
      var call := CallsNamed(calls, UrlCrawlName)[j];
      && |s.messages| + |think| + j < |t.messages|
      && "url" in call.args
      && t.messages[|s.messages| + |think| + j] == ToolMessage("Url crawled: " + call.args["url"], UrlCrawlName, call.id)
  {
    TurnResult(s, config, crawl, t);
    var calls := LastToolCalls(s.messages).value;
    var think := CallsNamed(calls, ThinkToolName);
    var crawls := CallsNamed(calls, UrlCrawlName);
    var thinkMessages := ThinkMessages(think, ReflectionKey).value;
    var urls := ArgsOf(crawls, "url").value;
    assert |thinkMessages| == |think|;
    assert urls[j] == crawls[j].args["url"];
    CrawlMessageAt(s.figure, crawls, urls, s.eventSummary, s.rawNotes, crawl, s.messages, thinkMessages, t.messages, j);
  }

  lemma CrawlMessageAt(figure: string, calls: seq<ToolCall<string>>, urls: seq<string>, summary: string,
                       notes: map<string, string>, crawl: Crawler,
                       before: seq<Message>, think: seq<Message>, all: seq<Message>, j: nat)
    requires |urls| == |calls| && j < |calls|
    requires all == before + (think + CrawlCalls(figure, calls, urls, |calls|, summary, notes, crawl).messages)
    ensures |before| + |think| + j < |all|
    ensures all[|before| + |think| + j] == ToolMessage("Url crawled: " + urls[j], UrlCrawlName, calls[j].id)
  {
    var crawlMessages := CrawlCalls(figure, calls, urls, |calls|, summary, notes, crawl).messages;
    AnswerAt(before, think, crawlMessages, all, j, ToolMessage("Url crawled: " + urls[j], UrlCrawlName, calls[j].id));
  }

  /** What a url_crawl round leaves: the summary of its last crawl
      (unchanged without crawls), each crawled URL's note from its last
      crawl, and every other note as it was */
  lemma RoundSummaryAndNotes(figure: string, calls: seq<ToolCall<string>>, urls: seq<string>, summary: string,
                             notes: map<string, string>, crawl: Crawler)
    requires |urls| == |calls|
    ensures var round := CrawlCalls(figure, calls, urls, |calls|, summary, notes, crawl);
      && round.summary == (if calls == [] then summary else crawl(figure, summary, |calls| - 1, urls[|calls| - 1]).0)
      && (forall j :: 0 <= j < |calls| && LastOccurrence(urls, |calls|, j) ==>
            urls[j] in round.notes && round.notes[urls[j]] == crawl(figure, summary, j, urls[j]).1)
      && (forall u :: u in notes && u !in urls ==> u in round.notes && round.notes[u] == notes[u])
  {
    assert urls[..|calls|] == urls;
    forall j | 0 <= j < |calls| && LastOccurrence(urls, |calls|, j)
      ensures urls[j] in CrawlCalls(figure, calls, urls, |calls|, summary, notes, crawl).notes
      ensures CrawlCalls(figure, calls, urls, |calls|, summary, notes, crawl).notes[urls[j]] == crawl(figure, summary, j, urls[j]).1
    {
      CrawlNotesLastWins(figure, calls, urls, |calls|, summary, notes, crawl, j);
    }
    forall u | u in notes && u !in urls
      ensures u in CrawlCalls(figure, calls, urls, |calls|, summary, notes, crawl).notes
      ensures CrawlCalls(figure, calls, urls, |calls|, summary, notes, crawl).notes[u] == notes[u]
    {
      CrawlNotesUntouched(figure, calls, urls, |calls|, summary, notes, crawl, u);
    }
  }

  /** The event summary and raw notes a continuing tools turn leaves: the
      summary of the turn's last crawl (unchanged without crawls) and, when
      notes are kept, each crawled URL's note from its last crawl */
  lemma TurnSummaryAndNotes(s: ReactState, config: GraphConfig, crawl: Crawler, t: ReactState)
    requires ResearcherTools(s, config, crawl) == Success(Some(t))
    ensures var crawls := CallsNamed(LastToolCalls(s.messages).value, UrlCrawlName);
      var urls := ArgsOf(crawls, "url").value;
      && ArgsOf(crawls, "url").Success?
      && t.eventSummary == (if crawls == [] then s.eventSummary else crawl(s.figure, s.eventSummary, |crawls| - 1, urls[|crawls| - 1]).0)
      && (config.recordsNotes ==> forall j :: 0 <= j < |crawls| && LastOccurrence(urls, |crawls|, j) ==>
            urls[j] in t.rawNotes && t.rawNotes[urls[j]] == crawl(s.figure, s.eventSummary, j, urls[j]).1)
      && (config.recordsNotes ==> forall u :: u in s.rawNotes && u !in urls ==> u in t.rawNotes && t.rawNotes[u] == s.rawNotes[u])
      && (!config.recordsNotes ==> t.rawNotes == s.rawNotes)
  {
    TurnResult(s, config, crawl, t);
    var crawls := CallsNamed(LastToolCalls(s.messages).value, UrlCrawlName);
    RoundSummaryAndNotes(s.figure, crawls, ArgsOf(crawls, "url").value, s.eventSummary, s.rawNotes, crawl);
  }

  lemma AnswerAt(before: seq<Message>, think: seq<Message>, crawls: seq<Message>, all: seq<Message>, j: nat, m: Message)
    requires all == before + (think + crawls) && j < |crawls| && crawls[j] == m
    ensures |before| + |think| + j < |all| && all[|before| + |think| + j] == m
  {
    assert all == (before + think) + crawls;
  }

  /** Where the loop stands: still going round, or handed over to the
      final node with the state the last researcher turn left */
  datatype Progress = Running(state: ReactState) | HandedOver(state: ReactState)

  /** One researcher turn followed by one tools turn */
  function Round(s: ReactState, config: GraphConfig, systemPrompt: string -> string, model: ChatModel,
                 crawl: Crawler): (r: Result<Progress>)
    ensures r.Failure? <==> s.figure == "" || ResearcherTools(Researcher(s, systemPrompt, model).value, config, crawl).Failure?
    ensures r.Success? ==> r.value.state.iterations == s.iterations + 1 && r.value.state.figure == s.figure
    ensures r.Success? ==> s.messages < r.value.state.messages
    ensures r.Success? && r.value.HandedOver? ==> r.value.state == Researcher(s, systemPrompt, model).value
    ensures r.Success? && !config.recordsNotes ==> r.value.state.rawNotes == s.rawNotes
  {
    var next :- Researcher(s, systemPrompt, model);
    var after :- ResearcherTools(next, config, crawl);
    match after
    case None => Success(HandedOver(next))
    case Some(t) => Success(Running(t))
  }

  /** At most n rounds, stopping at the hand-over */
  function Rounds(s: ReactState, n: nat, config: GraphConfig, systemPrompt: string -> string, model: ChatModel,
                  crawl: Crawler): (r: Result<Progress>)
    ensures s.figure == "" && n > 0 ==> r.Failure?
    ensures r.Success? ==> r.value.state.figure == s.figure && s.iterations <= r.value.state.iterations <= s.iterations + n
    ensures r.Success? && r.value.Running? ==> r.value.state.iterations == s.iterations + n
    ensures r.Success? && !config.recordsNotes ==> r.value.state.rawNotes == s.rawNotes
    decreases n
  {
    if n == 0 then Success(Running(s))
    else match Round(s, config, systemPrompt, model, crawl)
      case Failure(e) => Failure(e)
      case Success(HandedOver(h)) => Success(HandedOver(h))
      case Success(Running(next)) => Rounds(next, n - 1, config, systemPrompt, model, crawl)
  }

  /** A reply without tool calls, or with a completion call, ends the loop
      in the very round it is made, with that reply as the last message */
  lemma HandsOverOnFinalReply(s: ReactState, n: nat, config: GraphConfig, systemPrompt: string -> string,
                              model: ChatModel, crawl: Crawler)
    requires s.figure != "" && n > 0
    requires var calls := model([SystemMessage(systemPrompt(s.figure))] + s.messages).1;
      calls == [] || AnyCallNamed(calls, config.completeName)
    ensures Rounds(s, n, config, systemPrompt, model, crawl).Success?
    ensures Rounds(s, n, config, systemPrompt, model, crawl).value == HandedOver(Researcher(s, systemPrompt, model).value)
    ensures Rounds(s, n, config, systemPrompt, model, crawl).value.state.messages
         == s.messages + [Invoke(model, [SystemMessage(systemPrompt(s.figure))] + s.messages)]
  {
    var next := Researcher(s, systemPrompt, model).value;
    assert next.messages == next.messages[..|s.messages|] + [next.messages[|s.messages|]];
    assert LastToolCalls(next.messages).value == model([SystemMessage(systemPrompt(s.figure))] + s.messages).1;
  }

  /** What `compress_research` of src/index.py and new_graph/index.py sends
      the structuring model: the whole conversation followed by one human
      message, the compression prompt filled with the event summary */
  function CompressionInput(h: ReactState, compressPrompt: string -> string): (r: seq<Message>)
    ensures |r| == |h.messages| + 1 && r[..|h.messages|] == h.messages
    ensures r[|h.messages|] == HumanMessage(compressPrompt(h.eventSummary))
  {
    assert (h.messages + [HumanMessage(compressPrompt(h.eventSummary))])[..|h.messages|] == h.messages;
    h.messages + [HumanMessage(compressPrompt(h.eventSummary))]
  }

  /** The call a model that only ever reflects makes */
  const Reflect: ToolCall<string> := ToolCall(ThinkToolName, "reflect", map[ReflectionKey := "keep researching"])

  /** No budget: against a model that answers every turn with a think_tool
      call, the loop is still running after any number of rounds, with the
      counter advanced by exactly that number */
  lemma {:induction false} NeverHandsOver(s: ReactState, n: nat, config: GraphConfig, systemPrompt: string -> string,
                                          model: ChatModel, crawl: Crawler)
    requires s.figure != "" && config.completeName != ThinkToolName
    requires forall p :: model(p).1 == [Reflect]
    ensures Rounds(s, n, config, systemPrompt, model, crawl).Success?
    ensures Rounds(s, n, config, systemPrompt, model, crawl).value.Running?
    decreases n
  {
    if n > 0 {
      var next := Researcher(s, systemPrompt, model).value;
      var calls := LastToolCalls(next.messages).value;
      assert calls == [Reflect];
      assert !AnyCallNamed(calls, config.completeName);
      assert CallsNamed(calls, ThinkToolName) == [Reflect];
      assert CallsNamed(calls, UrlCrawlName) == [];
      var after := ResearcherTools(next, config, crawl);
      assert after.Success? && after.value.Some?;
      NeverHandsOver(after.value.value, n - 1, config, systemPrompt, model, crawl);
    }
  }
}

=== FILE: research_events_graph.dfy ===
/** The URL-queue loop of src/research_events/research_events_graph.py:
    find URLs for a prompt, then repeatedly crawl the head of the queue,
    merge what it yields into the events and drop the head, until the queue
    is empty. `crawl` stands for the URL crawler subgraph (URL to extracted
    events text) and `merge` for the merge subgraph (events so far, extracted
    text) to merged events; either may raise, and a raising subgraph ends
    the run with its error, as an exception out of `ainvoke` does. */
module ResearchEventsGraph {
  import opened Wrappers
  import opened EventCategories
  import Text
  import MergeEventsGraph

  /** The single URL `url_finder` seeds the queue with */
  const SeedUrl: string := "https://www.britannica.com/biography/Henry-Miller"

  /** The graph state. `extracted` is `events_extracted_from_url`; None is
      the cleared value. */
  datatype ResearchEventsState = ResearchEventsState(
    prompt: string,
    events: Categories,
    urls: seq<string>,
    extracted: Option<string>)

  /** `url_finder`: an empty prompt raises ValueError; otherwise the queue
      is the fixed seed list */
  function UrlFinder(s: ResearchEventsState): (r: Result<ResearchEventsState>)
    ensures s.prompt == "" <==> r.Failure?
    ensures r.Success? ==> r.value.urls == [SeedUrl]
    ensures r.Success? ==> r.value == s.(urls := r.value.urls)
  {
    if s.prompt == "" then Failure("ValueError: Prompt is required")
    else Success(s.(urls := [SeedUrl]))
  }

  datatype Route = ToCrawl | ToEnd

  /** `should_process_url_router` */
  function ShouldProcessUrl(s: ResearchEventsState): (r: Route)
    ensures r == ToCrawl <==> s.urls != []
  {
    if s.urls != [] then ToCrawl else ToEnd
  }

  /** `crawl_url`: crawl the head of the queue and stash its events; an
      empty queue or a raising crawler subgraph fails */
  function CrawlUrl(s: ResearchEventsState, crawl: string -> Result<string>): (r: Result<ResearchEventsState>)
    ensures s.urls == [] ==> r.Failure?
    ensures s.urls != [] ==> (r.Success? <==> crawl(s.urls[0]).Success?)
    ensures s.urls != [] && r.Failure? ==> r.error == crawl(s.urls[0]).error
    ensures r.Success? ==> r.value.extracted == Some(crawl(s.urls[0]).value)
    ensures r.Success? ==> r.value.(extracted := s.extracted) == s
  {
    if s.urls == [] then Failure("IndexError: list index out of range")
    else
      var events :- crawl(s.urls[0]);
      Success(s.(extracted := Some(events)))
  }

  /** `merge_events_and_update`: replace the events with the merge output,
      drop the head of the queue and clear the stash; a raising merge
      subgraph fails and changes nothing */
  function MergeEventsAndUpdate(s: ResearchEventsState, merge: (Categories, string) -> Result<Categories>)
    : (r: Result<ResearchEventsState>)
    ensures r.Success? <==> merge(s.events, s.extracted.GetOr("")).Success?
    ensures r.Failure? ==> r.error == merge(s.events, s.extracted.GetOr("")).error
    ensures r.Success? ==> r.value.events == merge(s.events, s.extracted.GetOr("")).value
    ensures r.Success? && s.urls != [] ==> |r.value.urls| == |s.urls| - 1 && s.urls == [s.urls[0]] + r.value.urls
    ensures r.Success? && s.urls == [] ==> r.value.urls == []
    ensures r.Success? ==> r.value.extracted == None && r.value.prompt == s.prompt
  {
    var merged :- merge(s.events, s.extracted.GetOr(""));
    var rest := if s.urls == [] then [] else s.urls[1..];
    Success(s.(events := merged, urls := rest, extracted := None))
  }

  /** The events after crawling and merging `urls` in order, or the error
      of the first crawl or merge that raises */
  function MergeInOrder(events: Categories, urls: seq<string>,
                        crawl: string -> Result<string>,
                        merge: (Categories, string) -> Result<Categories>): Result<Categories>
    decreases |urls|
  {
    if urls == [] then Success(events)
    else
      var text :- crawl(urls[0]);
      var merged :- merge(events, text);
      MergeInOrder(merged, urls[1..], crawl, merge)
  }

  /** Subgraphs that never raise let the loop get through every queued URL */
  lemma {:induction false} NeverRaisingSubgraphsFinish(events: Categories, urls: seq<string>,
                                                       crawl: string -> Result<string>,
                                                       merge: (Categories, string) -> Result<Categories>)
    requires forall url :: crawl(url).Success?
    requires forall e, text :: merge(e, text).Success?
    ensures MergeInOrder(events, urls, crawl, merge).Success?
    decreases |urls|
  {
    if urls != [] {
      var merged := merge(events, crawl(urls[0]).value).value;
      NeverRaisingSubgraphsFinish(merged, urls[1..], crawl, merge);
    }
  }

  /** A crawl that raises on the head of the queue ends the run with its
      error before any merge */
  lemma RaisingHeadCrawlFails(events: Categories, urls: seq<string>,
                              crawl: string -> Result<string>,
                              merge: (Categories, string) -> Result<Categories>)
    requires urls != [] && crawl(urls[0]).Failure?
    ensures MergeInOrder(events, urls, crawl, merge) == Failure(crawl(urls[0]).error)
  {
  }

  /** A one-URL queue: the crawl's error, or else whatever the merge of its
      extract gives */
  lemma OneUrlQueue(events: Categories, url: string, crawl: string -> Result<string>,
                    merge: (Categories, string) -> Result<Categories>)
    ensures MergeInOrder(events, [url], crawl, merge)
         == if crawl(url).Failure? then Failure(crawl(url).error) else merge(events, crawl(url).value)
  {
    assert [url][1..] == [];
    if crawl(url).Success? && merge(events, crawl(url).value).Success? {
      assert MergeInOrder(merge(events, crawl(url).value).value, [], crawl, merge).Success?;
    }
  }

  /** The router / crawl / merge loop from a given state. `crawled` holds the
      URLs whose round completed and `rounds` counts them. Without a raising
      subgraph it crawls every queued URL once, head first, ends after
      exactly `len(urls)` rounds with an empty queue, and its events are the
      in-order merge; otherwise it stops inside round `rounds` with the
      error of the subgraph that raised. */
  method RunQueue(s: ResearchEventsState, crawl: string -> Result<string>,
                  merge: (Categories, string) -> Result<Categories>)
    returns (outcome: Result<ResearchEventsState>, crawled: seq<string>, rounds: nat)
    ensures outcome.Success? <==> MergeInOrder(s.events, s.urls, crawl, merge).Success?
    ensures outcome.Failure? ==> outcome.error == MergeInOrder(s.events, s.urls, crawl, merge).error
    ensures rounds == |crawled| && rounds <= |s.urls| && crawled == s.urls[..rounds]
    ensures outcome.Success? ==> rounds == |s.urls|
    ensures outcome.Failure? ==> rounds < |s.urls|
    ensures outcome.Success? ==> outcome.value.urls == [] && outcome.value.prompt == s.prompt
    ensures outcome.Success? ==> outcome.value.events == MergeInOrder(s.events, s.urls, crawl, merge).value
  {
    var final := s;
    crawled := [];
    rounds := 0;
    while ShouldProcessUrl(final) == ToCrawl
      invariant s.urls == crawled + final.urls
      invariant rounds == |crawled| && final.prompt == s.prompt
      invariant MergeInOrder(final.events, final.urls, crawl, merge) == MergeInOrder(s.events, s.urls, crawl, merge)
      decreases |final.urls|
    {
      var head := final.urls[0];
      var crawledState := CrawlUrl(final, crawl);
      if crawledState.Failure? {
        assert s.urls[..rounds] == crawled;
        return Failure(crawledState.error), crawled, rounds;
      }
      var next := MergeEventsAndUpdate(crawledState.value, merge);
      if next.Failure? {
        assert s.urls[..rounds] == crawled;
        return Failure(next.error), crawled, rounds;
      }
      assert final.urls == [head] + next.value.urls;
      assert next.value.events == merge(final.events, crawl(head).value).value;
      assert s.urls == (crawled + [head]) + next.value.urls;
      final := next.value;
      crawled := crawled + [head];
      rounds := rounds + 1;
    }
    assert s.urls[..rounds] == crawled;
    outcome := Success(final);
  }

  /** The whole graph: with a non-empty prompt the seed URL is crawled and
      merged once; an empty prompt, a raising crawl or a raising merge
      fails, with the error of the first of these */
  function ResearchEvents(prompt: string, events: Categories,
                          crawl: string -> Result<string>,
                          merge: (Categories, string) -> Result<Categories>): (r: Result<Categories>)
    ensures r.Failure? <==>
      || prompt == ""
      || crawl(SeedUrl).Failure?
      || merge(events, crawl(SeedUrl).value).Failure?
    ensures r.Failure? && prompt != "" ==>
      r.error == if crawl(SeedUrl).Failure? then crawl(SeedUrl).error
                 else merge(events, crawl(SeedUrl).value).error
    ensures r.Success? ==> r.value == merge(events, crawl(SeedUrl).value).value
  {
    var seeded :- UrlFinder(ResearchEventsState(prompt, events, [], None));
    assert seeded.urls == [SeedUrl] && seeded.events == events;
    OneUrlQueue(events, SeedUrl, crawl, merge);
    MergeInOrder(seeded.events, seeded.urls, crawl, merge)
  }

  /** With the merge subgraph as written (its `await` on the plain chunker
      raises), any crawl that yields a non-blank extract fails the run */
  lemma AsWrittenMergeFailsResearch(prompt: string, events: Categories, crawl: string -> Result<string>)
    requires prompt != "" && crawl(SeedUrl).Success? && !Text.IsBlank(crawl(SeedUrl).value)
    ensures ResearchEvents(prompt, events, crawl, MergeEventsGraph.MergeEventsGraphAsWritten).Failure?
  {
  }
}

=== FILE: research_events_state.dfy ===
/** The four-category event record of src/research_events/state.py,
    shared by the merge pipeline and the research-events loop. */
module EventCategories {
  import opened Text

  /** The four fields, in declaration order */
  datatype Category = Early | Personal | Career | Legacy

  const AllCategories: seq<Category> := [Early, Personal, Career, Legacy]

  /** Every category is listed, each once */
  lemma AllCategoriesListed()
    ensures forall cat :: cat in AllCategories
    ensures forall i, j :: 0 <= i < j < |AllCategories| ==> AllCategories[i] != AllCategories[j]
  {
    forall cat: Category ensures cat in AllCategories {
      match cat
      case Early => assert AllCategories[0] == cat;
      case Personal => assert AllCategories[1] == cat;
      case Career => assert AllCategories[2] == cat;
      case Legacy => assert AllCategories[3] == cat;
    }
  }

  /** The field name of each category */
  function FieldName(cat: Category): string {
    match cat
    case Early => "early"
    case Personal => "personal"
    case Career => "career"
    case Legacy => "legacy"
  }

  /** `CategoriesWithEvents`: every field defaults to "" */
  datatype Categories = Categories(early: string, personal: string, career: string, legacy: string)

  const NoEvents: Categories := Categories("", "", "", "")

  /** `getattr(c, category)` */
  function Get(c: Categories, cat: Category): string {
    match cat
    case Early => c.early
    case Personal => c.personal
    case Career => c.career
    case Legacy => c.legacy
  }

  /** The record whose field `cat` holds `f(cat)` */
  function Build(f: Category -> string): (c: Categories)
    ensures forall cat :: Get(c, cat) == f(cat)
  {
    Categories(f(Early), f(Personal), f(Career), f(Legacy))
  }

  /** Two records agree exactly when every field agrees */
  lemma Extensionality(a: Categories, b: Categories)
    requires forall cat :: Get(a, cat) == Get(b, cat)
    ensures a == b
  {
    assert Get(a, Early) == Get(b, Early) && Get(a, Personal) == Get(b, Personal);
    assert Get(a, Career) == Get(b, Career) && Get(a, Legacy) == Get(b, Legacy);
  }

  /** Every category is blank after stripping */
  predicate AllBlank(c: Categories) {
    forall cat :: IsBlank(Get(c, cat))
  }
}

=== FILE: src_index.dfy ===
/** src/index.py: the researcher / researcher_tools loop whose url_crawl
    calls fold each crawled page into the event summary with a summarising
    model call, followed by `compress_research`.

    The crawl tool run through `execute_tool_safely` is the parameter
    `page(j, url)` (src/utils.py, as it stands, defines neither); the
    summarising call `update_event_summary` is `summarize(figure, previous,
    page)`; the structuring model of `compress_research` is `structure`. */
module SrcIndex {
  import opened Wrappers
  import opened Messages
  import opened ReactTurn
  import opened ChronologyState

  const CompleteName: string := "ResearchComplete"

  /** This graph exits on `ResearchComplete` and keeps raw notes */
  const Config: GraphConfig := GraphConfig(CompleteName, true)

  /** A url_crawl call's outcome. `update_event_summary` reads the summary
      from the state the tools turn started with, not the one the previous
      crawl of the same turn produced. */
  function SummarizingCrawler(page: (nat, string) -> string, summarize: (string, string, string) -> string): (c: Crawler)
    ensures forall figure, summary, j, url :: c(figure, summary, j, url).1 == page(j, url)
    ensures forall figure, summary, j, url ::
      c(figure, summary, j, url).0 == summarize(figure, summary, c(figure, summary, j, url).1)
  {
    (figure: string, summary: string, j: nat, url: string) => (summarize(figure, summary, page(j, url)), page(j, url))
  }

  /** After a continuing tools turn the event summary is the summarising
      model's answer for the turn's last page and the turn's starting
      summary; the raw note of each crawled URL is its last page */
  lemma TurnSummarizesLastPage(s: ReactState, page: (nat, string) -> string, summarize: (string, string, string) -> string,
                               t: ReactState)
    requires ResearcherTools(s, Config, SummarizingCrawler(page, summarize)) == Success(Some(t))
    ensures var crawls := CallsNamed(LastToolCalls(s.messages).value, UrlCrawlName);
      var urls := ArgsOf(crawls, "url").value;
      && ArgsOf(crawls, "url").Success?
      && (crawls == [] ==> t.eventSummary == s.eventSummary)
      && (crawls != [] ==> t.eventSummary == summarize(s.figure, s.eventSummary, page(|crawls| - 1, urls[|crawls| - 1])))
      && (forall j :: 0 <= j < |crawls| && LastOccurrence(urls, |crawls|, j) ==>
            urls[j] in t.rawNotes && t.rawNotes[urls[j]] == page(j, urls[j]))
  {
    TurnSummaryAndNotes(s, Config, SummarizingCrawler(page, summarize), t);
  }

  /** Hence only the last page of a turn reaches the summary: two crawlers
      that agree on the last call of the turn leave the same summary, however
      the earlier pages differ */
  lemma EarlierPagesForgotten(s: ReactState, page1: (nat, string) -> string, page2: (nat, string) -> string,
                              summarize: (string, string, string) -> string, t1: ReactState, t2: ReactState)
    requires ResearcherTools(s, Config, SummarizingCrawler(page1, summarize)) == Success(Some(t1))
    requires ResearcherTools(s, Config, SummarizingCrawler(page2, summarize)) == Success(Some(t2))
    requires var crawls := CallsNamed(LastToolCalls(s.messages).value, UrlCrawlName);
      crawls != [] && ArgsOf(crawls, "url").Success?
      && page1(|crawls| - 1, ArgsOf(crawls, "url").value[|crawls| - 1]) == page2(|crawls| - 1, ArgsOf(crawls, "url").value[|crawls| - 1])
    ensures t1.eventSummary == t2.eventSummary
  {
    TurnSummarizesLastPage(s, page1, summarize, t1);
    TurnSummarizesLastPage(s, page2, summarize, t2);
  }

  /** The whole graph for at most `fuel` rounds: the `compressed_research`
      output once the loop hands over, None while it is still going */
  function Research(s: ReactState, fuel: nat, systemPrompt: string -> string, model: ChatModel,
                    page: (nat, string) -> string, summarize: (string, string, string) -> string,
                    compressPrompt: string -> string, structure: seq<Message> -> seq<ChronologyEvent>): (r: Result<Option<seq<ChronologyEvent>>>)
    ensures s.figure == "" && fuel > 0 ==> r.Failure?
    ensures r.Success? && r.value.Some? ==>
      exists h :: Rounds(s, fuel, Config, systemPrompt, model, SummarizingCrawler(page, summarize)) == Success(HandedOver(h))
               && r.value.value == structure(CompressionInput(h, compressPrompt))
  {
    var progress := Rounds(s, fuel, Config, systemPrompt, model, SummarizingCrawler(page, summarize));
    if progress.Failure? then Failure(progress.error)
    else if progress.value.Running? then Success(None)
    else Success(Some(structure(CompressionInput(progress.value.state, compressPrompt))))
  }

  /** A model that ends the research at once: the structuring model sees
      the starting conversation, the final reply and the compression prompt
      for the starting summary */
  lemma ImmediateFinish(s: ReactState, fuel: nat, systemPrompt: string -> string, model: ChatModel,
                        page: (nat, string) -> string, summarize: (string, string, string) -> string,
                        compressPrompt: string -> string, structure: seq<Message> -> seq<ChronologyEvent>)
    requires s.figure != "" && fuel > 0
    requires AnyCallNamed(model([SystemMessage(systemPrompt(s.figure))] + s.messages).1, CompleteName)
    ensures var reply := Invoke(model, [SystemMessage(systemPrompt(s.figure))] + s.messages);
      Research(s, fuel, systemPrompt, model, page, summarize, compressPrompt, structure)
      == Success(Some(structure(s.messages + [reply, HumanMessage(compressPrompt(s.eventSummary))])))
  {
    HandsOverOnFinalReply(s, fuel, Config, systemPrompt, model, SummarizingCrawler(page, summarize));
    var h := Researcher(s, systemPrompt, model).value;
    var reply := Invoke(model, [SystemMessage(systemPrompt(s.figure))] + s.messages);
    assert CompressionInput(h, compressPrompt) == s.messages + [reply, HumanMessage(compressPrompt(s.eventSummary))];
  }
}

=== FILE: state.dfy ===
/** The chronology records of src/state.py and new_graph/state.py. */
module ChronologyState {
  import opened Wrappers

  /** `ChronologyDate`: both parts are optional */
  datatype ChronologyDate = ChronologyDate(year: Option<int>, note: Option<string>)

  /** `ChronologyEventInput`: an extracted event before it has an id */
  datatype ChronologyEventInput = ChronologyEventInput(
    name: string, description: string, date: ChronologyDate, location: Option<string>)

  /** `ChronologyEvent`: the input fields plus a mandatory id */
  datatype ChronologyEvent = ChronologyEvent(
    name: string, description: string, date: ChronologyDate, location: Option<string>, id: string)

  /** new_graph's `ChronologyEvent`: no id, required date, optional location */
  datatype UnidentifiedEvent = UnidentifiedEvent(
    name: string, description: string, date: ChronologyDate, location: Option<string>)

  /** Give an extracted event its id */
  function AssignId(e: ChronologyEventInput, id: string): (r: ChronologyEvent)
    ensures r.id == id && r.name == e.name && r.description == e.description
    ensures r.date == e.date && r.location == e.location
  {
    ChronologyEvent(e.name, e.description, e.date, e.location, id)
  }

  /** The input part of a canonical event */
  function StripId(e: ChronologyEvent): (r: ChronologyEventInput)
    ensures r.name == e.name && r.description == e.description
    ensures r.date == e.date && r.location == e.location
  {
    ChronologyEventInput(e.name, e.description, e.date, e.location)
  }

  /** An event is exactly its input fields and its id */
  lemma IdRoundTrip(e: ChronologyEventInput, id: string, c: ChronologyEvent)
    ensures StripId(AssignId(e, id)) == e
    ensures AssignId(StripId(c), c.id) == c
  {
  }

  /** `MatchedEvent.status`, a literal "updated" or "new" */
  datatype MatchStatus = Updated | New

  function StatusName(st: MatchStatus): string {
    match st
    case Updated => "updated"
    case New => "new"
  }

  /** Validation of the status literal; any other string is rejected */
  function ParseStatus(s: string): (r: Option<MatchStatus>)
    ensures r.Some? <==> s == "updated" || s == "new"
  {
    if s == "updated" then Some(Updated)
    else if s == "new" then Some(New)
    else None
  }

  /** Parsing inverts naming, and only the two literals parse */
  lemma StatusRoundTrip(st: MatchStatus, s: string)
    ensures ParseStatus(StatusName(st)) == Some(st)
    ensures ParseStatus(s).Some? ==> StatusName(ParseStatus(s).value) == s
  {
  }

  /** `MatchedEvent` */
  datatype MatchedEvent = MatchedEvent(
    id: string, status: MatchStatus, name: string, description: string, date: string, location: string)
}

/** `override_reducer` (src/state.py and, identically, new_graph/state.py):
    an update tagged as an override replaces the channel's value; any other
    update is added to it with Python's `+`. */
module Reducer {
  import opened Wrappers

  /** The channel values the reducer meets: lists, dicts and strings */
  datatype Value<T> = Items(items: seq<T>) | Dict(entries: map<string, Value<T>>) | Str(s: string)

  /** `isinstance(new_value, dict) and new_value.get("type") == "override"` */
  predicate IsOverride<T>(v: Value<T>) {
    v.Dict? && "type" in v.entries && v.entries["type"] == Str("override")
  }

  /** `override_reducer(current, new)`; `+` on a dict or on mismatched kinds
      raises TypeError */
  function OverrideReducer<T>(current: Value<T>, update: Value<T>): (r: Result<Value<T>>)
    ensures IsOverride(update) && "value" in update.entries ==> r == Success(update.entries["value"])
    ensures IsOverride(update) && "value" !in update.entries ==> r == Success(update)
    ensures r.Failure? <==> !IsOverride(update) && !(current.Items? && update.Items?) && !(current.Str? && update.Str?)
    ensures !IsOverride(update) && current.Items? && update.Items? ==>
      r.Success? && r.value.Items? && |r.value.items| == |current.items| + |update.items|
      && r.value.items[..|current.items|] == current.items
      && r.value.items[|current.items|..] == update.items
    ensures !IsOverride(update) && current.Str? && update.Str? ==>
      r.Success? && r.value.Str? && |r.value.s| == |current.s| + |update.s|
      && r.value.s[..|current.s|] == current.s
      && r.value.s[|current.s|..] == update.s
  {
    if IsOverride(update) then
      Success(if "value" in update.entries then update.entries["value"] else update)
    else if current.Items? && update.Items? then Success(Items(current.items + update.items))
    else if current.Str? && update.Str? then Success(Str(current.s + update.s))
    else Failure("TypeError: unsupported operand type(s) for +")
  }

  /** Appending an empty list leaves the channel unchanged */
  lemma EmptyAppendIsIdentity<T>(current: seq<T>)
    ensures OverrideReducer(Items(current), Items([])) == Success(Items(current))
  {
    assert current + [] == current;
  }

  /** Two successive appends equal one append of the concatenation */
  lemma AppendsCompose<T>(current: seq<T>, a: seq<T>, b: seq<T>)
    ensures OverrideReducer(OverrideReducer(Items(current), Items(a)).value, Items(b))
         == OverrideReducer(Items(current), Items(a + b))
  {
    assert current + a + b == current + (a + b);
  }

  /** An override forgets the previous value entirely */
  lemma OverrideForgetsCurrent<T>(c1: Value<T>, c2: Value<T>, update: Value<T>)
    requires IsOverride(update)
    ensures OverrideReducer(c1, update) == OverrideReducer(c2, update)
  {
  }
}

=== FILE: text.dfy ===
/** String helpers standing in for the Python `str` operations the source uses:
    `strip()` (and the whitespace it removes), truthiness of `strip()`, `in`, `upper()`, `join`, `+=` in a loop
    and `str(int)`. */
module Text {

  /** The 29 code points Python's `str.isspace` accepts and `str.strip()`
      removes: tab to carriage return, the four separators U+001C..U+001F,
      space, U+0085, U+00A0, U+1680, U+2000..U+200A, U+2028, U+2029,
      U+202F, U+205F and U+3000 */
  predicate IsSpace(c: char) {
    || '\t' <= c <= '\r'
    || '\U{1C}' <= c <= ' '
    || c == '\U{85}' || c == '\U{A0}' || c == '\U{1680}'
    || '\U{2000}' <= c <= '\U{200A}'
    || c == '\U{2028}' || c == '\U{2029}' || c == '\U{202F}' || c == '\U{205F}' || c == '\U{3000}'
  }

  /** `not s.strip()` in Python: the string holds nothing but whitespace */
  predicate IsBlank(s: string) {
    forall i :: 0 <= i < |s| ==> IsSpace(s[i])
  }

  function TrimLeft(s: string): (r: string)
    ensures |r| <= |s| && r == s[|s| - |r|..]
    ensures r == "" || !IsSpace(r[0])
    ensures IsBlank(s[..|s| - |r|])
  {
    if s == "" || !IsSpace(s[0]) then s
    else
      var r := TrimLeft(s[1..]);
      assert s[1..][..|s[1..]| - |r|] == s[1..|s| - |r|];
      BlankCons(s, |s| - |r|);
      r
  }

  /** A blank stretch stays blank with a leading whitespace character */
  lemma BlankCons(s: string, k: nat)
    requires 1 <= k <= |s| && IsSpace(s[0]) && IsBlank(s[1..k])
    ensures IsBlank(s[..k])
  {
    forall i | 0 <= i < k ensures IsSpace(s[..k][i]) {
      if i > 0 { assert s[..k][i] == s[1..k][i - 1]; }
    }
  }

  /** A blank stretch stays blank with a trailing whitespace character */
  lemma BlankSnoc(s: string, k: nat)
    requires k < |s| && IsSpace(s[|s| - 1]) && IsBlank(s[k..|s| - 1])
    ensures IsBlank(s[k..])
  {
    forall i | 0 <= i < |s| - k ensures IsSpace(s[k..][i]) {
      if i < |s| - 1 - k { assert s[k..][i] == s[k..|s| - 1][i]; }
    }
  }

  function TrimRight(s: string): (r: string)
    ensures |r| <= |s| && r == s[..|r|]
    ensures r == "" || !IsSpace(r[|r| - 1])
    ensures IsBlank(s[|r|..])
  {
    if s == "" || !IsSpace(s[|s| - 1]) then s
    else
      var r := TrimRight(s[..|s| - 1]);
      assert s[..|s| - 1][|r|..] == s[|r|..|s| - 1];
      BlankSnoc(s, |r|);
      r
  }

  /** `r` is `s` without a whitespace-only prefix and suffix: the middle
      of `s` is kept as it stands */
  predicate StrippedFrom(s: string, r: string) {
    exists k :: 0 <= k <= |s| - |r| && r == s[k..k + |r|] && IsBlank(s[..k]) && IsBlank(s[k + |r|..])
  }

  /** Python's `s.strip()`: only the leading and the trailing whitespace go */
  function Strip(s: string): (r: string)
    ensures |r| <= |s|
    ensures StrippedFrom(s, r)
    ensures r == "" <==> IsBlank(s)
    ensures r != "" ==> !IsSpace(r[0]) && !IsSpace(r[|r| - 1])
  {
    var left := TrimLeft(s);
    var r := TrimRight(left);
    StripParts(s, left, r);
    StripEnds(s, left, r);
    r
  }

  /** `strip()` leaves no whitespace at either end */
  lemma StripEnds(s: string, left: string, r: string)
    requires left == TrimLeft(s) && r == TrimRight(left)
    ensures r != "" ==> !IsSpace(r[0]) && !IsSpace(r[|r| - 1])
  {
    if r != "" {
      assert r[0] == left[0];
    }
  }

  /** The pieces `Strip` leaves around its result are blank */
  lemma StripParts(s: string, left: string, r: string)
    requires left == TrimLeft(s) && r == TrimRight(left)
    ensures |s| - |left| + |r| <= |s|
    ensures r == s[|s| - |left|..|s| - |left| + |r|]
    ensures IsBlank(s[..|s| - |left|]) && IsBlank(s[|s| - |left| + |r|..])
    ensures r == "" <==> IsBlank(s)
    ensures StrippedFrom(s, r)
  {
    var k := |s| - |left|;
    assert left == s[k..];
    assert r == left[..|r|];
    SliceOfSuffix(s, k, |r|);
    assert IsBlank(s[k + |r|..]) by {
      assert left[|r|..] == s[k + |r|..];
    }
    StripEmpty(s, left, r);
  }

  lemma StripEmpty(s: string, left: string, r: string)
    requires left == TrimLeft(s) && r == TrimRight(left)
    ensures r == "" <==> IsBlank(s)
  {
    var k := |s| - |left|;
    if r == "" {
      assert left[|r|..] == s[k..];
      BlankSplit(s, k);
    } else {
      assert r[0] == left[0] == s[k];
      assert !IsSpace(s[k]);
    }
  }

  lemma SliceOfSuffix(s: string, k: nat, n: nat)
    requires k + n <= |s|
    ensures s[k..][..n] == s[k..k + n]
  {
  }

  lemma BlankSplit(s: string, k: nat)
    requires k <= |s| && IsBlank(s[..k]) && IsBlank(s[k..])
    ensures IsBlank(s)
  {
    forall i | 0 <= i < |s| ensures IsSpace(s[i]) {
      if i >= k { assert s[i] == s[k..][i - k]; }
      else { assert s[i] == s[..k][i]; }
    }
  }

  /** Python's `sub in s` */
  predicate Contains(s: string, sub: string)
    decreases |s|
  {
    |sub| <= |s| && (s[..|sub|] == sub || Contains(s[1..], sub))
  }

  /** An occurrence at any offset makes `sub in s` true */
  lemma {:induction false} ContainsAt(s: string, sub: string, k: nat)
    requires k + |sub| <= |s| && s[k..k + |sub|] == sub
    ensures Contains(s, sub)
    decreases k
  {
    if k > 0 {
      assert s[1..][k - 1..k - 1 + |sub|] == s[k..k + |sub|];
      ContainsAt(s[1..], sub, k - 1);
    } else {
      assert s[..|sub|] == s[k..k + |sub|];
    }
  }

  /** ASCII upper-casing, Python's `str.upper()` on identifier-like names */
  function Upper(s: string): (r: string)
    ensures |r| == |s|
    ensures forall i :: 0 <= i < |s| && 'a' <= s[i] <= 'z' ==> r[i] == s[i] - 'a' + 'A'
    ensures forall i :: 0 <= i < |s| && !('a' <= s[i] <= 'z') ==> r[i] == s[i]
  {
    if s == "" then ""
    else
      var c := if 'a' <= s[0] <= 'z' then s[0] - 'a' + 'A' else s[0];
      [c] + Upper(s[1..])
  }

  /** `sep.join(xs)` */
  function Join(xs: seq<string>, sep: string): string
  {
    if |xs| == 0 then ""
    else if |xs| == 1 then xs[0]
    else xs[0] + sep + Join(xs[1..], sep)
  }

  /** `[f(x) for x in xs]` */
  function Map<A, B>(xs: seq<A>, f: A -> B): (r: seq<B>)
    ensures |r| == |xs|
    ensures forall i :: 0 <= i < |xs| ==> r[i] == f(xs[i])
  {
    seq(|xs|, i requires 0 <= i < |xs| => f(xs[i]))
  }

  /** Concatenation of a sequence of sequences, in order */
  function Concat<T>(xs: seq<seq<T>>): seq<T>
  {
    if |xs| == 0 then [] else xs[0] + Concat(xs[1..])
  }

  lemma {:induction false} ConcatAppend<T>(xs: seq<seq<T>>, ys: seq<seq<T>>)
    ensures Concat(xs + ys) == Concat(xs) + Concat(ys)
  {
    if |xs| == 0 {
      assert xs + ys == ys;
    } else {
      assert (xs + ys)[1..] == xs[1..] + ys;
      ConcatAppend(xs[1..], ys);
    }
  }

  /** Decimal rendering of a natural number, Python's `str(n)` for n >= 0 */
  function NatToString(n: nat): (r: string)
    ensures |r| >= 1
    ensures n >= 10 <==> |r| >= 2
    ensures forall i :: 0 <= i < |r| ==> '0' <= r[i] <= '9'
  {
    if n < 10 then [Digit(n)] else NatToString(n / 10) + [Digit(n % 10)]
  }

  function Digit(d: nat): (c: char)
    requires d < 10
    ensures '0' <= c <= '9'
  {
    "0123456789"[d]
  }

  lemma DigitInjective(a: nat, b: nat)
    requires a < 10 && b < 10 && Digit(a) == Digit(b)
    ensures a == b
  {
  }

  /** Distinct numbers render to distinct strings */
  lemma {:induction false} NatToStringInjective(a: nat, b: nat)
    requires NatToString(a) == NatToString(b)
    ensures a == b
  {
    var sa, sb := NatToString(a), NatToString(b);
    if a < 10 || b < 10 {
      if a < 10 && b < 10 {
        DigitInjective(a, b);
      }
    } else {
      assert sa[|sa| - 1] == Digit(a % 10) && sb[|sb| - 1] == Digit(b % 10);
      DigitInjective(a % 10, b % 10);
      assert sa[..|sa| - 1] == NatToString(a / 10);
      assert sb[..|sb| - 1] == NatToString(b / 10);
      NatToStringInjective(a / 10, b / 10);
    }
  }
}

=== FILE: url_crawler_graph.dfy ===
/** The URL crawler graph (src/url_crawler/url_krawler_graph.py): scrape a
    page, cut it into token windows, let the model classify each window, and
    concatenate what the classification keeps. The model is an
    uninterpreted `respond` function from (historical figure, chunk) to the
    tool calls of its answer. */
module UrlCrawlerGraph {
  import opened Wrappers
  import opened Text
  import opened Messages
  import CrawlerUtils

  /** Page content is always chunked with these parameters */
  const PageChunkSize: int := 1000
  const PageOverlapSize: int := 20

  /** The classification verdicts: the three tools offered to the model and
      the fallback for a response without a recognised tool call */
  datatype Category = Relevant | Partial | Irrelevant | Unknown

  /** The category string stored in each entry */
  function CategoryName(c: Category): string {
    match c
    case Relevant => "RelevantChunk"
    case Partial => "PartialChunk"
    case Irrelevant => "IrrelevantChunk"
    case Unknown => "UNKNOWN"
  }

  /** The category a tool name stands for; any other name is Unknown */
  function CategoryOfName(name: string): (c: Category)
    ensures c != Unknown ==> CategoryName(c) == name
    ensures c == Unknown ==> name != "RelevantChunk" && name != "PartialChunk" && name != "IrrelevantChunk"
  {
    if name == "RelevantChunk" then Relevant
    else if name == "PartialChunk" then Partial
    else if name == "IrrelevantChunk" then Irrelevant
    else Unknown
  }

  /** One `ChunkWithCategory` entry. UNKNOWN entries carry neither an
      explanation nor the original chunk. */
  datatype ChunkWithCategory = ChunkWithCategory(
    content: string,
    category: Category,
    explanation: Option<string>,
    originalChunk: Option<string>)

  /** `divide_content_into_chunks` */
  function DivideContentIntoChunks<T>(content: string, encode: string -> seq<T>, decode: seq<T> -> string): (chunks: seq<string>)
    ensures content == "" ==> chunks == []
    ensures content != "" ==> |chunks| == CrawlerUtils.ChunkCount(|encode(content)|, PageChunkSize - PageOverlapSize)
    ensures forall k :: 0 <= k < |chunks| ==>
      chunks[k] == decode(CrawlerUtils.Window(encode(content), CrawlerUtils.Start(k, 980), 1000))
  {
    CrawlerUtils.ChunkTextByTokens(content, encode, decode, PageChunkSize, PageOverlapSize)
  }

  /** The body of the loop of `extract_events_from_chunks` for one chunk:
      only the first tool call decides; its "explanation" argument is read
      before the name is examined, so a missing one raises KeyError */
  function CategorizeChunk(chunk: string, calls: seq<ToolCall<string>>): (r: Result<ChunkWithCategory>)
    ensures calls == [] ==> r == Success(ChunkWithCategory(chunk, Unknown, None, None))
    ensures r.Failure? <==>
      (calls != [] && ("explanation" !in calls[0].args
        || (calls[0].name == "PartialChunk" && "relevant_content" !in calls[0].args)))
    ensures r.Success? && calls != [] ==> r.value.category == CategoryOfName(calls[0].name)
    ensures r.Success? ==> match r.value.category
      case Relevant => r.value.content == chunk && r.value.originalChunk == Some(chunk)
      case Partial => r.value.content == calls[0].args["relevant_content"] && r.value.originalChunk == Some(chunk)
      case Irrelevant => r.value.content == "" && r.value.originalChunk == Some(chunk)
      case Unknown => r.value.content == chunk && r.value.explanation.None?
  {
    if calls == [] then Success(ChunkWithCategory(chunk, Unknown, None, None))
    else
      var call := calls[0];
      var explanation :- Arg(call, "explanation");
      if call.name == "RelevantChunk" then
        Success(ChunkWithCategory(chunk, Relevant, Some(explanation), Some(chunk)))
      else if call.name == "PartialChunk" then
        var relevantContent :- Arg(call, "relevant_content");
        Success(ChunkWithCategory(relevantContent, Partial, Some(explanation), Some(chunk)))
      else if call.name == "IrrelevantChunk" then
        Success(ChunkWithCategory("", Irrelevant, Some(explanation), Some(chunk)))
      else
        Success(ChunkWithCategory(chunk, Unknown, None, None))
  }

  /** Tool calls after the first never change the outcome */
  lemma OnlyFirstCallDecides(chunk: string, first: ToolCall<string>, rest1: seq<ToolCall<string>>, rest2: seq<ToolCall<string>>)
    ensures CategorizeChunk(chunk, [first] + rest1) == CategorizeChunk(chunk, [first] + rest2)
  {
  }

  /** `extract_events_from_chunks`: one entry per chunk, in chunk order; the
      first KeyError aborts the whole node */
  function ExtractEventsFromChunks(figure: string, chunks: seq<string>,
                                   respond: (string, string) -> seq<ToolCall<string>>): (r: Result<seq<ChunkWithCategory>>)
    ensures r.Success? <==> forall i :: 0 <= i < |chunks| ==> CategorizeChunk(chunks[i], respond(figure, chunks[i])).Success?
    ensures r.Success? ==> |r.value| == |chunks|
    ensures r.Success? ==> forall i :: 0 <= i < |chunks| ==>
      r.value[i] == CategorizeChunk(chunks[i], respond(figure, chunks[i])).value
  {
    if chunks == [] then Success([])
    else
      var first := CategorizeChunk(chunks[0], respond(figure, chunks[0]));
      var rest := ExtractEventsFromChunks(figure, chunks[1..], respond);
      assert forall i :: 1 <= i < |chunks| ==> chunks[1..][i - 1] == chunks[i];
      if first.Failure? then Failure(first.error)
      else if rest.Failure? then Failure(rest.error)
      else Success([first.value] + rest.value)
  }

  /** The kept contents of the entries, in order */
  function KeptContents(entries: seq<ChunkWithCategory>): (r: seq<string>)
    ensures |r| == |entries|
    ensures forall i :: 0 <= i < |entries| ==> r[i] == entries[i].content
  {
    Map(entries, (e: ChunkWithCategory) => e.content)
  }

  /** `merge_events` as written: `events += entry["content"]` over the
      entries */
  method MergeEvents(entries: seq<ChunkWithCategory>) returns (events: string)
    ensures events == Concat(KeptContents(entries))
  {
    events := "";
    var i := 0;
    while i < |entries|
      invariant 0 <= i <= |entries|
      invariant events == Concat(KeptContents(entries[..i]))
    {
      assert entries[..i + 1] == entries[..i] + [entries[i]];
      assert KeptContents(entries[..i + 1]) == KeptContents(entries[..i]) + [entries[i].content];
      ConcatAppend(KeptContents(entries[..i]), [entries[i].content]);
      assert Concat([entries[i].content]) == entries[i].content + Concat([]);
      events := events + entries[i].content;
      i := i + 1;
    }
    assert entries[..i] == entries;
  }

  /** Irrelevant entries contribute nothing: dropping them leaves the
      concatenated events unchanged */
  lemma {:induction false} IrrelevantContributeNothing(entries: seq<ChunkWithCategory>)
    requires forall i :: 0 <= i < |entries| ==> entries[i].category == Irrelevant ==> entries[i].content == ""
    ensures Concat(KeptContents(entries)) == Concat(KeptContents(WithoutIrrelevant(entries)))
  {
    if entries != [] {
      IrrelevantContributeNothing(entries[1..]);
      assert KeptContents(entries)[1..] == KeptContents(entries[1..]);
      if entries[0].category == Irrelevant {
        assert WithoutIrrelevant(entries) == WithoutIrrelevant(entries[1..]);
      } else {
        assert WithoutIrrelevant(entries) == [entries[0]] + WithoutIrrelevant(entries[1..]);
        assert KeptContents(WithoutIrrelevant(entries))[1..] == KeptContents(WithoutIrrelevant(entries[1..]));
      }
    }
  }

  function WithoutIrrelevant(entries: seq<ChunkWithCategory>): seq<ChunkWithCategory>
  {
    if entries == [] then []
    else if entries[0].category == Irrelevant then WithoutIrrelevant(entries[1..])
    else [entries[0]] + WithoutIrrelevant(entries[1..])
  }

  /** When every chunk is kept whole (Relevant or UNKNOWN), the events are the
      chunks concatenated in order */
  lemma {:induction false} WholeChunksKept(chunks: seq<string>, entries: seq<ChunkWithCategory>)
    requires |entries| == |chunks|
    requires forall i :: 0 <= i < |chunks| ==> entries[i].category in {Relevant, Unknown} && entries[i].content == chunks[i]
    ensures Concat(KeptContents(entries)) == Concat(chunks)
  {
    if chunks != [] {
      WholeChunksKept(chunks[1..], entries[1..]);
      assert KeptContents(entries)[1..] == KeptContents(entries[1..]);
    }
  }

  /** What the crawler graph returns to its callers */
  datatype CrawlResult = CrawlResult(content: string, events: string)

  /** The whole graph: scrape, chunk, classify, merge. `scraped` is what the
      Firecrawl scraper returned for the URL. */
  function CrawlUrl<T>(figure: string, scraped: Option<string>,
                       encode: string -> seq<T>, decode: seq<T> -> string,
                       respond: (string, string) -> seq<ToolCall<string>>): (r: Result<CrawlResult>)
    ensures r.Success? ==> r.value.content == CrawlerUtils.UrlCrawl(scraped)
    ensures scraped.None? ==> r == Success(CrawlResult("", ""))
    ensures r.Success? ==> |r.value.events| <= SumLengths(DivideContentIntoChunks(CrawlerUtils.UrlCrawl(scraped), encode, decode), figure, respond)
    ensures var extracted := ExtractEventsFromChunks(figure, DivideContentIntoChunks(CrawlerUtils.UrlCrawl(scraped), encode, decode), respond);
      && (r.Success? <==> extracted.Success?)
      && (r.Failure? ==> r.error == extracted.error)
      && (r.Success? ==> r.value.events == Concat(KeptContents(extracted.value)))
  {
    var content := CrawlerUtils.UrlCrawl(scraped);
    var chunks := DivideContentIntoChunks(content, encode, decode);
    var entries :- ExtractEventsFromChunks(figure, chunks, respond);
    EventsBounded(figure, chunks, respond, entries);
    Success(CrawlResult(content, Concat(KeptContents(entries))))
  }

  /** A model that never calls a tool leaves every chunk UNKNOWN, and the
      events are all the page's chunks, overlaps included, in order */
  lemma SilentModelKeepsEveryChunk<T>(figure: string, scraped: Option<string>,
                                      encode: string -> seq<T>, decode: seq<T> -> string,
                                      respond: (string, string) -> seq<ToolCall<string>>)
    requires forall chunk :: respond(figure, chunk) == []
    ensures var content := CrawlerUtils.UrlCrawl(scraped);
      CrawlUrl(figure, scraped, encode, decode, respond)
        == Success(CrawlResult(content, Concat(DivideContentIntoChunks(content, encode, decode))))
  {
    var content := CrawlerUtils.UrlCrawl(scraped);
    var chunks := DivideContentIntoChunks(content, encode, decode);
    var extracted := ExtractEventsFromChunks(figure, chunks, respond);
    assert extracted.Success?;
    WholeChunksKept(chunks, extracted.value);
  }

  /** The most text a chunk can contribute: the whole chunk, or for a
      PartialChunk verdict the model's extract */
  function SumLengths(chunks: seq<string>, figure: string, respond: (string, string) -> seq<ToolCall<string>>): nat
  {
    if chunks == [] then 0
    else
      var calls := respond(figure, chunks[0]);
      var own := if calls != [] && calls[0].name == "PartialChunk" && "relevant_content" in calls[0].args
                 then |calls[0].args["relevant_content"]| else |chunks[0]|;
      own + SumLengths(chunks[1..], figure, respond)
  }

  lemma {:induction false} EventsBounded(figure: string, chunks: seq<string>,
                                         respond: (string, string) -> seq<ToolCall<string>>, entries: seq<ChunkWithCategory>)
    requires ExtractEventsFromChunks(figure, chunks, respond) == Success(entries)
    ensures |Concat(KeptContents(entries))| <= SumLengths(chunks, figure, respond)
  {
    if chunks != [] {
      assert KeptContents(entries)[1..] == KeptContents(entries[1..]);
      EventsBounded(figure, chunks[1..], respond, entries[1..]);
    }
  }
}

=== FILE: wrappers.dfy ===
/** Failure-compatible wrappers used throughout the model: an optional value
    (Python's `None`) and a result that is either a value or the message of the
    exception the source would raise. */
module Wrappers {

  datatype Option<+T> = None | Some(value: T) {

    /** Returns the value held in Some, or `default` when None */
    function GetOr(default: T): T {
      match this
      case Some(v) => v
      case None => default
    }
  }

  datatype Result<+R> = Success(value: R) | Failure(error: string) {

    predicate IsFailure() {
      Failure?
    }

    function PropagateFailure<U>(): Result<U>
      requires Failure?
    {
      Failure(error)
    }

    function Extract(): R
      requires Success?
    {
      value
    }
  }
}
